=== FILE: README.md ===
# Employee and branch management client — a Dafny model

The system is a React/Redux single-page client for an employee and branch
management service hosted on a backend-as-a-service (authentication, tables
and object storage). The client has three parts:

- five Redux slices: employees, branches, auth, profile and dashboard;
- the helpers that validate and place uploaded CNIC (identity card) images
  in the `cnic-images` bucket, and that recover object paths from signed URLs;
- the access control around them: the store middleware, `withAuth`,
  `hasRole`, the route guard, the route table, the role-dependent navigation
  and the dashboard switch.

On top of those sit the signed-in pages:

- the employees page with its form;
- the read-only employee dialog;
- the profile page;
- the reset-password page;
- the auth callback;
- the `useAuth` hook.

This project models that logic as pure Dafny functions. Every remote call is
replaced by an input of type `Js.Remote<T>`, which is either `Done(value)` or
`Failed(message)`. Signing a storage URL is a function parameter
`Storage.SignRequest -> Remote<string>`. JavaScript objects are
`map<string, Js.Value>`, with object spread modelled as map union in which the
right side wins. Page handlers are modelled as the sequence of effects they
produce (dispatches, toasts, navigations), given the outcomes of the calls
they make.

Modules, one per file, following the program's structure:

| module | models |
|---|---|
| `Js` | values, truthiness, optional chaining, the or-fallback, spread, reading a number with a fallback of 0 |
| `Text`, `Seqs` | `indexOf`/`includes`/`split`/`replace(/\s+/g, "_")`/`length`; `filter`/`findIndex`/counting reductions |
| `Storage` | `src/lib/utils.js` |
| `EntityCache` | the `{ items, loading, error }` state shared by the employee and branch slices |
| `EmployeeSlice`, `BranchSlice`, `AuthSlice`, `ProfileSlice`, `DashboardSlice` | the slices |
| `AuthMiddleware` | `src/lib/authMiddleware.js` |
| `Routing` | `ProtectedRoute`, `AppRoutes`, the dashboard switch |
| `Layout`, `ManagerDashboard`, `UseAuth`, `AuthCallback`, `EmployeeView` | the components and the hook |
| `Rejection` | what a page's `catch` receives after `dispatch(thunk).unwrap()` |
| `EmployeePage`, `ProfilePage`, `ResetPassword` | the pages |

## Model

| member | source | states |
|---|---|---|
| EmployeeSlice.Reduce | src/redux/features/employeeSlice.jsx:253-323 | clear gives the empty cache; every pending sets loading and clears the error without touching items; every rejected keeps items and stores the message; fetch replaces items wholesale; add prepends and shifts the old rows by one; update replaces the first row with the payload's id and keeps all other positions; delete is the order-keeping filter by id: no row with the id survives, every other row does in its old relative order, and none is added |
| EmployeeSlice.FetchRoundTrip | src/redux/features/employeeSlice.jsx:269-280 | a fetch that starts and settles ends not loading, with an error exactly when it failed, with the fetched rows on success and the old rows on failure |
| EmployeeSlice.AddThenDelete | src/redux/features/employeeSlice.jsx:285-288 | adding a row with a fresh id and then deleting that id restores the rows |
| EmployeeSlice.UpdateIdempotent | src/redux/features/employeeSlice.jsx:297-305 | applying the same update twice equals applying it once |
| EmployeeSlice.UpdateKeepsIds | src/redux/features/employeeSlice.jsx:297-305 | an update never changes the sequence of cached ids |
| EmployeeSlice.DeleteShrinksByOne | src/redux/features/employeeSlice.jsx:314-317 | with unique ids, deleting a cached id removes exactly one row |
| EmployeeSlice.SignRow | src/redux/features/employeeSlice.jsx:44-70 | both URLs are replaced by their signed versions; a falsy URL becomes null; if either signing fails the row comes back unchanged; other fields never change |
| EmployeeSlice.SignRowKeepsKeys | src/redux/features/employeeSlice.jsx:47-68 | signing a row that has both URL fields yields exactly the same keys |
| EmployeeSlice.FetchEmployeeRows | src/redux/features/employeeSlice.jsx:7-77 | without a session the fetch rejects with "No active session"; a query error is passed on; otherwise every row is signed, in order |
| EmployeeSlice.FetchKeepsIds | src/redux/features/employeeSlice.jsx:44-70 | a fetch never loses or reorders rows: the ids come back as queried |
| EmployeeSlice.UpdateData | src/redux/features/employeeSlice.jsx:153-155 | the data written is the argument's `formData` object, or nothing when it has none |
| EmployeeSlice.UpdatedRow | src/redux/features/employeeSlice.jsx:195-210 | the update fulfils with the signed row exactly when both signings succeed, and otherwise rejects; the model reports the front's error when both fail, whereas under `Promise.all` the source reports whichever signing rejects first |
| EntityCache.Ids | src/redux/features/employeeSlice.jsx:297-317 | the id of every row, position by position |
| EntityCache.ReplaceById | src/redux/features/employeeSlice.jsx:297-305 | same length and ids; with no matching id, no change; otherwise only the first row with the id is replaced |
| EntityCache.ReplaceByIdIdempotent | src/redux/features/brancheSlice.jsx:168-175 | replacing by id twice with the same row equals replacing once |
| EntityCache.RemoveById | src/redux/features/brancheSlice.jsx:176-180 | no row with the id survives, every other row does, and nothing is added |
| EntityCache.RemoveByIdConcat | src/redux/features/brancheSlice.jsx:176-180 | removal works piecewise over a concatenation, so survivors keep their relative order |
| EntityCache.RemoveByIdSingleton | src/redux/features/brancheSlice.jsx:176-180 | on one row the filter keeps it exactly when its id differs; with the concatenation lemma this fixes every removal's result |
| EntityCache.RemoveByIdLength | src/redux/features/employeeSlice.jsx:314-317 | removal drops exactly as many rows as carry the id |
| EntityCache.RemoveUniqueId | src/redux/features/employeeSlice.jsx:314-317 | with unique ids, removing a present id removes one row |
| BranchSlice.EmployeeCount | src/redux/features/brancheSlice.jsx:30-32 | the count is the number of employee rows whose `branch_id` equals the branch id |
| BranchSlice.WithEmployeeCounts | src/redux/features/brancheSlice.jsx:29-37 | one entry per branch, in branch order; each keeps its fields and gains `employeeCount`, the number of employees naming that branch |
| BranchSlice.FetchBranchRows | src/redux/features/brancheSlice.jsx:5-44 | the session check comes first, then the branch query error, then the employee query error; on success the result is the counted branches |
| BranchSlice.CountsAddUp | src/redux/features/brancheSlice.jsx:29-37 | with unique branch ids and every employee naming one of the branches, the per-branch counts add up to the number of employees |
| BranchSlice.AddBranchRow | src/redux/features/brancheSlice.jsx:46-67 | no session and a failed insert reject with their messages; otherwise it fulfils with the inserted fields unchanged beside `employeeCount: 0` |
| BranchSlice.NewBranchAgreesWithFetch | src/redux/features/brancheSlice.jsx:5-44 | while no employee refers to a new branch, the added row equals the row a fetch would build for it |
| BranchSlice.UpdateBranchRow | src/redux/features/brancheSlice.jsx:69-104 | the updated row keeps its fields and gains `employeeCount`, the length of the referencing list, or 0 when the list is missing |
| BranchSlice.DeleteBranchFlow | src/redux/features/brancheSlice.jsx:106-135 | the delete is issued exactly with a session and no referencing employee; no session, a failed reference query, a referencing employee and a failed delete each reject with their own message; success returns the id |
| BranchSlice.DeleteGuardMatchesCount | src/redux/features/brancheSlice.jsx:123-127 | the guard agrees with the fetched counts: the delete is issued exactly when the branch's `employeeCount` is 0 |
| BranchSlice.Reduce | src/redux/features/brancheSlice.jsx:137-182 | clear resets; only the fetch has pending and rejected cases; add appends at the end; update replaces by id; delete is the order-keeping filter by id (`RemoveById`); add, update and delete leave loading and error alone |
| BranchSlice.FailedDeleteChangesNothing | src/redux/features/brancheSlice.jsx:165-180 | a refused or failed delete leaves the whole slice untouched |
| BranchSlice.AddThenDelete | src/redux/features/brancheSlice.jsx:165-167 | appending a branch with a fresh id and deleting it restores the slice |
| AuthSlice.SignedInUser | src/redux/features/authSlice.jsx:25-29 | the stored user has the auth user's fields, overridden by the employee row's, overridden by `accessToken` |
| AuthSlice.SignedInUserIgnoresOverridden | src/redux/features/authSlice.jsx:71-75 | auth-user fields that the employee row or the token override do not affect the result |
| AuthSlice.SignIn | src/redux/features/authSlice.jsx:5-34 | sign-in succeeds exactly when both the credential check and the employee lookup succeed, with the merged user; otherwise it fails with the first error |
| AuthSlice.CurrentSession | src/redux/features/authSlice.jsx:48-82 | no session fulfils with null; a session is merged as in sign-in |
| AuthSlice.Reduce | src/redux/features/authSlice.jsx:91-135 | setUser and signIn.fulfilled store the user; clearUser and signOut.fulfilled sign out; signIn.rejected keeps the user and stores the error; the session check's pending and fulfilled cases leave the error alone |
| AuthSlice.SignInAttempt | src/redux/features/authSlice.jsx:105-118 | a sign-in attempt ends not loading; on success it stores the merged user; when the credentials fail, or they succeed and the employee lookup fails, it keeps the previous user and stores that step's message |
| AuthSlice.SessionCheckKeepsError | src/redux/features/authSlice.jsx:125-131 | a session check that finds nobody signs out without touching an earlier error |
| AuthSlice.DirectActionsSettle | src/redux/features/authSlice.jsx:91-100 | setUser and clearUser settle loading and clear the error; clearUser leaves no user |
| ProfileSlice.Reduce | src/redux/features/profileSlice.jsx:54-89 | clear restores the initial flags; pending sets loading and clears error and success; fulfilled sets success; rejected stores the message; no case leaves loading and success both on |
| ProfileSlice.NeverLoadingAndSuccessful | src/redux/features/profileSlice.jsx:62-89 | from a consistent state, no sequence of actions shows loading and success at once |
| ProfileSlice.SuccessNeedsFulfilment | src/redux/features/profileSlice.jsx:67-70 | success appears exactly after a fulfilled action |
| DashboardSlice.Mean | src/redux/features/dashboardSlice.jsx:43 | the average times the count is the total, and an empty list averages 0 |
| DashboardSlice.MeanSalaryBounds | src/redux/features/dashboardSlice.jsx:39-43 | the average salary lies between the smallest and largest salary |
| DashboardSlice.SalarySumBounds | src/redux/features/dashboardSlice.jsx:39-42 | the salary sum lies between the lower and upper bound times the number of rows |
| DashboardSlice.RoleKeys | src/redux/features/dashboardSlice.jsx:46-49 | the counter key of every employee is the property key of its role |
| DashboardSlice.BranchEntry | src/redux/features/dashboardSlice.jsx:59-74 | a branch's entry carries its name, the number of its employees, and their mean salary (0 for none) |
| DashboardSlice.ComputeStats | src/redux/features/dashboardSlice.jsx:35-74 | the totals are the list lengths; roleDistribution has one entry per distinct role, each counting that role at least once, together summing to the employee total; salaryByBranch has one entry per branch in order |
| DashboardSlice.FetchStats | src/redux/features/dashboardSlice.jsx:5-101 | the session check comes first, then the employee error, then the branch error; on success the result is the computed statistics |
| DashboardSlice.BranchCountsAddUp | src/redux/features/dashboardSlice.jsx:59-74 | with unique branch ids and every employee assigned, the per-branch counts add up to the employee total |
| DashboardSlice.CountsAgreeWithBranches | src/redux/features/dashboardSlice.jsx:59-74 | the per-branch counts equal the `employeeCount` the branches slice attaches |
| DashboardSlice.Reduce | src/redux/features/dashboardSlice.jsx:118-131 | rejected keeps the previous stats and stores the error; fulfilled replaces the stats wholesale |
| DashboardSlice.FirstFetch | src/redux/features/dashboardSlice.jsx:105-131 | a failed first fetch leaves the initial zeros on screen; a successful one shows the computed stats |
| DashboardSlice.EmptyDatabase | src/redux/features/dashboardSlice.jsx:106-113 | the initial stats are what an empty database computes to |
| Seqs.CountBy | src/redux/features/dashboardSlice.jsx:46-56 | one tally per distinct key, each counting that key's occurrences (at least 1), together summing to the number of keys |
| Js.NumberOrZero | src/redux/features/dashboardSlice.jsx:40 | a number counts as itself, a boolean as 1 or 0, a digit string as its value, and null, undefined, an object or any other string as 0 |
| Storage.PathOf | src/lib/utils.js:58 | the path exists exactly when the URL contains `cnic-images/`; it contains neither `?` nor the marker |
| Storage.PathOfSignedUrl | src/lib/utils.js:58 | the path is recovered unchanged from any signed URL built around it |
| Storage.SignRequestFor | src/lib/utils.js:55-66 | signing is requested exactly for a non-empty extracted path, always for 604800 seconds |
| Storage.GetSignedUrl | src/lib/utils.js:53-74 | a falsy URL gives null; a URL without a usable path fails with "Invalid URL format"; otherwise the signing answer is passed on |
| Storage.RemovalFor | src/lib/utils.js:76-82 | a removal is issued exactly for a non-empty extracted path; a truthy URL that is not a string fails with the `TypeError` of `url.split`, and only such a URL |
| Storage.DeleteImage | src/lib/utils.js:76-93 | no removal means success; a removal passes on the storage answer; a URL that cannot be split rethrows that error |
| Storage.UnreadableUrlContrast | src/lib/utils.js:55-61 | a URL with no usable path makes `getSignedUrl` fail but `deleteImage` succeed silently |
| Storage.Extension | src/lib/utils.js:24 | the extension has no dot, and a name without a dot is its own extension |
| Storage.ExtensionOf | src/lib/utils.js:24 | the extension of `base.ext` is `ext` |
| Storage.CheckImage | src/lib/utils.js:11-21 | an image is acceptable exactly when its type starts with `image/` and its size is at most 5 MiB; the type is checked first |
| Storage.PlanUpload | src/lib/utils.js:9-42 | no file means no upload; a rejected image carries the type or size message; otherwise the file goes to `userId/type-stamp.ext` with its MIME type, signed for 604800 seconds |
| Storage.UploadImage | src/lib/utils.js:9-51 | no file gives null and a rejected image gives its message; for an acceptable image, a successful upload and signing return the signed URL, a failed upload rethrows its error, and a failed signing after it rethrows the signing error |
| Storage.SizeLimitBoundary | src/lib/utils.js:18-21 | exactly 5 MiB is accepted and one byte more is rejected |
| Storage.UploadedPathRecovered | src/lib/utils.js:24-66 | the URL of an uploaded image leads back to the path it was stored under |
| AuthMiddleware.Middleware | src/lib/authMiddleware.js:7-17 | an action is swallowed exactly when its type ends in `/rejected` and its payload contains "unauthorized"; every other action goes to `next`, whose result is returned; a non-string payload on a rejection throws |
| AuthMiddleware.CaseSensitive | src/lib/authMiddleware.js:10-11 | "Unauthorized" does not trigger a sign-out |
| AuthMiddleware.UnauthorisedSwallowed | src/lib/authMiddleware.js:10-15 | any rejection mentioning "unauthorized" is swallowed |
| AuthMiddleware.HasRoleMeaning | src/lib/authMiddleware.js:41-47 | a list means membership and a single role means equality; with nobody signed in, no role string or list of them matches |
| AuthMiddleware.OneIsSingletonList | src/lib/authMiddleware.js:43-46 | a single role asks the same question as a one-element list |
| AuthMiddleware.TryBlock | src/lib/authMiddleware.js:23-30 | with a session the operation's outcome, without one the wrapper's own "No active session" error, and a failed lookup's error otherwise |
| AuthMiddleware.CatchUsing | src/lib/authMiddleware.js:31-37 | a 401 redirects and rethrows before the message is read; a string message rethrows and redirects exactly when it matches; any other message is replaced by a `TypeError` and never redirects |
| AuthMiddleware.WithAuthUsing | src/lib/authMiddleware.js:20-38 | the operation runs exactly when a session exists; a returned value is passed on without a redirect; a raised error is rethrown unless its message is not a string (then the `TypeError` is), and redirects exactly for status 401 or a matching string message |
| AuthMiddleware.WithAuth | src/lib/authMiddleware.js:20-38 | the redirect condition as written: status 401, or a string message containing lower-case "no active session" |
| AuthMiddleware.MessagelessErrorReplaced | src/lib/authMiddleware.js:32 | an error with neither status 401 nor a string message reaches the caller as a `TypeError`, and nobody is signed out; with status 401 the same error redirects |
| AuthMiddleware.OwnErrorNotRedirected | src/lib/authMiddleware.js:28-32 | the wrapper's own missing-session error is raised but does not redirect |
| AuthMiddleware.WithAuthCorrected | src/lib/authMiddleware.js:20-38 | with a case-insensitive match, a missing session always redirects |
| AuthMiddleware.CorrectionOnlyAddsRedirects | src/lib/authMiddleware.js:32 | the corrected wrapper returns the same outcome and redirects whenever the written one does |
| AuthMiddleware.IntendedCoversWritten | src/lib/authMiddleware.js:32 | every failure the written condition redirects on, the corrected one does too |
| AuthMiddleware.LowerAscii | src/lib/authMiddleware.js:32 | ASCII lower-casing changes exactly the upper-case letters |
| Routing.ProtectedRoute | src/components/ProtectedRoute.jsx:6-24 | no user goes to login, carrying the location; an empty role list admits any signed-in user; a non-empty list admits exactly its members and sends others to the dashboard |
| Routing.WiderListAdmitsMore | src/components/ProtectedRoute.jsx:14-23 | adding roles to a non-empty list never shuts anyone out |
| Routing.AppRoutes | src/App.jsx:21-119 | spinner while loading; public callback and reset pages; login redirects a signed-in user; protected pages send a signed-out user to login; unmatched paths go to the dashboard |
| Routing.EmployeesAccess | src/App.jsx:55-63 | `/employees` shows its page exactly to admins and managers; others are sent to the dashboard |
| Routing.BranchesAccess | src/App.jsx:64-71 | `/branches` shows its page exactly to admins; others are sent to the dashboard |
| Routing.SessionOnlyPages | src/App.jsx:43-51 | `/dashboard` and `/profile` need only a session |
| Routing.EveryPathSettles | src/App.jsx:21-119 | every path reaches a page within two redirects; signed out, that is a public page; signed in, never the spinner or login |
| Routing.DeniedLandsOnDashboard | src/App.jsx:64-71 | a non-admin asking for `/branches` lands on the dashboard |
| Routing.DashboardFor | src/pages/Dashboard.jsx:8-21 | employee, manager and admin each select their dashboard, and any other or absent role selects the invalid-role view |
| Layout.Navigation | src/components/Layout.jsx:28-58 | every menu starts with Dashboard and Profile; admin, manager and employee add their links; any other role gets only the base list |
| Layout.Title | src/components/Layout.jsx:149-150 | the title is the name of the first item linking to the current path, else "Dashboard" |
| Layout.NavigationWellFormed | src/components/Layout.jsx:28-58 | no menu links a page twice and every item has a name |
| Layout.TitleOfMenuPage | src/components/Layout.jsx:149-150 | on every page of a role's menu the header shows that link's name |
| Layout.NavigationMatchesRoutes | src/components/Layout.jsx:34-54 | a user's menu links `/branches` exactly when the route admits them, links `/employees` only when it admits them, and its first two links reach their pages |
| Layout.UnroutedLinksFallThrough | src/App.jsx:72-116 | the schedule, tasks and reports links have no route and land on the dashboard |
| Layout.LogoutEffects | src/components/Layout.jsx:62-86 | on success, exactly five effects: the user, employees and branches are cleared, then the success toast, then the navigation to login; on failure, only an error toast |
| Layout.LogoutClearsOnlyOnSuccess | src/components/Layout.jsx:62-86 | a successful logout empties all three slices; a failed one changes nothing |
| Layout.LoggedOutIsGuarded | src/components/Layout.jsx:62-86 | after a successful logout, and once `useAuth`'s own loading flag is off after its initialisation, the guarded pages redirect to login; while that flag is on, the spinner shows |
| ManagerDashboard.BranchEmployees | src/components/ManagerDashboard.jsx:30-32 | exactly the employees sharing the manager's `branch_id` |
| ManagerDashboard.BranchEmployeesInOrder | src/components/ManagerDashboard.jsx:30-32 | the filter keeps the original order |
| ManagerDashboard.RoleData | src/components/ManagerDashboard.jsx:34-42 | one entry per distinct role of the branch, each at least 1, together summing to the branch total |
| ManagerDashboard.RoleShownIffPresent | src/components/ManagerDashboard.jsx:34-42 | a role is charted exactly when some employee of the branch has it |
| ManagerDashboard.SliceColor | src/components/ManagerDashboard.jsx:18 | slice colours cycle through the three colours with period 3 |
| ManagerDashboard.TotalMatchesDashboard | src/components/ManagerDashboard.jsx:53 | the manager's total equals the count the statistics give that branch |
| UseAuth.FetchUserData | src/hooks/useAuth.js:15-40 | after teardown nothing is dispatched; a lookup error dispatches clearUser; an empty result dispatches nothing; a row dispatches setUser with the merged user |
| UseAuth.InitializeAuth | src/hooks/useAuth.js:42-55 | a mounted hook always ends loading; no session or a failed check dispatches nothing; a session runs the lookup |
| UseAuth.OnAuthStateChange | src/hooks/useAuth.js:61-69 | SIGNED_IN with a session runs the lookup, SIGNED_OUT clears the user, and other events are ignored |
| UseAuth.Teardown | src/hooks/useAuth.js:71-74 | teardown unmounts and keeps the loading flag |
| UseAuth.InitialisationEndsLoading | src/hooks/useAuth.js:10-55 | loading ends whether the session exists, is absent, or the check fails |
| UseAuth.NoSessionNoChange | src/hooks/useAuth.js:47-49 | no session at start leaves the stored user unchanged |
| UseAuth.HookAgreesWithSessionThunk | src/hooks/useAuth.js:25-32 | a successful lookup stores the same user `getCurrentSession` would |
| UseAuth.NothingAfterTeardown | src/hooks/useAuth.js:25-36 | after teardown no lookup result reaches the store |
| UseAuth.LookupOutcomes | src/hooks/useAuth.js:23-38 | a lookup error signs the user out; a missing row changes nothing |
| AuthCallback.OtpKind | src/components/AuthCallback.jsx:20-25 | invite links verify as magic links and recovery links as recovery |
| AuthCallback.HandleCallback | src/components/AuthCallback.jsx:13-55 | recovery and invite links verify, then go to the reset page or fail to login; other links check the session and go to the dashboard or to login |
| AuthCallback.NavigatesExactlyOnce | src/components/AuthCallback.jsx:13-55 | every run navigates exactly once, as its last step, and never both verifies and checks the session |
| AuthCallback.Destination | src/components/AuthCallback.jsx:27-45 | the run ends on the reset page exactly after a successful verification, and on the dashboard exactly when another link finds a session |
| AuthCallback.FailuresGoToLogin | src/components/AuthCallback.jsx:46-54 | any failure ends on the login page |
| EmployeeView.BadgeVariant | src/components/EmployeeInfoViewDialog.jsx:215-221 | "default" exactly for admin, "secondary" exactly for manager, "outline" for everyone else |
| Js.Prop | src/components/EmployeeInfoViewDialog.jsx:263 | an optional property read finds a property only on an object; on anything else it is undefined |
| EmployeeView.DetailsOf | src/components/EmployeeInfoViewDialog.jsx:245-274 | phone, address and CNIC number fall back to "Not provided", and the branch to "Not assigned" |
| EmployeeView.DetailsNeverBlank | src/components/EmployeeInfoViewDialog.jsx:245-274 | no field the dialog shows is blank |
| EmployeeView.MissingBranchUnassigned | src/components/EmployeeInfoViewDialog.jsx:263 | an employee without a joined branch shows as unassigned |
| EmployeeView.DownloadExtension | src/components/EmployeeInfoViewDialog.jsx:99 | the extension is never empty and never holds `/`; a type without `/` gives "png" |
| EmployeeView.ImageSubtypeIsExtension | src/components/EmployeeInfoViewDialog.jsx:99 | the subtype of `image/subtype` becomes the extension |
| EmployeeView.EmptySubtypeFallsBack | src/components/EmployeeInfoViewDialog.jsx:99 | a type with nothing after the slash falls back to "png" |
| EmployeeView.DownloadName | src/components/EmployeeInfoViewDialog.jsx:98-100 | the file name starts with the underscored name, then `_cnic_`, the side and a dot, and ends with the extension, its length is exactly the sum of those parts, which the upload helper reads back |
| EmployeeView.DownloadNameHasNoSpace | src/components/EmployeeInfoViewDialog.jsx:98-100 | the file name has no whitespace when the side and MIME type have none |
| Text.UnderscoreSpaces | src/components/EmployeeInfoViewDialog.jsx:98 | the result has no whitespace and is no longer than the input |
| Text.UnderscoreSpacesRun | src/components/EmployeeInfoViewDialog.jsx:98 | whitespace-free text is kept in order and the maximal whitespace run after it, however long, becomes a single `_` |
| Text.UnderscoreSpacesNoSpace | src/components/EmployeeInfoViewDialog.jsx:98 | text without whitespace is unchanged |
| Text.UnderscoreSpacesIdempotent | src/components/EmployeeInfoViewDialog.jsx:98 | replacing whitespace runs twice equals replacing them once |
| EmployeeView.DownloadLabel | src/components/EmployeeInfoViewDialog.jsx:192 | "Download " followed by the side with only its first letter upper-cased |
| EmployeeView.LabelsOfTheTwoSides | src/components/EmployeeInfoViewDialog.jsx:192 | the buttons read "Download Front" and "Download Back" |
| EmployeeView.Step | src/components/EmployeeInfoViewDialog.jsx:35-161 | the card's response to a refresh starting (spinner on, error cleared) and settling (a new URL keeps any error; a failure sets it), an image load or error, a retry, and a download start or finish |
| EmployeeView.NoUrlKeepsSpinner | src/components/EmployeeInfoViewDialog.jsx:46 | with no stored URL the card keeps its spinner and shows no image |
| EmployeeView.RefreshOutcomes | src/components/EmployeeInfoViewDialog.jsx:48-72 | a refresh that starts and settles with nothing in between: a signed URL replaces the stored one and ends loading; a failure hides the image |
| EmployeeView.ImageFailureOutlivesRefresh | src/components/EmployeeInfoViewDialog.jsx:49-57 | an image failure while the signing is pending survives a successful refresh, which does not clear the error; without it the new URL shows |
| EmployeeView.RetryShowsStoredUrl | src/components/EmployeeInfoViewDialog.jsx:156-161 | retry fetches nothing new: the card shows the URL it already had |
| EmployeeView.DownloadRoundTrip | src/components/EmployeeInfoViewDialog.jsx:83-120 | the download button is disabled during a download and the card returns to its state after it |
| EmployeeView.Download | src/components/EmployeeInfoViewDialog.jsx:83-120 | a download succeeds exactly when both signing and fetching succeed, and is saved under the computed file name |
| Rejection.UnwrappedMessageLost | src/pages/Employee.jsx:452-459 | after an unwrapped rejection, `error.message` is undefined whatever the message |
| Rejection.Description | src/pages/Employee.jsx:452-459 | the intended reading: a thrown string describes itself |
| Rejection.DescriptionKeepsMessage | src/pages/Employee.jsx:452-459 | the intended reading shows the rejection message and describes error objects as before |
| EmployeePage.InitialForm | src/pages/Employee.jsx:44-54 | the defaults (role "employee", other fields "") are overridden field by field by an existing employee |
| EmployeePage.InitialPreview | src/pages/Employee.jsx:61-64 | a side's preview is its stored URL when truthy, else null |
| EmployeePage.RequiredIffNoPreview | src/pages/Employee.jsx:344-370 | an image input is required exactly when the side starts without a preview, so both are required for a new employee |
| EmployeePage.PickFile | src/pages/Employee.jsx:81-120 | no file does nothing; a non-image is rejected first, then a file over 5 MiB; otherwise the file is picked |
| EmployeePage.PickerAgreesWithUpload | src/pages/Employee.jsx:81-103 | the picker accepts exactly what the upload accepts and rejects with the same messages |
| EmployeePage.Choose | src/pages/Employee.jsx:105-109 | only a picked file replaces the chosen image of its side |
| EmployeePage.ChosenImagesAcceptable | src/pages/Employee.jsx:81-109 | every image that reaches the form passed the upload checks |
| EmployeePage.RoleOptions | src/pages/Employee.jsx:264-272 | "Admin" is offered exactly to admins |
| EmployeePage.PermissionsMatchRoutes | src/pages/Employee.jsx:148 | the page's management actions belong exactly to the users the `/employees` route admits, and role editing exactly to those `/branches` admits |
| EmployeePage.Credentials | src/pages/Employee.jsx:132-137 | the credentials panel appears exactly for a result carrying a temporary password |
| EmployeePage.SubmitArg | src/pages/Employee.jsx:423-442 | an update carries the selected id, the form under `formData`, and the images; an addition carries no id |
| EmployeePage.SubmitUsing | src/pages/Employee.jsx:122-146 | submit is ignored while loading; a selected employee is updated and the dialog closed; otherwise the employee is added and the credentials shown; a failure raises two error toasts |
| EmployeePage.Submit | src/pages/Employee.jsx:421-460 | as written, both error toasts of a failed submission have no description |
| EmployeePage.SubmitCorrected | src/pages/Employee.jsx:421-460 | corrected, both error toasts carry the rejection message; successes are unchanged |
| EmployeePage.OnlyUpdatesClose | src/pages/Employee.jsx:438-451 | the dialog closes exactly after a successful update |
| EmployeePage.UpdateCarriesForm | src/pages/Employee.jsx:425-431 | the update thunk writes exactly the form the user submitted |
| EmployeePage.AdditionShowsCredentials | src/pages/Employee.jsx:132-137 | a new employee's temporary password is shown with their e-mail |
| EmployeePage.FailureToastsAreBlank | src/pages/Employee.jsx:138-145 | as written, every toast of a failed submission has an undefined description |
| EmployeePage.CorrectedToastsCarryMessage | src/pages/Employee.jsx:452-459 | corrected, every toast of a failed submission shows the message |
| ResetPassword.TokenGate | src/pages/ResetPassword.jsx:26-40 | a missing or empty token toasts an error and goes to login; a token does nothing |
| ResetPassword.SessionGate | src/pages/ResetPassword.jsx:42-58 | without a session the page toasts an error and goes to login |
| ResetPassword.Validate | src/pages/ResetPassword.jsx:63-79 | a password passes exactly when it matches the confirmation and is at least 6 UTF-16 units long; a mismatch is reported first |
| ResetPassword.Submit | src/pages/ResetPassword.jsx:60-110 | an invalid password only toasts; a failed update toasts its message; a success updates, signs out, toasts and goes to login |
| ResetPassword.OnlyValidPasswordsSent | src/pages/ResetPassword.jsx:63-86 | a password reaches the backend exactly when it passes both checks, and it is the one typed |
| ResetPassword.MismatchReportedFirst | src/pages/ResetPassword.jsx:63-79 | a mismatch is reported even when the password is also too short |
| ResetPassword.SignOutBeforeLogin | src/pages/ResetPassword.jsx:88-99 | the page goes to login exactly when it signed out, and signs out before it goes |
| ResetPassword.AstralCharactersCountTwice | src/pages/ResetPassword.jsx:72 | three characters outside the Basic Multilingual Plane already make six, and five ASCII letters are too short |
| Text.Split | src/lib/utils.js:58 | `split` with a non-empty separator: at least one piece, none containing the separator, and joining them back gives the input |
| Text.IndexOf | src/lib/authMiddleware.js:32 | the first position at which the text occurs, or none when it occurs nowhere |
| Js.Spread | src/redux/features/authSlice.jsx:25-28 | object spread: the keys of both, with the later object's value winning on a shared key |
| Seqs.FindIndex | src/components/Layout.jsx:149 | the first index whose element satisfies the test, or none when no element does |
| ResetPassword.QueryParam | src/pages/ResetPassword.jsx:29 | a path without `?` has no parameter at all |
| ResetPassword.FirstValue | src/pages/ResetPassword.jsx:29 | none exactly when no pair is for the key; otherwise the value of the first pair for the key, a bare key giving "" |
| ResetPassword.QueryParamOfSecondPair | src/pages/ResetPassword.jsx:29 | in a two-pair query whose first pair is for another key, the second pair's value is found |
| ResetPassword.QueryParamOfPair | src/pages/ResetPassword.jsx:29 | a path whose query is the one pair `key=value` yields that value |
| ResetPassword.CallbackLanding | src/components/AuthCallback.jsx:20-31 | the path a verified recovery or invite link is sent to is one of the callback's navigations |
| ResetPassword.CallbackLandingHasNoToken | src/components/AuthCallback.jsx:30 | as written, that path has no `token` parameter, so the reset page's token check sends every verified link on to login |
| ResetPassword.CallbackLandingCorrected | src/components/AuthCallback.jsx:30 | the intended path carries the verified token, which the reset page reads back unchanged |
| ResetPassword.CorrectedLandingKeepsToken | src/pages/ResetPassword.jsx:29-37 | with the correction, a verified link with a non-empty token passes the token check |
| Text.Utf16Length | src/pages/ResetPassword.jsx:72 | the JavaScript length lies between one and two units per character, and equals the character count inside the Basic Multilingual Plane |
| ProfilePage.ProfileForm | src/pages/Profile.jsx:40-56 | the form holds exactly the four fields, each the user's value when truthy and "" otherwise |
| ProfilePage.FormNeverMissing | src/pages/Profile.jsx:40-56 | with nobody signed in every field is "", and no field is ever null or undefined |
| ProfilePage.BranchLabel | src/pages/Profile.jsx:198-201 | the label is never blank; with no matching branch it is "Not Assigned", and any other label is the name of a branch with the user's id |
| ProfilePage.LabelOfOwnBranch | src/pages/Profile.jsx:198-201 | with unique ids, the label is the name of the user's branch |
| ProfilePage.ChangePassword | src/pages/Profile.jsx:95-135 | a mismatch only toasts; a confirmed password is sent; success clears and closes the dialog; failure toasts the message and keeps the dialog |
| ProfilePage.PasswordSentIffConfirmed | src/pages/Profile.jsx:98-125 | a password is sent exactly when confirmed, and only a successful change clears and closes the dialog |
| ProfilePage.WeakerThanResetPage | src/pages/Profile.jsx:95-112 | every password the reset page accepts passes here, and a one-character password passes here only |
| ProfilePage.UpdateArg | src/pages/Profile.jsx:73-77 | the dispatched argument is the user's id beside the flat form fields |
| ProfilePage.ProfileUpdateWritesNothing | src/pages/Profile.jsx:73-77 | as written, the update thunk finds no `formData` and writes nothing |
| ProfilePage.UpdateArgCorrected | src/pages/Profile.jsx:73-77 | corrected, the argument nests the form under `formData`, which the thunk writes in full |
| ProfilePage.CorrectedUpdateWritesForm | src/pages/Profile.jsx:73-77 | corrected, the update writes exactly the four profile fields the user entered |
| ProfilePage.ProfileUpdateUsing | src/pages/Profile.jsx:68-93 | a profile update dispatches, then toasts success or an error described from the thrown value |
| ProfilePage.ProfileFailureToastBlank | src/pages/Profile.jsx:84-89 | as written, a failed profile update toasts no description; corrected, it shows the message |

## Left out

- Backend SDK calls (sign-in, sessions, table reads and writes, storage upload, sign and remove, admin user creation and deletion) are not modelled. Each is an input: a success value or an error message.
- addEmployee and deleteEmployee are not modelled beyond their reducer cases. Their bodies are sequences of SDK calls.
- Temporary-password generation (`Math.random`) and the `Date.now` stamp in storage paths are not modelled. The stamp is an opaque text input of `Storage.PlanUpload`.
- updateEmployee's image upload and delete sequencing is not modelled. Only its payload (`EmployeeSlice.UpdateData`) and the signing of its result (`EmployeeSlice.UpdatedRow`) are.
- `refreshSignedUrl` is not modelled. It parses a WHATWG `URL` and matches its pattern against `pathname`. That pattern requires a `?`, which a pathname never contains, so the function returns its input.
- `monthlyGrowth` is not modelled, because it depends on `Date`, `setMonth` and `toFixed`.
- Numbers are integers, and averages are exact rationals, so floating point and NaN are not modelled. `Number` parsing is narrowed as the next line says.
- Js.NumberOrZero: reads only plain decimal digit strings, and reads as 0 every other string, including ones `Number` would parse (a sign, surrounding whitespace, an exponent or a fraction).
- Object.entries ordering is not modelled. The role tallies keep first-seen order, whereas JavaScript lists integer-like keys first.
- DashboardSlice.ComputeStats: the role tally counts every role name alike, whereas the source tallies into a plain `{}`. There a role named like a member inherited from `Object.prototype` ("toString", "constructor") starts from that truthy function and stores a string, and one named "__proto__" is dropped. The model's counts, which always sum to the employee total, hold only for role names that are not such members.
- ManagerDashboard.RoleData: the same simplification as `DashboardSlice.ComputeStats` for roles named like members inherited from `Object.prototype`.
- Ids are compared by value, not by object reference.
- Route matching is exact string equality, without React Router's normalisation of trailing slashes or case.
- React rendering, dialogs, toasts' visual variants, clipboard use, FileReader previews and the navigation side effects are not modelled. Pages produce effect sequences instead.
- `Promise.all` concurrency and the `mounted` teardown race are not modelled beyond the mounted flag.
- EmployeeView.DownloadLabel: upper-cases only ASCII letters, whereas `toUpperCase` maps all of Unicode; the sides used are "front" and "back".
- AuthMiddleware.LowerAscii: lower-cases only ASCII letters, enough for the messages compared.
- ResetPassword.QueryParam: reads the query as `&`-separated pairs without percent-decoding, `+` as a space or a `#` fragment; the paths involved have none of these.
- AuthMiddleware.WithAuth: a thrown `null` or `undefined`, on which reading `error.status` itself throws, is not modelled. An error is a status and a message value.
- AuthMiddleware.Middleware: array payloads, on which `includes` tests element membership, are treated like other non-string payloads.
- ResetPassword.Submit: the answer of the `signOut` call after a successful update is not inspected by the page, so the model does not take it as an input.
- The employee list table, the employee's created-date formatting, and the `toLocaleString` salary display are presentation and are not modelled.
- Employee.jsx `handleDelete` (confirmation dialog, then deleteEmployee) is not modelled. Its error toast reads `error.message` like the submit handlers, so it is blank in the same way.
- AdminDashboard.jsx and EmployeeDashboard.jsx (presentation), Branches.jsx and Login.jsx (their rules are covered by the route table and the auth slice), and supabaseClient.js, store.jsx and main.jsx (configuration) are not part of this model.

## Findings

| source | as written | input that shows it | evidently intended | confidence | as-written member | corrected member |
|---|---|---|---|---|---|---|
| src/lib/authMiddleware.js:28-32 | `withAuth` redirects on a message containing lower-case "no active session", but the error it throws itself reads "No active session" | a call made with no session: the error is rethrown and no sign-out or redirect happens | a missing session signs out and redirects to login | high, not executed | AuthMiddleware.OwnErrorNotRedirected | AuthMiddleware.WithAuthCorrected |
| src/pages/Profile.jsx:73-77 | the profile form's fields are spread beside the id, but `updateEmployee` reads them from `formData` (src/redux/features/employeeSlice.jsx:153-155) | any profile update: the data written is `{}` | the fields are passed under `formData`, as the employees page does | high, not executed | ProfilePage.ProfileUpdateWritesNothing | ProfilePage.UpdateArgCorrected |
| src/pages/Employee.jsx:452-459 | after `unwrap()` the catch block reads `error.message`, but every thunk rejects with `rejectWithValue(error.message)`, so the thrown value is the message string itself | any failed add or update, e.g. `createUser` refusing an e-mail address that is already registered (src/redux/features/employeeSlice.jsx:91-102) or the update query's error: both error toasts (this one and src/pages/Employee.jsx:138-145) have no description, and so does the profile page's (src/pages/Profile.jsx:84-89) | the toast shows the rejection message | medium, not executed | EmployeePage.FailureToastsAreBlank | EmployeePage.SubmitCorrected |
| src/components/AuthCallback.jsx:30 | after verifying a recovery or invite link, the callback navigates to the bare `/reset-password`, but that page sends a visitor without a `token` parameter to login (src/pages/ResetPassword.jsx:29-37) | any recovery or invite link whose verification succeeds | the reset form is shown, the callback passing the token on | medium, not executed | ResetPassword.CallbackLandingHasNoToken | ResetPassword.CallbackLandingCorrected |

=== FILE: auth_callback.dfy ===
/** The landing page for links sent by e-mail: recovery and invite links are
    verified and lead to the reset-password page, anything else goes to the
    dashboard or the login page depending on the session. */
module AuthCallback {
  import opened Js

  datatype Effect =
    | VerifyOtp(tokenHash: Option<string>, kind: string)
    | CheckSession
    | Toast(title: string, description: string)
    | Navigate(to: string)

  const FailureToast := Toast("Error", "Failed to process authentication. Please try again.")

  /** The `type` parameter of a link that carries a one-time token. */
  predicate OtpLink(linkType: Option<string>) {
    linkType == Some("recovery") || linkType == Some("invite")
  }

  /** The OTP type verified for a link type: invites are verified as magic links. */
  function OtpKind(linkType: Option<string>): (kind: string)
    ensures linkType == Some("invite") ==> kind == "magiclink"
    ensures linkType != Some("invite") ==> kind == "recovery"
  {
    if linkType == Some("invite") then "magiclink" else "recovery"
  }

  /** `handleCallback`, given the query parameters and how the verification and
      the session check went (`true` for a session). */
  function HandleCallback(token: Option<string>, linkType: Option<string>,
                          verify: Remote<()>, session: Remote<bool>): (effects: seq<Effect>)
    ensures 2 <= |effects| <= 3
    ensures OtpLink(linkType) ==> effects[0] == VerifyOtp(token, OtpKind(linkType))
    ensures OtpLink(linkType) && verify.Done? ==> effects == [VerifyOtp(token, OtpKind(linkType)), Navigate("/reset-password")]
    ensures OtpLink(linkType) && verify.Failed? ==> effects == [VerifyOtp(token, OtpKind(linkType)), FailureToast, Navigate("/login")]
    ensures !OtpLink(linkType) ==> effects[0] == CheckSession
    ensures !OtpLink(linkType) && session.Done? ==>
      effects == [CheckSession, Navigate(if session.value then "/dashboard" else "/login")]
    ensures !OtpLink(linkType) && session.Failed? ==> effects == [CheckSession, FailureToast, Navigate("/login")]
  {
    if OtpLink(linkType) then
      var verifying := VerifyOtp(token, OtpKind(linkType));
      match verify
      case Done(_) => [verifying, Navigate("/reset-password")]
      case Failed(_) => [verifying, FailureToast, Navigate("/login")]
    else
      match session
      case Done(present) => [CheckSession, Navigate(if present then "/dashboard" else "/login")]
      case Failed(_) => [CheckSession, FailureToast, Navigate("/login")]
  }

  function Navigations(effects: seq<Effect>): nat
    decreases |effects|
  {
    if |effects| == 0 then 0 else (if effects[0].Navigate? then 1 else 0) + Navigations(effects[1..])
  }

  /** Every run navigates exactly once, as its last step, and never both
      verifies a token and checks the session. */
  lemma NavigatesExactlyOnce(token: Option<string>, linkType: Option<string>, verify: Remote<()>, session: Remote<bool>)
    ensures var effects := HandleCallback(token, linkType, verify, session);
      && Navigations(effects) == 1
      && effects[|effects| - 1].Navigate?
      && !(CheckSession in effects && effects[0].VerifyOtp?)
  {
    var effects := HandleCallback(token, linkType, verify, session);
    if |effects| == 2 {
      assert effects[1..] == [effects[1]];
      assert effects[1..][1..] == [];
    } else {
      assert effects[1..] == [effects[1], effects[2]];
      assert effects[1..][1..] == [effects[2]];
      assert effects[1..][1..][1..] == [];
      assert Navigations(effects[1..][1..]) == 1;
      assert Navigations(effects[1..]) == 1;
    }
  }

  /** The page a run ends on. */
  function Destination(token: Option<string>, linkType: Option<string>, verify: Remote<()>, session: Remote<bool>): (to: string)
    ensures to in {"/reset-password", "/dashboard", "/login"}
    ensures to == "/reset-password" <==> OtpLink(linkType) && verify.Done?
    ensures to == "/dashboard" <==> !OtpLink(linkType) && session == Done(true)
  {
    var effects := HandleCallback(token, linkType, verify, session);
    effects[|effects| - 1].to
  }

  /** Any failure ends on the login page. */
  lemma FailuresGoToLogin(token: Option<string>, linkType: Option<string>, verify: Remote<()>, session: Remote<bool>)
    requires FailureToast in HandleCallback(token, linkType, verify, session)
    ensures Destination(token, linkType, verify, session) == "/login"
  {
  }
}

=== FILE: auth_middleware.dfy ===
/** The store middleware that signs the user out on an unauthorised rejection,
    the `withAuth` wrapper around authenticated operations, and `hasRole`. */
module AuthMiddleware {
  import opened Js
  import opened Text

  /** A dispatched action: its type and its payload. */
  datatype StoreAction = StoreAction(actionType: string, payload: Value)

  /** What the middleware does with one action. */
  datatype Step =
      /** `clearUser` is dispatched, the page goes to `/login`, and `next` is never called. */
    | Swallowed
      /** `next(action)` was called and its result returned. */
    | Passed(result: Value)
      /** `payload.includes` is not a function for this payload. */
    | Threw

  /** `type.endsWith("/rejected") && payload?.includes("unauthorized")`, for the
      payloads on which it does not throw. */
  predicate Unauthorised(a: StoreAction) {
    EndsWith(a.actionType, "/rejected") && a.payload.Str? && Contains(a.payload.s, "unauthorized")
  }

  /** `authMiddleware()(next)(action)`. */
  function Middleware(a: StoreAction, next: StoreAction -> Value): (step: Step)
    ensures step == Swallowed <==> Unauthorised(a)
    ensures step.Passed? ==> step.result == next(a)
    ensures step.Threw? <==>
      EndsWith(a.actionType, "/rejected") && !a.payload.Str? && !a.payload.Undefined? && !a.payload.Null?
    ensures !EndsWith(a.actionType, "/rejected") ==> step == Passed(next(a))
  {
    if !EndsWith(a.actionType, "/rejected") then Passed(next(a))
    else match a.payload
      case Undefined => Passed(next(a))
      case Null => Passed(next(a))
      case Str(s) => if Contains(s, "unauthorized") then Swallowed else Passed(next(a))
      case _ => Threw
  }

  /** The match is case-sensitive: "Unauthorized" does not trigger a sign-out. */
  lemma CaseSensitive(t: string)
    requires EndsWith(t, "/rejected")
    ensures Middleware(StoreAction(t, Str("Unauthorized")), (a: StoreAction) => Null) == Passed(Null)
  {
    assert !Contains("Unauthorized", "unauthorized") by {
      assert "Unauthorized"[..12] != "unauthorized" by {
        assert "Unauthorized"[..12][0] == 'U';
      }
      assert |"Unauthorized"[1..]| < |"unauthorized"|;
    }
  }

  /** Any rejection whose message mentions "unauthorized" is swallowed,
      whatever text surrounds it. */
  lemma UnauthorisedSwallowed(t: string, before: string, after: string, next: StoreAction -> Value)
    requires EndsWith(t, "/rejected")
    ensures Middleware(StoreAction(t, Str(before + "unauthorized" + after)), next) == Swallowed
  {
    var s := before + "unauthorized" + after;
    assert s[|before|..|before| + 12] == "unauthorized";
    ContainsIffOccurs(s, "unauthorized");
    assert OccursAt(s, "unauthorized", |before|);
  }

  /** `requiredRole`: either an array of roles or a single value. */
  datatype RoleArg = AnyOf(roles: seq<Value>) | One(role: Value)

  /** `hasRole(requiredRole)` against the signed-in user, if any. */
  predicate HasRole(user: Option<Record>, required: RoleArg) {
    match required
    case AnyOf(roles) => GetOpt(user, "role") in roles
    case One(role) => GetOpt(user, "role") == role
  }

  /** Membership for a list, equality for a single value; with nobody signed in,
      no list of role strings and no role string matches. */
  lemma HasRoleMeaning(user: Option<Record>, required: RoleArg)
    ensures required.AnyOf? ==> (HasRole(user, required) <==> exists i | 0 <= i < |required.roles| :: required.roles[i] == GetOpt(user, "role"))
    ensures required.One? ==> (HasRole(user, required) <==> GetOpt(user, "role") == required.role)
    ensures user.None? && required.One? && required.role.Str? ==> !HasRole(user, required)
    ensures user.None? && required.AnyOf? && (forall i | 0 <= i < |required.roles| :: required.roles[i].Str?) ==>
      !HasRole(user, required)
  {
    if required.AnyOf? && HasRole(user, required) {
      var i :| 0 <= i < |required.roles| && required.roles[i] == GetOpt(user, "role");
    }
  }

  /** A single role is the same question as a one-element list of it. */
  lemma OneIsSingletonList(user: Option<Record>, role: Value)
    ensures HasRole(user, One(role)) <==> HasRole(user, AnyOf([role]))
  {
  }

  /** An error as `withAuth`'s `catch` sees it: its `status` and its
      `message`, each whatever the thrower put there (an SDK error may carry a
      status and no message). */
  datatype Failure = Failure(status: Value, message: Value)

  datatype Attempt = Returned(value: Value) | Raised(failure: Failure)

  /** What `supabase.auth.getSession()` gave. */
  datatype SessionLookup = HasSession | NoSession | LookupFailed(failure: Failure)

  /** One run of the wrapped operation: what the caller gets, whether the
      operation itself ran, and whether the user was signed out and redirected. */
  datatype Run = Run(outcome: Attempt, operationRan: bool, redirected: bool)

  const NoSessionMessage := "No active session"
  const OwnError := Failure(Undefined, Str(NoSessionMessage))

  /** What the `try` block ends with before the `catch` runs. */
  function TryBlock(lookup: SessionLookup, operation: Attempt): (a: Attempt)
    ensures lookup.HasSession? ==> a == operation
    ensures lookup.NoSession? ==> a == Raised(OwnError)
    ensures lookup.LookupFailed? ==> a == Raised(lookup.failure)
  {
    match lookup
    case HasSession => operation
    case NoSession => Raised(OwnError)
    case LookupFailed(f) => Raised(f)
  }

  /** The `TypeError` that `error.message.includes(...)` raises when the
      message is not a string, in the words of V8. */
  function IncludesTypeError(message: Value): Failure {
    match message
    case Undefined => Failure(Undefined, Str("Cannot read properties of undefined (reading 'includes')"))
    case Null => Failure(Undefined, Str("Cannot read properties of null (reading 'includes')"))
    case _ => Failure(Undefined, Str("error.message.includes is not a function"))
  }

  /** The `catch` block, with the test applied to a string message as a
      parameter: what it throws and whether it redirected first. A 401 is
      decided before the message is read; a non-string message then makes
      the test itself throw, replacing the error and skipping the redirect. */
  function CatchUsing(matches: string -> bool, f: Failure): (r: (Failure, bool))
    ensures f.status == Num(401) ==> r == (f, true)
    ensures f.status != Num(401) && f.message.Str? ==> r == (f, matches(f.message.s))
    ensures f.status != Num(401) && !f.message.Str? ==> !r.1 && r.0 != f && r.0.message.Str?
  {
    if f.status == Num(401) then (f, true)
    else if f.message.Str? then (f, matches(f.message.s))
    else (IncludesTypeError(f.message), false)
  }

  /** `withAuth(operation)(...args)` with the message test as a parameter. */
  function WithAuthUsing(matches: string -> bool, lookup: SessionLookup, operation: Attempt): (r: Run)
    ensures r.operationRan <==> lookup.HasSession?
    ensures TryBlock(lookup, operation).Returned? ==> r.outcome == operation && !r.redirected
    ensures var tried := TryBlock(lookup, operation);
      tried.Raised? ==>
        && r.outcome.Raised?
        && (r.redirected <==>
              (tried.failure.status == Num(401) ||
               (tried.failure.message.Str? && matches(tried.failure.message.s))))
        && (tried.failure.status == Num(401) || tried.failure.message.Str? ==> r.outcome == tried)
        && (tried.failure.status != Num(401) && !tried.failure.message.Str? ==>
              r.outcome == Raised(IncludesTypeError(tried.failure.message)))
  {
    match TryBlock(lookup, operation)
    case Returned(v) => Run(Returned(v), lookup.HasSession?, false)
    case Raised(f) =>
      var (thrown, redirected) := CatchUsing(matches, f);
      Run(Raised(thrown), lookup.HasSession?, redirected)
  }

  /** The message test exactly as written: a case-sensitive `includes`. */
  predicate MatchesAsWritten(message: string) {
    Contains(message, "no active session")
  }

  /** `withAuth` as written. */
  function WithAuth(lookup: SessionLookup, operation: Attempt): (r: Run)
    ensures r.operationRan <==> lookup.HasSession?
    ensures lookup.HasSession? && operation.Returned? ==> r == Run(operation, true, false)
    ensures lookup.NoSession? ==> r.outcome == Raised(OwnError)
    ensures r.redirected <==>
      && TryBlock(lookup, operation).Raised?
      && var f := TryBlock(lookup, operation).failure;
         f.status == Num(401) || (f.message.Str? && Contains(f.message.s, "no active session"))
  {
    WithAuthUsing(MatchesAsWritten, lookup, operation)
  }

  /** An error with neither a 401 status nor a string message is not passed
      on: the caller receives the `TypeError` of reading its message, and
      nobody is signed out. */
  lemma MessagelessErrorReplaced(status: Value, message: Value)
    requires status != Num(401) && !message.Str?
    ensures var r := WithAuth(HasSession, Raised(Failure(status, message)));
      && r.operationRan && !r.redirected
      && r.outcome.Raised? && r.outcome.failure != Failure(status, message)
      && r.outcome.failure.message.Str?
    ensures WithAuth(HasSession, Raised(Failure(Num(401), message))).redirected
  {
  }

  /** As written, the wrapper's own missing-session error does not redirect:
      it is capitalised, and the check looks for the lower-case phrase. */
  lemma OwnErrorNotRedirected(operation: Attempt)
    ensures !WithAuth(NoSession, operation).redirected
    ensures WithAuth(NoSession, operation).outcome.Raised?
  {
    assert !Contains(NoSessionMessage, "no active session") by {
      assert NoSessionMessage[..17] != "no active session" by {
        assert NoSessionMessage[0] == 'N';
      }
      assert |NoSessionMessage[1..]| < 17;
    }
  }

  /** ASCII lower-casing, enough for the messages compared here. */
  function LowerAscii(s: string): (r: string)
    ensures |r| == |s|
    ensures forall i | 0 <= i < |s| ::
      r[i] == (if 'A' <= s[i] <= 'Z' then (s[i] as int + 32) as char else s[i])
  {
    seq(|s|, i requires 0 <= i < |s| => if 'A' <= s[i] <= 'Z' then (s[i] as int + 32) as char else s[i])
  }

  /** The evidently intended message test: a mention of a missing session in
      any letter case. */
  predicate MatchesIntended(message: string) {
    Contains(LowerAscii(message), "no active session")
  }

  /** `withAuth` with the intended message test. */
  function WithAuthCorrected(lookup: SessionLookup, operation: Attempt): (r: Run)
    ensures r.operationRan <==> lookup.HasSession?
    ensures lookup.HasSession? && operation.Returned? ==> r == Run(operation, true, false)
    ensures lookup.NoSession? ==> r.outcome == Raised(OwnError)
    ensures r.redirected <==>
      && TryBlock(lookup, operation).Raised?
      && var f := TryBlock(lookup, operation).failure;
         f.status == Num(401) || (f.message.Str? && MatchesIntended(f.message.s))
    ensures lookup.NoSession? ==> r.redirected
  {
    if lookup.NoSession? then
      NoSessionRedirects();
      WithAuthUsing(MatchesIntended, lookup, operation)
    else
      WithAuthUsing(MatchesIntended, lookup, operation)
  }

  lemma NoSessionRedirects()
    ensures MatchesIntended(NoSessionMessage)
  {
    var lowered := LowerAscii(NoSessionMessage);
    assert lowered == "no active session";
    assert lowered[..17] == "no active session";
  }

  /** The intended test accepts every message the written one does, so the
      correction only adds redirects. */
  lemma IntendedCoversWritten(message: string)
    requires MatchesAsWritten(message)
    ensures MatchesIntended(message)
  {
    var i := IndexOf(message, "no active session").value;
    var lowered := LowerAscii(message);
    assert lowered[i..i + 17] == message[i..i + 17];
    assert OccursAt(lowered, "no active session", i);
    ContainsIffOccurs(lowered, "no active session");
  }

  /** The corrected wrapper runs the operation exactly when the written one
      does, returns the same outcome, and redirects at least as often. */
  lemma CorrectionOnlyAddsRedirects(lookup: SessionLookup, operation: Attempt)
    ensures WithAuthCorrected(lookup, operation).outcome == WithAuth(lookup, operation).outcome
    ensures WithAuth(lookup, operation).redirected ==> WithAuthCorrected(lookup, operation).redirected
  {
    var tried := TryBlock(lookup, operation);
    if WithAuth(lookup, operation).redirected && tried.failure.status != Num(401) {
      IntendedCoversWritten(tried.failure.message.s);
    }
  }
}

=== FILE: auth_slice.dfy ===
/** The auth slice: the signed-in user record that `signIn` and
    `getCurrentSession` assemble from the auth user, the employee row and the
    access token, and the reducer over `{ user, loading, error }`. */
module AuthSlice {
  import opened Js

  /** What the backend reports for a signed-in session. */
  datatype Session = Session(user: Record, accessToken: string)

  /** `{ ...authUser, ...employee, accessToken }`: employee fields override the
      auth user's, and the access token overrides both. */
  function SignedInUser(authUser: Record, employee: Record, accessToken: string): (r: Record)
    ensures r.Keys == authUser.Keys + employee.Keys + {"accessToken"}
    ensures r["accessToken"] == Str(accessToken)
    ensures forall k | k in employee && k != "accessToken" :: r[k] == employee[k]
    ensures forall k | k in authUser && k !in employee && k != "accessToken" :: r[k] == authUser[k]
  {
    Spread(Spread(authUser, employee), map["accessToken" := Str(accessToken)])
  }

  /** The merge does not depend on whether the auth user carried a stale token
      or fields the employee row repeats. */
  lemma SignedInUserIgnoresOverridden(authUser: Record, employee: Record, token: string, k: string)
    requires k in employee || k == "accessToken"
    ensures SignedInUser(authUser, employee, token) == SignedInUser(authUser - {k}, employee, token)
  {
  }

  /** `signIn`: the credential check, then the employee lookup. */
  function SignIn(credentials: Remote<Session>, employee: Remote<Record>): (r: Remote<Record>)
    ensures credentials.Failed? ==> r == Failed(credentials.message)
    ensures credentials.Done? && employee.Failed? ==> r == Failed(employee.message)
    ensures r.Done? <==> credentials.Done? && employee.Done?
    ensures r.Done? ==>
      r.value == SignedInUser(credentials.value.user, employee.value, credentials.value.accessToken)
  {
    match credentials
    case Failed(m) => Failed(m)
    case Done(session) =>
      match employee
      case Failed(m) => Failed(m)
      case Done(row) => Done(SignedInUser(session.user, row, session.accessToken))
  }

  /** `getCurrentSession`: no session fulfils with `null`; a session is merged
      with its employee row as in `signIn`. */
  function CurrentSession(session: Remote<Option<Session>>, employee: Remote<Record>): (r: Remote<Option<Record>>)
    ensures session.Failed? ==> r == Failed(session.message)
    ensures session == Done(None) ==> r == Done(None)
    ensures session.Done? && session.value.Some? ==>
      r == match SignIn(Done(session.value.value), employee)
           case Done(u) => Done(Some(u))
           case Failed(m) => Failed(m)
  {
    match session
    case Failed(m) => Failed(m)
    case Done(None) => Done(None)
    case Done(Some(s)) =>
      match employee
      case Failed(m) => Failed(m)
      case Done(row) => Done(Some(SignedInUser(s.user, row, s.accessToken)))
  }

  datatype State = State(user: Option<Record>, loading: bool, error: Option<string>)

  /** Until the session is known the app is loading. */
  const Initial := State(None, true, None)

  datatype Action =
    | SetUser(user: Record)
    | ClearUser
    | SignInPending
    | SignInFulfilled(user: Record)
    | SignInRejected(message: string)
    | SignOutPending
    | SignOutFulfilled
    | SignOutRejected(message: string)
    | SessionPending
    | SessionFulfilled(found: Option<Record>)
    | SessionRejected(message: string)
    | Unrelated

  /** `authSlice.reducer`. */
  function Reduce(s: State, a: Action): (t: State)
    ensures a.SetUser? ==> t == State(Some(a.user), false, None)
    ensures a.ClearUser? || a.SignOutFulfilled? ==> t == State(None, false, None)
    ensures a.SignInPending? ==> t.user == s.user && t.loading && t.error.None?
    ensures a.SignInFulfilled? ==> t == State(Some(a.user), false, None)
    ensures a.SignInRejected? ==> t.user == s.user && !t.loading && t.error == Some(a.message)
    ensures a.SignOutPending? || a.SignOutRejected? || a.Unrelated? ==> t == s
    ensures a.SessionPending? ==> t.user == s.user && t.loading && t.error == s.error
    ensures a.SessionFulfilled? ==> t.user == a.found && !t.loading && t.error == s.error
    ensures a.SessionRejected? ==> t.user == s.user && !t.loading && t.error == Some(a.message)
  {
    match a
    case SetUser(u) => State(Some(u), false, None)
    case ClearUser => State(None, false, None)
    case SignInPending => s.(loading := true, error := None)
    case SignInFulfilled(u) => State(Some(u), false, None)
    case SignInRejected(m) => s.(loading := false, error := Some(m))
    case SignOutPending => s
    case SignOutFulfilled => State(None, false, None)
    case SignOutRejected(_) => s
    case SessionPending => s.(loading := true)
    case SessionFulfilled(found) => s.(user := found, loading := false)
    case SessionRejected(m) => s.(loading := false, error := Some(m))
    case Unrelated => s
  }

  /** The action a finished `signIn` dispatches. */
  function SignInSettled(r: Remote<Record>): Action {
    match r
    case Done(u) => SignInFulfilled(u)
    case Failed(m) => SignInRejected(m)
  }

  /** A sign-in attempt ends not loading; it stores the merged user when both
      lookups succeed and otherwise keeps whoever was signed in and reports why. */
  lemma SignInAttempt(s: State, credentials: Remote<Session>, employee: Remote<Record>)
    ensures
      var t := Reduce(Reduce(s, SignInPending), SignInSettled(SignIn(credentials, employee)));
      && !t.loading
      && (t.error.None? <==> credentials.Done? && employee.Done?)
      && (credentials.Done? && employee.Done? ==>
            t.user == Some(SignedInUser(credentials.value.user, employee.value, credentials.value.accessToken)))
      && (credentials.Failed? ==> t.user == s.user && t.error == Some(credentials.message))
      && (credentials.Done? && employee.Failed? ==> t.user == s.user && t.error == Some(employee.message))
  {
  }

  /** A session check that finds nobody signs the app out without touching an
      earlier error; `SessionPending` alone never clears it. */
  lemma SessionCheckKeepsError(s: State)
    ensures Reduce(Reduce(s, SessionPending), SessionFulfilled(None)) == State(None, false, s.error)
  {
  }

  /** `setUser` and `clearUser` always settle loading and clear the error. */
  lemma DirectActionsSettle(s: State, u: Record)
    ensures var t := Reduce(s, SetUser(u)); !t.loading && t.error.None?
    ensures var t := Reduce(s, ClearUser); !t.loading && t.error.None? && t.user.None?
  {
  }
}

=== FILE: branch_slice.dfy ===
/** The branches slice: the per-branch employee counts `fetchBranches` attaches,
    the payloads of `addBranch` and `updateBranch`, the reference guard of
    `deleteBranch`, and the reducer, which only tracks loading and errors for
    the fetch. */
module BranchSlice {
  import opened Js
  import opened Seqs
  import opened EntityCache

  const NoSessionMessage := "No active session"
  const InUseMessage := "Cannot delete branch with active employees"

  /** `emp.branch_id === branch.id` */
  function WorksAt(branch: Record): Record -> bool {
    (emp: Record) => Get(emp, "branch_id") == IdOf(branch)
  }

  /** `employees.filter(emp => emp.branch_id === branch.id).length` */
  function EmployeeCount(branch: Record, employees: seq<Record>): (n: nat)
    ensures n == Count(employees, WorksAt(branch))
    ensures n <= |employees|
  {
    FilterLength(employees, WorksAt(branch));
    |Filter(employees, WorksAt(branch))|
  }

  /** `{ ...branch, employeeCount }` for each branch, in branch order. */
  function WithEmployeeCounts(branches: seq<Record>, employees: seq<Record>): (r: seq<Record>)
    ensures |r| == |branches|
    ensures forall i | 0 <= i < |branches| ::
      && r[i].Keys == branches[i].Keys + {"employeeCount"}
      && r[i]["employeeCount"] == Num(Count(employees, WorksAt(branches[i])))
      && (forall k | k in branches[i] && k != "employeeCount" :: r[i][k] == branches[i][k])
  {
    seq(|branches|, i requires 0 <= i < |branches| =>
      Spread(branches[i], map["employeeCount" := Num(EmployeeCount(branches[i], employees))]))
  }

  /** `fetchBranches`: the session check, then the branch query's error, then
      the employee query's error, then the counted branches. */
  function FetchBranchRows(hasSession: bool, branches: Remote<seq<Record>>,
                           employees: Remote<seq<Record>>): (r: Remote<seq<Record>>)
    ensures !hasSession ==> r == Failed(NoSessionMessage)
    ensures hasSession && branches.Failed? ==> r == Failed(branches.message)
    ensures hasSession && branches.Done? && employees.Failed? ==> r == Failed(employees.message)
    ensures r.Done? <==> hasSession && branches.Done? && employees.Done?
    ensures r.Done? ==> r.value == WithEmployeeCounts(branches.value, employees.value)
  {
    if !hasSession then Failed(NoSessionMessage)
    else if branches.Failed? then Failed(branches.message)
    else if employees.Failed? then Failed(employees.message)
    else Done(WithEmployeeCounts(branches.value, employees.value))
  }

  /** The per-branch counts added up. */
  function SumCounts(branches: seq<Record>, employees: seq<Record>): nat
    decreases |branches|
  {
    if |branches| == 0 then 0
    else Count(employees, WorksAt(branches[0])) + SumCounts(branches[1..], employees)
  }

  /** The branch whose id an employee row names. */
  predicate Assigned(emp: Record, branches: seq<Record>) {
    exists j | 0 <= j < |branches| :: Get(emp, "branch_id") == IdOf(branches[j])
  }

  /** When branch ids are unique and every employee names one of the branches,
      the per-branch counts add up to the number of employees. */
  lemma {:induction false} CountsAddUp(branches: seq<Record>, employees: seq<Record>)
    requires UniqueIds(branches)
    requires forall i | 0 <= i < |employees| :: Assigned(employees[i], branches)
    ensures SumCounts(branches, employees) == |employees|
    decreases |employees|
  {
    if |employees| == 0 {
      SumCountsEmpty(branches);
    } else {
      var e := employees[0];
      var rest := employees[1..];
      SumCountsCons(branches, e, rest);
      assert employees == [e] + rest;
      OneBranchMatches(branches, e);
      assert forall i | 0 <= i < |rest| :: Assigned(rest[i], branches) by {
        forall i | 0 <= i < |rest|
          ensures Assigned(rest[i], branches)
        {
          assert rest[i] == employees[i + 1];
        }
      }
      CountsAddUp(branches, rest);
    }
  }

  /** How many of the branches an employee row names. */
  function Matches(branches: seq<Record>, emp: Record): nat
    decreases |branches|
  {
    if |branches| == 0 then 0
    else (if WorksAt(branches[0])(emp) then 1 else 0) + Matches(branches[1..], emp)
  }

  lemma {:induction false} SumCountsEmpty(branches: seq<Record>)
    ensures SumCounts(branches, []) == 0
    decreases |branches|
  {
    if |branches| > 0 {
      SumCountsEmpty(branches[1..]);
    }
  }

  /** Counting one more employee adds the number of branches it matches. */
  lemma {:induction false} SumCountsCons(branches: seq<Record>, e: Record, rest: seq<Record>)
    ensures SumCounts(branches, [e] + rest) == Matches(branches, e) + SumCounts(branches, rest)
    decreases |branches|
  {
    if |branches| > 0 {
      assert ([e] + rest)[1..] == rest;
      SumCountsCons(branches[1..], e, rest);
    }
  }

  /** With unique ids, an assigned employee matches exactly one branch. */
  lemma {:induction false} OneBranchMatches(branches: seq<Record>, e: Record)
    requires UniqueIds(branches)
    ensures Matches(branches, e) == (if Assigned(e, branches) then 1 else 0)
    decreases |branches|
  {
    if |branches| > 0 {
      var tail := branches[1..];
      OneBranchMatches(tail, e);
      if WorksAt(branches[0])(e) {
        assert !Assigned(e, tail) by {
          forall j | 0 <= j < |tail|
            ensures Get(e, "branch_id") != IdOf(tail[j])
          {
            assert tail[j] == branches[j + 1];
          }
        }
      } else {
        assert Assigned(e, branches) == Assigned(e, tail) by {
          if Assigned(e, branches) {
            var j :| 0 <= j < |branches| && Get(e, "branch_id") == IdOf(branches[j]);
            assert tail[j - 1] == branches[j];
          }
          if Assigned(e, tail) {
            var j :| 0 <= j < |tail| && Get(e, "branch_id") == IdOf(tail[j]);
            assert tail[j] == branches[j + 1];
          }
        }
      }
    }
  }

  /** `addBranch`: the inserted row with `employeeCount: 0`. */
  function AddBranchRow(hasSession: bool, inserted: Remote<Record>): (r: Remote<Record>)
    ensures !hasSession ==> r == Failed(NoSessionMessage)
    ensures hasSession && inserted.Failed? ==> r == Failed(inserted.message)
    ensures r.Done? <==> hasSession && inserted.Done?
    ensures r.Done? ==>
      && r.value.Keys == inserted.value.Keys + {"employeeCount"}
      && r.value["employeeCount"] == Num(0)
      && (forall k | k in inserted.value && k != "employeeCount" :: r.value[k] == inserted.value[k])
  {
    if !hasSession then Failed(NoSessionMessage)
    else match inserted
      case Failed(m) => Failed(m)
      case Done(row) => Done(Spread(row, map["employeeCount" := Num(0)]))
  }

  /** Nobody works at a branch with no referencing employee. */
  lemma {:induction false} NoneWorkAt(branch: Record, employees: seq<Record>)
    requires forall i | 0 <= i < |employees| :: Get(employees[i], "branch_id") != IdOf(branch)
    ensures Count(employees, WorksAt(branch)) == 0
    decreases |employees|
  {
    if |employees| > 0 {
      NoneWorkAt(branch, employees[1..]);
    }
  }

  /** A freshly added branch shows the count a fetch would attach to it: while
      no employee refers to its id, both give `employeeCount: 0` beside the same
      fields. */
  lemma NewBranchAgreesWithFetch(row: Record, employees: seq<Record>)
    requires forall i | 0 <= i < |employees| :: Get(employees[i], "branch_id") != IdOf(row)
    ensures AddBranchRow(true, Done(row)) == Done(WithEmployeeCounts([row], employees)[0])
  {
    NoneWorkAt(row, employees);
    var added := AddBranchRow(true, Done(row)).value;
    var fetched := WithEmployeeCounts([row], employees)[0];
    assert added.Keys == fetched.Keys;
    assert forall k | k in added :: added[k] == fetched[k];
  }

  /** `updateBranch`: the updated row with `employeeCount: employees?.length || 0`,
      where a missing list reads as `None`. */
  function UpdateBranchRow(hasSession: bool, updated: Remote<Record>,
                           employees: Remote<Option<seq<Record>>>): (r: Remote<Record>)
    ensures !hasSession ==> r == Failed(NoSessionMessage)
    ensures hasSession && updated.Failed? ==> r == Failed(updated.message)
    ensures hasSession && updated.Done? && employees.Failed? ==> r == Failed(employees.message)
    ensures r.Done? <==> hasSession && updated.Done? && employees.Done?
    ensures r.Done? ==>
      && r.value.Keys == updated.value.Keys + {"employeeCount"}
      && r.value["employeeCount"] == Num(if employees.value.Some? then |employees.value.value| else 0)
      && (forall k | k in updated.value && k != "employeeCount" :: r.value[k] == updated.value[k])
  {
    if !hasSession then Failed(NoSessionMessage)
    else if updated.Failed? then Failed(updated.message)
    else if employees.Failed? then Failed(employees.message)
    else
      var n := match employees.value case Some(list) => Num(|list|) case None => Undefined;
      Done(Spread(updated.value, map["employeeCount" := Or(n, Num(0))]))
  }

  /** What `deleteBranch` settles with, and whether it got as far as issuing
      the delete. */
  datatype DeleteOutcome = DeleteOutcome(result: Remote<Value>, deleteIssued: bool)

  /** `deleteBranch`: refuses while the reference query returns any employee. */
  function DeleteBranchFlow(hasSession: bool, id: Value, referencing: Remote<Option<seq<Record>>>,
                            deletion: Remote<()>): (o: DeleteOutcome)
    ensures o.deleteIssued <==>
      hasSession && referencing.Done? && (referencing.value.None? || |referencing.value.value| == 0)
    ensures hasSession && referencing.Done? && referencing.value.Some? && |referencing.value.value| > 0 ==>
      o.result == Failed(InUseMessage)
    ensures o.result.Done? <==> o.deleteIssued && deletion.Done?
    ensures o.result.Done? ==> o.result.value == id
    ensures !hasSession ==> o.result == Failed(NoSessionMessage)
    ensures hasSession && referencing.Failed? ==> o.result == Failed(referencing.message)
    ensures o.deleteIssued && deletion.Failed? ==> o.result == Failed(deletion.message)
  {
    if !hasSession then DeleteOutcome(Failed(NoSessionMessage), false)
    else if referencing.Failed? then DeleteOutcome(Failed(referencing.message), false)
    else if referencing.value.Some? && |referencing.value.value| > 0 then
      DeleteOutcome(Failed(InUseMessage), false)
    else if deletion.Failed? then DeleteOutcome(Failed(deletion.message), true)
    else DeleteOutcome(Done(id), true)
  }

  /** The guard agrees with the counts the fetch shows: when the reference query
      returns the employees of the branch, the delete is issued exactly when the
      branch's `employeeCount` is zero, and refused with the in-use message otherwise. */
  lemma DeleteGuardMatchesCount(branch: Record, employees: seq<Record>, deletion: Remote<()>)
    ensures
      var counted := WithEmployeeCounts([branch], employees)[0];
      var o := DeleteBranchFlow(true, IdOf(branch), Done(Some(Filter(employees, WorksAt(branch)))), deletion);
      && (o.deleteIssued <==> counted["employeeCount"] == Num(0))
      && (counted["employeeCount"] != Num(0) ==> o.result == Failed(InUseMessage))
  {
    FilterLength(employees, WorksAt(branch));
  }

  datatype Thunk = FetchBranches | AddBranch | UpdateBranch | DeleteBranch

  datatype Action =
    | ClearBranches
    | Pending(thunk: Thunk)
    | Rejected(thunk: Thunk, message: string)
    | FetchFulfilled(rows: seq<Record>)
    | AddFulfilled(row: Record)
    | UpdateFulfilled(row: Record)
    | DeleteFulfilled(id: Value)
    | Unrelated

  /** `branchSlice.reducer`. Only the fetch has pending and rejected cases;
      the fulfilled cases of add, update and delete leave the flags alone. */
  function Reduce(s: Cache, a: Action): (t: Cache)
    ensures a.ClearBranches? ==> t == Empty
    ensures a.Pending? ==> t.items == s.items
    ensures a.Pending? && a.thunk == FetchBranches ==> t.loading && t.error.None?
    ensures a.Rejected? ==> t.items == s.items
    ensures a.Rejected? && a.thunk == FetchBranches ==> !t.loading && t.error == Some(a.message)
    ensures (a.Pending? || a.Rejected?) && a.thunk != FetchBranches ==> t == s
    ensures a.FetchFulfilled? ==> t.items == a.rows && !t.loading && t.error == s.error
    ensures a.AddFulfilled? ==>
      && |t.items| == |s.items| + 1
      && t.items[|s.items|] == a.row
      && t.items[..|s.items|] == s.items
      && t.loading == s.loading && t.error == s.error
    ensures a.UpdateFulfilled? ==> t == s.(items := ReplaceById(s.items, a.row))
    ensures a.DeleteFulfilled? ==>
      && t.items == RemoveById(s.items, a.id)
      && !HasId(t.items, a.id)
      && (forall i | 0 <= i < |s.items| && IdOf(s.items[i]) != a.id :: s.items[i] in t.items)
      && (forall i | 0 <= i < |t.items| :: t.items[i] in s.items)
      && t.loading == s.loading && t.error == s.error
    ensures a.Unrelated? ==> t == s
  {
    match a
    case ClearBranches => Empty
    case Pending(FetchBranches) => Cache(s.items, true, None)
    case Pending(_) => s
    case Rejected(FetchBranches, m) => Cache(s.items, false, Some(m))
    case Rejected(_, _) => s
    case FetchFulfilled(rows) => Cache(rows, false, s.error)
    case AddFulfilled(row) => s.(items := s.items + [row])
    case UpdateFulfilled(row) => s.(items := ReplaceById(s.items, row))
    case DeleteFulfilled(id) => s.(items := RemoveById(s.items, id))
    case Unrelated => s
  }

  /** The action a finished `deleteBranch` dispatches. */
  function DeleteSettled(o: DeleteOutcome): Action {
    match o.result
    case Done(id) => DeleteFulfilled(id)
    case Failed(m) => Rejected(DeleteBranch, m)
  }

  /** A refused or failed delete leaves the whole slice as it was. */
  lemma FailedDeleteChangesNothing(s: Cache, hasSession: bool, id: Value,
                                   referencing: Remote<Option<seq<Record>>>, deletion: Remote<()>)
    requires DeleteBranchFlow(hasSession, id, referencing, deletion).result.Failed?
    ensures Reduce(Reduce(s, Pending(DeleteBranch)),
                   DeleteSettled(DeleteBranchFlow(hasSession, id, referencing, deletion))) == s
  {
  }

  /** Appending a branch with a fresh id and then deleting it restores the rows. */
  lemma AddThenDelete(s: Cache, row: Record)
    requires !HasId(s.items, IdOf(row))
    ensures Reduce(Reduce(s, AddFulfilled(row)), DeleteFulfilled(IdOf(row))) == s
  {
    RemoveByIdConcat(s.items, [row], IdOf(row));
  }
}

=== FILE: dashboard_slice.dfy ===
/** The dashboard slice: the statistics `fetchDashboardStats` derives from the
    employee and branch rows, and the reducer that stores them. Salaries are
    read with `Number(salary) || 0`; averages are exact rationals. */
module DashboardSlice {
  import opened Js
  import opened Seqs
  import opened EntityCache
  import BranchSlice

  const NoSessionMessage := "No active session"

  /** `Number(emp.salary) || 0` */
  function Salary(emp: Record): int {
    NumberOrZero(Get(emp, "salary"))
  }

  /** `employees.reduce((sum, emp) => sum + (Number(emp.salary) || 0), 0)` */
  function SalarySum(employees: seq<Record>): int
    decreases |employees|
  {
    if |employees| == 0 then 0 else Salary(employees[0]) + SalarySum(employees[1..])
  }

  /** `count ? total / count : 0` */
  function Mean(total: int, count: nat): (m: real)
    ensures count == 0 ==> m == 0.0
    ensures count > 0 ==> m * count as real == total as real
  {
    if count == 0 then 0.0 else total as real / count as real
  }

  /** The summed salaries lie between the smallest and largest possible salary
      times the number of rows. */
  lemma {:induction false} SalarySumBounds(employees: seq<Record>, lo: int, hi: int)
    requires forall i | 0 <= i < |employees| :: lo <= Salary(employees[i]) <= hi
    ensures lo * |employees| <= SalarySum(employees) <= hi * |employees|
    decreases |employees|
  {
    if |employees| > 0 {
      SalarySumBounds(employees[1..], lo, hi);
      assert lo * |employees| == lo + lo * (|employees| - 1);
      assert hi * |employees| == hi + hi * (|employees| - 1);
    }
  }

  /** A mean lies between any bounds that bracket the total over the count. */
  lemma MeanBetween(total: int, count: nat, lo: int, hi: int)
    requires count > 0
    requires lo * count <= total <= hi * count
    ensures lo as real <= Mean(total, count) <= hi as real
  {
    var n := count as real;
    var m := Mean(total, count);
    assert m == total as real / n;
    assert (lo * count) as real == lo as real * n;
    assert (hi * count) as real == hi as real * n;
    assert lo as real == (lo as real * n) / n;
    assert hi as real == (hi as real * n) / n;
  }

  /** An average salary lies between the smallest and the largest salary. */
  lemma MeanSalaryBounds(employees: seq<Record>, lo: int, hi: int)
    requires |employees| > 0
    requires forall i | 0 <= i < |employees| :: lo <= Salary(employees[i]) <= hi
    ensures lo as real <= Mean(SalarySum(employees), |employees|) <= hi as real
  {
    SalarySumBounds(employees, lo, hi);
    MeanBetween(SalarySum(employees), |employees|, lo, hi);
  }

  /** `String(emp.role)`, the key the role counter is indexed by. */
  function RoleKeys(employees: seq<Record>): (keys: seq<string>)
    ensures |keys| == |employees|
    ensures forall i | 0 <= i < |employees| :: keys[i] == PropertyKey(Get(employees[i], "role"))
  {
    seq(|employees|, i requires 0 <= i < |employees| => PropertyKey(Get(employees[i], "role")))
  }

  /** One entry of `salaryByBranch`. */
  datatype BranchSalary = BranchSalary(branchName: Value, averageSalary: real, employeeCount: nat)

  /** The statistics the dashboard shows. `monthlyGrowth` is not modelled. */
  datatype Stats = Stats(
    totalEmployees: nat,
    totalBranches: nat,
    averageSalary: real,
    roleDistribution: seq<Tally>,
    salaryByBranch: seq<BranchSalary>)

  const InitialStats := Stats(0, 0, 0.0, [], [])

  /** The `salaryByBranch` entry of one branch. */
  function BranchEntry(branch: Record, employees: seq<Record>): (b: BranchSalary)
    ensures b.branchName == Get(branch, "name")
    ensures b.employeeCount == Count(employees, BranchSlice.WorksAt(branch))
    ensures b.employeeCount == 0 ==> b.averageSalary == 0.0
    ensures b.averageSalary == Mean(SalarySum(Filter(employees, BranchSlice.WorksAt(branch))), b.employeeCount)
  {
    var staff := Filter(employees, BranchSlice.WorksAt(branch));
    FilterLength(employees, BranchSlice.WorksAt(branch));
    BranchSalary(Get(branch, "name"), Mean(SalarySum(staff), |staff|), |staff|)
  }

  /** The statistics block of `fetchDashboardStats`. */
  function ComputeStats(employees: seq<Record>, branches: seq<Record>): (s: Stats)
    ensures s.totalEmployees == |employees|
    ensures s.totalBranches == |branches|
    ensures |employees| == 0 ==> s.averageSalary == 0.0
    ensures s.averageSalary == Mean(SalarySum(employees), |employees|)
    ensures DistinctKeys(s.roleDistribution)
    ensures forall i | 0 <= i < |s.roleDistribution| ::
      && s.roleDistribution[i].count >= 1
      && s.roleDistribution[i].count == Occurrences(RoleKeys(employees), s.roleDistribution[i].key)
    ensures forall r :: r in RoleKeys(employees) <==> r in KeysOf(s.roleDistribution)
    ensures Total(s.roleDistribution) == s.totalEmployees
    ensures |s.salaryByBranch| == |branches|
    ensures forall i | 0 <= i < |branches| :: s.salaryByBranch[i] == BranchEntry(branches[i], employees)
  {
    Stats(
      |employees|,
      |branches|,
      Mean(SalarySum(employees), |employees|),
      CountBy(RoleKeys(employees)),
      seq(|branches|, i requires 0 <= i < |branches| => BranchEntry(branches[i], employees)))
  }

  /** `fetchDashboardStats`: the session check, then the employee query's error,
      then the branch query's error (the opposite order to `fetchBranches`). */
  function FetchStats(hasSession: bool, employees: Remote<seq<Record>>,
                      branches: Remote<seq<Record>>): (r: Remote<Stats>)
    ensures !hasSession ==> r == Failed(NoSessionMessage)
    ensures hasSession && employees.Failed? ==> r == Failed(employees.message)
    ensures hasSession && employees.Done? && branches.Failed? ==> r == Failed(branches.message)
    ensures r.Done? <==> hasSession && employees.Done? && branches.Done?
    ensures r.Done? ==> r.value == ComputeStats(employees.value, branches.value)
  {
    if !hasSession then Failed(NoSessionMessage)
    else if employees.Failed? then Failed(employees.message)
    else if branches.Failed? then Failed(branches.message)
    else Done(ComputeStats(employees.value, branches.value))
  }

  /** The per-branch counts add up to the number of employees when every
      employee names one branch and branch ids are unique. */
  lemma BranchCountsAddUp(employees: seq<Record>, branches: seq<Record>)
    requires UniqueIds(branches)
    requires forall i | 0 <= i < |employees| :: BranchSlice.Assigned(employees[i], branches)
    ensures SumEmployeeCounts(ComputeStats(employees, branches).salaryByBranch) == |employees|
  {
    var entries := ComputeStats(employees, branches).salaryByBranch;
    SumEntries(branches, employees, entries);
    BranchSlice.CountsAddUp(branches, employees);
  }

  function SumEmployeeCounts(entries: seq<BranchSalary>): nat
    decreases |entries|
  {
    if |entries| == 0 then 0 else entries[0].employeeCount + SumEmployeeCounts(entries[1..])
  }

  lemma {:induction false} SumEntries(branches: seq<Record>, employees: seq<Record>, entries: seq<BranchSalary>)
    requires |entries| == |branches|
    requires forall i | 0 <= i < |branches| :: entries[i] == BranchEntry(branches[i], employees)
    ensures SumEmployeeCounts(entries) == BranchSlice.SumCounts(branches, employees)
    decreases |branches|
  {
    if |branches| > 0 {
      SumEntries(branches[1..], employees, entries[1..]);
    }
  }

  /** The per-branch counts here agree with the `employeeCount` the branches
      slice attaches to the same rows. */
  lemma CountsAgreeWithBranches(employees: seq<Record>, branches: seq<Record>)
    ensures forall i | 0 <= i < |branches| ::
      BranchSlice.WithEmployeeCounts(branches, employees)[i]["employeeCount"]
        == Num(ComputeStats(employees, branches).salaryByBranch[i].employeeCount)
  {
  }

  datatype State = State(stats: Stats, loading: bool, error: Option<string>)

  const Initial := State(InitialStats, false, None)

  datatype Action = Pending | Fulfilled(stats: Stats) | Rejected(message: string) | Unrelated

  /** `dashboardSlice.reducer`. */
  function Reduce(s: State, a: Action): (t: State)
    ensures a.Pending? ==> t.stats == s.stats && t.loading && t.error.None?
    ensures a.Fulfilled? ==> t.stats == a.stats && !t.loading && t.error == s.error
    ensures a.Rejected? ==> t.stats == s.stats && !t.loading && t.error == Some(a.message)
    ensures a.Unrelated? ==> t == s
  {
    match a
    case Pending => s.(loading := true, error := None)
    case Fulfilled(stats) => s.(loading := false, stats := stats)
    case Rejected(m) => s.(loading := false, error := Some(m))
    case Unrelated => s
  }

  /** A fetch that fails before the first success leaves the initial zeros on
      screen; a successful one shows exactly what was computed. */
  lemma FirstFetch(outcome: Remote<Stats>)
    ensures
      var action := if outcome.Done? then Fulfilled(outcome.value) else Rejected(outcome.message);
      var t := Reduce(Reduce(Initial, Pending), action);
      && !t.loading
      && (outcome.Failed? ==> t.stats == InitialStats && t.error == Some(outcome.message))
      && (outcome.Done? ==> t.stats == outcome.value && t.error.None?)
  {
  }

  /** The initial statistics are what an empty database computes to. */
  lemma EmptyDatabase()
    ensures ComputeStats([], []) == InitialStats
  {
  }
}

=== FILE: employee_page.dfy ===
/** The employees page: the form's defaults and image pickers, who may
    manage employees or edit roles, and what submitting the form dispatches. */
module EmployeePage {
  import opened Js
  import opened Text
  import Storage
  import Routing
  import EmployeeSlice
  import Rejection

  /** The fields of a blank employee form. */
  const FormDefaults: Record := map[
    "full_name" := Str(""), "email" := Str(""), "phone" := Str(""), "address" := Str(""),
    "role" := Str("employee"), "branch_id" := Str(""), "salary" := Str(""), "cnic_number" := Str("")]

  /** The form's initial data: the defaults, overridden field by field by the
      employee being edited (`null` when adding). */
  function InitialForm(employee: Option<Record>): (form: Record)
    ensures employee.None? ==> form == FormDefaults
    ensures employee.Some? ==> form.Keys == FormDefaults.Keys + employee.value.Keys
    ensures employee.Some? ==> forall k | k in employee.value :: form[k] == employee.value[k]
    ensures forall k | k in FormDefaults && (employee.None? || k !in employee.value) :: form[k] == FormDefaults[k]
    ensures Get(form, "role") == (if employee.Some? && "role" in employee.value then employee.value["role"] else Str("employee"))
  {
    match employee
    case None => FormDefaults
    case Some(e) => Spread(FormDefaults, e)
  }

  /** The initial preview of one side: the employee's stored URL, or `null`. */
  function InitialPreview(employee: Option<Record>, urlKey: string): (preview: Value)
    ensures Truthy(preview) <==> Truthy(GetOpt(employee, urlKey))
    ensures !Truthy(preview) ==> preview == Null
  {
    Or(GetOpt(employee, urlKey), Null)
  }

  /** The file input of a side is required when the employee has no image there. */
  predicate ImageRequired(employee: Option<Record>, urlKey: string) {
    !Truthy(GetOpt(employee, urlKey))
  }

  /** An input is required exactly when the side starts without a preview,
      and a new employee must supply both sides. */
  lemma RequiredIffNoPreview(employee: Option<Record>, urlKey: string)
    ensures ImageRequired(employee, urlKey) <==> InitialPreview(employee, urlKey) == Null
    ensures employee.None? ==> ImageRequired(employee, "cnic_front_url") && ImageRequired(employee, "cnic_back_url")
  {
  }

  /** What `handleFileChange` does with the chosen file. */
  datatype Pick = NoFile | PickRejected(message: string) | Picked(file: Storage.File)

  function PickFile(file: Option<Storage.File>): (p: Pick)
    ensures p == NoFile <==> file.None?
    ensures p.Picked? ==> p.file == file.value
    ensures file.Some? && !StartsWith(file.value.mime, "image/") ==> p == PickRejected("Please select an image file")
    ensures file.Some? && StartsWith(file.value.mime, "image/") && file.value.size > 5 * 1024 * 1024 ==>
      p == PickRejected("Image must be less than 5MB")
  {
    match file
    case None => NoFile
    case Some(f) =>
      if !StartsWith(f.mime, "image/") then PickRejected("Please select an image file")
      else if f.size > 5 * 1024 * 1024 then PickRejected("Image must be less than 5MB")
      else Picked(f)
  }

  /** The picker and the upload agree: a picked file is one the upload accepts,
      and a refused file is refused by the upload with the same message. */
  lemma PickerAgreesWithUpload(file: Option<Storage.File>, userId: string, kind: string, stamp: string)
    ensures PickFile(file).Picked? <==> Storage.CheckImage(file) == Storage.Acceptable
    ensures PickFile(file).PickRejected? <==> Storage.PlanUpload(file, userId, kind, stamp).RejectUpload?
    ensures PickFile(file).PickRejected? ==>
      PickFile(file).message == Storage.PlanUpload(file, userId, kind, stamp).message
  {
  }

  /** The images chosen so far. */
  datatype Images = Images(front: Option<Storage.File>, back: Option<Storage.File>)

  datatype Side = Front | Back

  /** The images after a pick on one side: only a picked file is kept. */
  function Choose(images: Images, side: Side, file: Option<Storage.File>): (r: Images)
    ensures PickFile(file).Picked? && side == Front ==> r == images.(front := file)
    ensures PickFile(file).Picked? && side == Back ==> r == images.(back := file)
    ensures !PickFile(file).Picked? ==> r == images
  {
    match PickFile(file)
    case Picked(_) => if side == Front then images.(front := file) else images.(back := file)
    case _ => images
  }

  /** Every image that reaches the form passed the picker's checks. */
  lemma ChosenImagesAcceptable(images: Images, side: Side, file: Option<Storage.File>)
    requires images.front.Some? ==> Storage.CheckImage(images.front) == Storage.Acceptable
    requires images.back.Some? ==> Storage.CheckImage(images.back) == Storage.Acceptable
    ensures var r := Choose(images, side, file);
      && (r.front.Some? ==> Storage.CheckImage(r.front) == Storage.Acceptable)
      && (r.back.Some? ==> Storage.CheckImage(r.back) == Storage.Acceptable)
  {
    PickerAgreesWithUpload(file, "", "", "");
  }

  /** `canEditRole`: only an admin may change the role. */
  predicate CanEditRole(user: Option<Record>) {
    GetOpt(user, "role") == Str("admin")
  }

  /** `canManageEmployees`: admins and managers see the add, view, edit and
      delete actions. */
  predicate CanManage(user: Option<Record>) {
    GetOpt(user, "role") == Str("admin") || GetOpt(user, "role") == Str("manager")
  }

  /** The roles the role picker offers. */
  function RoleOptions(user: Option<Record>): (options: seq<string>)
    ensures |options| == if CanEditRole(user) then 3 else 2
    ensures options[..2] == ["employee", "manager"]
    ensures "admin" in options <==> CanEditRole(user)
  {
    if CanEditRole(user) then ["employee", "manager", "admin"] else ["employee", "manager"]
  }

  /** The page's permission checks agree with the route table: the people who
      may manage employees are exactly those the `/employees` route admits, and
      role editors are among them. */
  lemma PermissionsMatchRoutes(user: Record)
    ensures CanManage(Some(user)) <==> Routing.AppRoutes(false, "/employees", Some(user)) == Routing.Show(Routing.EmployeesPage)
    ensures CanEditRole(Some(user)) ==> CanManage(Some(user))
    ensures CanEditRole(Some(user)) <==> Routing.AppRoutes(false, "/branches", Some(user)) == Routing.Show(Routing.BranchesPage)
  {
    Routing.EmployeesAccess(user);
    Routing.BranchesAccess(user);
  }

  /** What submitting the form does. */
  datatype Effect =
    | DispatchUpdate(arg: Record)
    | DispatchAdd(arg: Record)
    | Toast(title: string, description: Value)
    | CloseDialog
    | ShowCredentials(email: Value, password: Value)

  /** The credentials panel shown after a result carrying a temporary password. */
  function Credentials(result: Record): (effects: seq<Effect>)
    ensures Truthy(Get(result, "temporaryPassword")) ==>
      effects == [ShowCredentials(Get(result, "email"), Get(result, "temporaryPassword"))]
    ensures !Truthy(Get(result, "temporaryPassword")) ==> effects == []
  {
    if Truthy(Get(result, "temporaryPassword")) then [ShowCredentials(Get(result, "email"), Get(result, "temporaryPassword"))]
    else []
  }

  /** The argument the page dispatches: `updateEmployee` gets the selected
      employee's id beside the form data, `addEmployee` the form data alone. */
  function SubmitArg(selected: Option<Record>, form: Record, images: Value): (arg: Record)
    ensures Get(arg, "formData") == Obj(form)
    ensures Get(arg, "cnicImages") == images
    ensures selected.Some? <==> "id" in arg
    ensures selected.Some? ==> arg["id"] == Get(selected.value, "id")
  {
    match selected
    case Some(e) => map["id" := Get(e, "id"), "formData" := Obj(form), "cnicImages" := images]
    case None => map["formData" := Obj(form), "cnicImages" := images]
  }

  /** The form's `handleSubmit` around the page's `handleSubmit`, given the
      thunk's outcome and how an error toast reads the thrown value. A
      failure is toasted by the page, rethrown, and toasted again by the form. */
  function SubmitUsing(describe: Value -> Value, loading: bool, selected: Option<Record>, form: Record,
                       images: Value, outcome: Remote<Record>): (effects: seq<Effect>)
    ensures loading ==> effects == []
    ensures !loading ==> |effects| >= 2
    ensures !loading && selected.Some? ==> effects[0] == DispatchUpdate(SubmitArg(selected, form, images))
    ensures !loading && selected.None? ==> effects[0] == DispatchAdd(SubmitArg(selected, form, images))
    ensures !loading && outcome.Failed? ==>
      effects[1..] == [Toast("Error", describe(Rejection.Thrown(outcome.message))),
                       Toast("Error", describe(Rejection.Thrown(outcome.message)))]
    ensures !loading && outcome.Done? && selected.Some? ==>
      effects[1..] == [Toast("Success", Str("Employee updated successfully")), CloseDialog] + Credentials(outcome.value)
    ensures !loading && outcome.Done? && selected.None? ==>
      effects[1..] == [Toast("Success", Str("Employee added successfully"))] + Credentials(outcome.value)
  {
    if loading then []
    else
      var arg := SubmitArg(selected, form, images);
      var dispatched := if selected.Some? then DispatchUpdate(arg) else DispatchAdd(arg);
      match outcome
      case Failed(m) =>
        var failure := Toast("Error", describe(Rejection.Thrown(m)));
        [dispatched, failure, failure]
      case Done(result) =>
        if selected.Some? then
          [dispatched, Toast("Success", Str("Employee updated successfully")), CloseDialog] + Credentials(result)
        else
          [dispatched, Toast("Success", Str("Employee added successfully"))] + Credentials(result)
  }

  /** Submitting as written: the toasts read `error.message`. */
  function Submit(loading: bool, selected: Option<Record>, form: Record, images: Value, outcome: Remote<Record>)
    : (effects: seq<Effect>)
    ensures loading ==> effects == []
    ensures !loading ==> |effects| >= 2
    ensures !loading && outcome.Failed? ==> effects[1..] == [Toast("Error", Undefined), Toast("Error", Undefined)]
    ensures !loading && outcome.Done? ==> effects == SubmitUsing(Rejection.Description, loading, selected, form, images, outcome)
  {
    SubmitUsing(Rejection.MessageProperty, loading, selected, form, images, outcome)
  }

  /** Submitting with the intended toasts, which show the rejection message. */
  function SubmitCorrected(loading: bool, selected: Option<Record>, form: Record, images: Value, outcome: Remote<Record>)
    : (effects: seq<Effect>)
    ensures loading ==> effects == []
    ensures !loading ==> |effects| >= 2
    ensures !loading && outcome.Failed? ==>
      effects[1..] == [Toast("Error", Str(outcome.message)), Toast("Error", Str(outcome.message))]
    ensures !loading && outcome.Done? ==> effects == Submit(loading, selected, form, images, outcome)
  {
    SubmitUsing(Rejection.Description, loading, selected, form, images, outcome)
  }

  /** Only an update that went through closes the dialog; an addition keeps it
      open so the credentials can be read. */
  lemma OnlyUpdatesClose(loading: bool, selected: Option<Record>, form: Record, images: Value, outcome: Remote<Record>)
    ensures CloseDialog in Submit(loading, selected, form, images, outcome) <==>
      !loading && selected.Some? && outcome.Done?
  {
    var effects := Submit(loading, selected, form, images, outcome);
    if !loading {
      assert effects == [effects[0]] + effects[1..];
      if outcome.Done? && selected.Some? {
        assert effects[2] == CloseDialog;
      }
    }
  }

  /** The form data the update thunk reads is exactly the form the user
      submitted. */
  lemma UpdateCarriesForm(selected: Record, form: Record, images: Value)
    ensures EmployeeSlice.UpdateData(SubmitArg(Some(selected), form, images)) == form
  {
  }

  /** A new employee's temporary password is shown with their e-mail address. */
  lemma AdditionShowsCredentials(form: Record, images: Value, row: Record, password: string)
    requires password != ""
    ensures var result := Spread(row, map["temporaryPassword" := Str(password)]);
      Submit(false, None, form, images, Done(result)) ==
        [ DispatchAdd(SubmitArg(None, form, images)), Toast("Success", Str("Employee added successfully")),
          ShowCredentials(Get(row, "email"), Str(password)) ]
  {
    var result := Spread(row, map["temporaryPassword" := Str(password)]);
    assert Get(result, "email") == Get(row, "email");
  }

  /** As written, a rejected submission raises two error toasts, neither of
      which says what went wrong. */
  lemma FailureToastsAreBlank(loading: bool, selected: Option<Record>, form: Record, images: Value, message: string)
    requires !loading
    ensures forall e | e in Submit(loading, selected, form, images, Failed(message)) && e.Toast? ::
      e == Toast("Error", Undefined)
  {
    var effects := Submit(loading, selected, form, images, Failed(message));
    assert effects == [effects[0]] + effects[1..];
  }

  /** With the correction, both error toasts carry the rejection message. */
  lemma CorrectedToastsCarryMessage(selected: Option<Record>, form: Record, images: Value, message: string)
    ensures forall e | e in SubmitCorrected(false, selected, form, images, Failed(message)) && e.Toast? ::
      e == Toast("Error", Str(message))
  {
    var effects := SubmitCorrected(false, selected, form, images, Failed(message));
    assert effects == [effects[0]] + effects[1..];
  }
}

=== FILE: employee_slice.dfy ===
/** The employees slice: its reducer over the cached rows, the per-row URL
    signing `fetchEmployees` applies before fulfilling, and the update payload
    `updateEmployee` builds from its argument. */
module EmployeeSlice {
  import opened Js
  import opened Seqs
  import opened EntityCache
  import Storage

  const NoSessionMessage := "No active session"

  /** The four thunks whose lifecycle actions the slice handles. */
  datatype Thunk = FetchEmployees | AddEmployee | UpdateEmployee | DeleteEmployee

  datatype Action =
    | ClearEmployees
    | Pending(thunk: Thunk)
    | Rejected(thunk: Thunk, message: string)
    | FetchFulfilled(rows: seq<Record>)
    | AddFulfilled(row: Record)
    | UpdateFulfilled(row: Record)
    | DeleteFulfilled(id: Value)
      /** Any action of another slice. */
    | Unrelated

  /** `employeeSlice.reducer`. */
  function Reduce(s: Cache, a: Action): (t: Cache)
    ensures a.ClearEmployees? ==> t == Empty
    ensures a.Pending? ==> t.items == s.items && t.loading && t.error.None?
    ensures a.Rejected? ==> t.items == s.items && !t.loading && t.error == Some(a.message)
    ensures a.FetchFulfilled? ==> t.items == a.rows && !t.loading && t.error == s.error
    ensures a.AddFulfilled? ==>
      && |t.items| == |s.items| + 1
      && t.items[0] == a.row
      && (forall i | 0 <= i < |s.items| :: t.items[i + 1] == s.items[i])
      && !t.loading && t.error == s.error
    ensures a.UpdateFulfilled? ==>
      t.items == ReplaceById(s.items, a.row) && !t.loading && t.error == s.error
    ensures a.DeleteFulfilled? ==>
      && t.items == RemoveById(s.items, a.id)
      && !HasId(t.items, a.id)
      && (forall i | 0 <= i < |s.items| && IdOf(s.items[i]) != a.id :: s.items[i] in t.items)
      && (forall i | 0 <= i < |t.items| :: t.items[i] in s.items)
      && !t.loading && t.error == s.error
    ensures a.Unrelated? ==> t == s
  {
    match a
    case ClearEmployees => Empty
    case Pending(_) => Cache(s.items, true, None)
    case Rejected(_, m) => Cache(s.items, false, Some(m))
    case FetchFulfilled(rows) => Cache(rows, false, s.error)
    case AddFulfilled(row) => Cache([row] + s.items, false, s.error)
    case UpdateFulfilled(row) => Cache(ReplaceById(s.items, row), false, s.error)
    case DeleteFulfilled(id) => Cache(RemoveById(s.items, id), false, s.error)
    case Unrelated => s
  }

  /** The action a finished `fetchEmployees` dispatches. */
  function FetchSettled(outcome: Remote<seq<Record>>): Action {
    match outcome
    case Done(rows) => FetchFulfilled(rows)
    case Failed(m) => Rejected(FetchEmployees, m)
  }

  /** A fetch that starts and then settles leaves `loading` off, and reports an
      error exactly when it failed; a successful fetch keeps no error. */
  lemma FetchRoundTrip(s: Cache, outcome: Remote<seq<Record>>)
    ensures var t := Reduce(Reduce(s, Pending(FetchEmployees)), FetchSettled(outcome));
      && !t.loading
      && (t.error.None? <==> outcome.Done?)
      && (outcome.Done? ==> t.items == outcome.value)
      && (outcome.Failed? ==> t.items == s.items && t.error == Some(outcome.message))
  {
  }

  /** Deleting the id of a freshly added row restores the rows as they were. */
  lemma AddThenDelete(s: Cache, row: Record)
    requires !HasId(s.items, IdOf(row))
    ensures Reduce(Reduce(s, AddFulfilled(row)), DeleteFulfilled(IdOf(row))).items == s.items
  {
    RemoveByIdConcat([row], s.items, IdOf(row));
  }

  /** Applying the same update twice changes nothing the first did not. */
  lemma UpdateIdempotent(s: Cache, row: Record)
    ensures Reduce(Reduce(s, UpdateFulfilled(row)), UpdateFulfilled(row)) == Reduce(s, UpdateFulfilled(row))
  {
    ReplaceByIdIdempotent(s.items, row);
  }

  /** An update that finds its row never changes which ids are cached, so a
      later delete by any id removes the same number of rows. */
  lemma UpdateKeepsIds(s: Cache, row: Record)
    ensures Ids(Reduce(s, UpdateFulfilled(row)).items) == Ids(s.items)
  {
  }

  /** With unique ids, deleting a cached id shrinks the cache by exactly one. */
  lemma DeleteShrinksByOne(s: Cache, id: Value)
    requires UniqueIds(s.items)
    requires HasId(s.items, id)
    ensures |Reduce(s, DeleteFulfilled(id)).items| == |s.items| - 1
  {
    RemoveUniqueId(s.items, id);
  }

  /** One fetched row with both image URLs replaced by signed ones. A falsy URL
      becomes `null`; when either signing fails the row is kept as it came. */
  function SignRow(row: Record, sign: Storage.SignRequest -> Remote<string>): (r: Record)
    ensures
      var front := Storage.GetSignedUrl(Get(row, "cnic_front_url"), sign);
      var back := Storage.GetSignedUrl(Get(row, "cnic_back_url"), sign);
      && (front.Failed? || back.Failed? ==> r == row)
      && (front.Done? && back.Done? ==>
            && r.Keys == row.Keys + {"cnic_front_url", "cnic_back_url"}
            && r["cnic_front_url"] == front.value
            && r["cnic_back_url"] == back.value)
    ensures forall k | k in row && k != "cnic_front_url" && k != "cnic_back_url" :: k in r && r[k] == row[k]
    ensures !Truthy(Get(row, "cnic_front_url")) && !Truthy(Get(row, "cnic_back_url")) ==>
      r == row["cnic_front_url" := Null]["cnic_back_url" := Null]
  {
    var front := Storage.GetSignedUrl(Get(row, "cnic_front_url"), sign);
    var back := Storage.GetSignedUrl(Get(row, "cnic_back_url"), sign);
    if front.Failed? || back.Failed? then row
    else Spread(row, map["cnic_front_url" := front.value, "cnic_back_url" := back.value])
  }

  /** Signing never adds or loses a field other than the two URL fields, and a
      row that has both is signed to a row with exactly the same keys. */
  lemma SignRowKeepsKeys(row: Record, sign: Storage.SignRequest -> Remote<string>)
    requires "cnic_front_url" in row && "cnic_back_url" in row
    ensures SignRow(row, sign).Keys == row.Keys
  {
  }

  /** `fetchEmployees`: with a session and the query's rows, every row signed in
      order; otherwise the message the thunk rejects with. */
  function FetchEmployeeRows(hasSession: bool, query: Remote<seq<Record>>,
                             sign: Storage.SignRequest -> Remote<string>): (r: Remote<seq<Record>>)
    ensures !hasSession ==> r == Failed(NoSessionMessage)
    ensures hasSession && query.Failed? ==> r == Failed(query.message)
    ensures hasSession && query.Done? ==>
      && r.Done?
      && |r.value| == |query.value|
      && forall i | 0 <= i < |query.value| :: r.value[i] == SignRow(query.value[i], sign)
  {
    if !hasSession then Failed(NoSessionMessage)
    else match query
      case Failed(m) => Failed(m)
      case Done(rows) => Done(seq(|rows|, i requires 0 <= i < |rows| => SignRow(rows[i], sign)))
  }

  /** A fetch never loses or reorders rows: the ids come back as queried. */
  lemma FetchKeepsIds(query: seq<Record>, sign: Storage.SignRequest -> Remote<string>)
    ensures Ids(FetchEmployeeRows(true, Done(query), sign).value) == Ids(query)
  {
    var rows := FetchEmployeeRows(true, Done(query), sign).value;
    forall i | 0 <= i < |query|
      ensures IdOf(rows[i]) == IdOf(query[i])
    {
      assert rows[i] == SignRow(query[i], sign);
    }
  }

  /** `{ ...formData }` where `updateEmployee` destructures its argument as
      `{ id, formData, cnicImages }`. */
  function UpdateData(arg: Record): (r: Record)
    ensures Get(arg, "formData").Obj? ==> r == Get(arg, "formData").fields
    ensures !Get(arg, "formData").Obj? ==> r == map[]
  {
    SpreadOf(Get(arg, "formData"))
  }

  /** The row `updateEmployee` fulfils with: the updated row with both URLs
      signed. Unlike the fetch, a signing failure rejects the whole update. */
  function UpdatedRow(data: Record, sign: Storage.SignRequest -> Remote<string>): (r: Remote<Record>)
    ensures
      var front := Storage.GetSignedUrl(Get(data, "cnic_front_url"), sign);
      var back := Storage.GetSignedUrl(Get(data, "cnic_back_url"), sign);
      && (r.Done? <==> front.Done? && back.Done?)
      && (r.Done? ==> r.value == SignRow(data, sign))
      && (front.Failed? ==> r == Failed(front.message))
      && (front.Done? && back.Failed? ==> r == Failed(back.message))
  {
    var front := Storage.GetSignedUrl(Get(data, "cnic_front_url"), sign);
    var back := Storage.GetSignedUrl(Get(data, "cnic_back_url"), sign);
    if front.Failed? then Failed(front.message)
    else if back.Failed? then Failed(back.message)
    else Done(SignRow(data, sign))
  }
}

=== FILE: employee_view.dfy ===
/** The read-only employee dialog: the role badge, the fallbacks for missing
    fields, and the card that shows, refreshes and downloads one CNIC image. */
module EmployeeView {
  import opened Js
  import opened Text
  import Storage

  /** The badge variant for `employee.role`. */
  function BadgeVariant(role: Value): (variant: string)
    ensures variant == "default" <==> role == Str("admin")
    ensures variant == "secondary" <==> role == Str("manager")
    ensures variant == "outline" <==> role != Str("admin") && role != Str("manager")
  {
    if role == Str("admin") then "default"
    else if role == Str("manager") then "secondary"
    else "outline"
  }

  const NotProvided := Str("Not provided")
  const NotAssigned := Str("Not assigned")

  /** `employee.branch?.name`: a branch that is not an object has no name. */
  function BranchName(employee: Record): Value {
    Prop(Get(employee, "branch"), "name")
  }

  /** The texts shown for phone, address, branch and CNIC number. */
  datatype Details = Details(phone: Value, address: Value, branch: Value, cnicNumber: Value)

  function DetailsOf(employee: Record): (d: Details)
    ensures Truthy(Get(employee, "phone")) ==> d.phone == Get(employee, "phone")
    ensures !Truthy(Get(employee, "phone")) ==> d.phone == NotProvided
    ensures Truthy(Get(employee, "address")) ==> d.address == Get(employee, "address")
    ensures !Truthy(Get(employee, "address")) ==> d.address == NotProvided
    ensures Truthy(Get(employee, "cnic_number")) ==> d.cnicNumber == Get(employee, "cnic_number")
    ensures !Truthy(Get(employee, "cnic_number")) ==> d.cnicNumber == NotProvided
    ensures Truthy(BranchName(employee)) ==> d.branch == BranchName(employee)
    ensures !Truthy(BranchName(employee)) ==> d.branch == NotAssigned
  {
    Details(
      Or(Get(employee, "phone"), NotProvided),
      Or(Get(employee, "address"), NotProvided),
      Or(BranchName(employee), NotAssigned),
      Or(Get(employee, "cnic_number"), NotProvided))
  }

  /** Every field the dialog shows is non-empty text or a value that is truthy. */
  lemma DetailsNeverBlank(employee: Record)
    ensures var d := DetailsOf(employee);
      Truthy(d.phone) && Truthy(d.address) && Truthy(d.branch) && Truthy(d.cnicNumber)
  {
  }

  /** An employee whose branch was not joined in shows as unassigned. */
  lemma MissingBranchUnassigned(employee: Record)
    requires !Get(employee, "branch").Obj?
    ensures DetailsOf(employee).branch == NotAssigned
  {
  }

  /** `blob.type.split("/")[1] || "png"`: the subtype of the blob's MIME type,
      or `png` when there is none. */
  function DownloadExtension(mime: string): (ext: string)
    ensures ext != ""
    ensures '/' !in ext
    ensures !('/' in mime) ==> ext == "png"
  {
    var parts := Split(mime, "/");
    assert '/' !in mime ==> |parts| == 1 by {
      ContainsChar(mime, '/');
      SplitHead(mime, "/");
    }
    if |parts| >= 2 && parts[1] != "" then
      ContainsChar(parts[1], '/');
      parts[1]
    else "png"
  }

  /** An image type's subtype becomes the extension. */
  lemma ImageSubtypeIsExtension(subtype: string)
    requires subtype != ""
    requires '/' !in subtype
    ensures DownloadExtension("image/" + subtype) == subtype
  {
    SingleCharBorderFree('/');
    ContainsChar("image", '/');
    SplitAfterClean("image", "/", subtype);
    ContainsChar(subtype, '/');
    SplitHead(subtype, "/");
    assert "image/" + subtype == "image" + "/" + subtype;
    assert Split(subtype, "/") == [subtype];
  }

  /** A type with nothing after the slash falls back to `png`. */
  lemma EmptySubtypeFallsBack(kind: string)
    requires '/' !in kind
    ensures DownloadExtension(kind + "/") == "png"
  {
    SingleCharBorderFree('/');
    ContainsChar(kind, '/');
    SplitAfterClean(kind, "/", "");
    assert kind + "/" == kind + "/" + "";
  }

  /** The name the downloaded file is saved under. */
  function DownloadName(name: string, kind: string, mime: string): (file: string)
    ensures StartsWith(file, UnderscoreSpaces(name) + "_cnic_" + kind + ".")
    ensures EndsWith(file, "." + DownloadExtension(mime))
    ensures |file| == |UnderscoreSpaces(name)| + |"_cnic_"| + |kind| + 1 + |DownloadExtension(mime)|
    ensures '.' !in DownloadExtension(mime) ==> Storage.Extension(file) == DownloadExtension(mime)
  {
    var prefix := UnderscoreSpaces(name) + "_cnic_" + kind;
    var ext := DownloadExtension(mime);
    var file := prefix + "." + ext;
    StartsWithAppend(prefix + ".", ext);
    assert prefix + "." + ext == (prefix + ".") + ext;
    assert file == prefix + ("." + ext);
    EndsWithAppend(prefix, "." + ext);
    assert '.' !in ext ==> Storage.Extension(file) == ext by {
      if '.' !in ext {
        Storage.ExtensionOf(prefix, ext);
      }
    }
    file
  }

  /** The saved file's name contains no whitespace when neither the kind nor
      the MIME type has any. */
  lemma DownloadNameHasNoSpace(name: string, kind: string, mime: string)
    requires Spaceless(kind)
    requires Spaceless(mime)
    ensures Spaceless(DownloadName(name, kind, mime))
  {
    var ext := DownloadExtension(mime);
    assert Spaceless(ext) by {
      var parts := Split(mime, "/");
      if |parts| >= 2 && parts[1] != "" {
        PieceChars(mime, 1);
      }
    }
    var underscored := UnderscoreSpaces(name);
    assert Spaceless(underscored) by {
      forall c | c in underscored
        ensures !IsSpace(c)
      {
        var i :| 0 <= i < |underscored| && underscored[i] == c;
      }
    }
    SpacelessConcat(underscored, "_cnic_");
    SpacelessConcat(underscored + "_cnic_", kind);
    SpacelessConcat(underscored + "_cnic_" + kind, ".");
    SpacelessConcat(underscored + "_cnic_" + kind + ".", ext);
  }

  predicate Spaceless(s: string) {
    forall c | c in s :: !IsSpace(c)
  }

  lemma SpacelessConcat(a: string, b: string)
    requires Spaceless(a) && Spaceless(b)
    ensures Spaceless(a + b)
  {
  }

  /** Every character of a piece of `s.split("/")` is a character of `s`. */
  lemma {:induction false} PieceChars(s: string, k: nat)
    requires k < |Split(s, "/")|
    ensures forall c | c in Split(s, "/")[k] :: c in s
    decreases |s|
  {
    match IndexOf(s, "/")
    case None =>
    case Some(j) =>
      var rest := s[j + 1..];
      if k > 0 {
        PieceChars(rest, k - 1);
        assert forall c | c in rest :: c in s;
      } else {
        assert forall c | c in s[..j] :: c in s;
      }
  }

  /** `"Download " + type.charAt(0).toUpperCase() + type.slice(1)`. */
  function DownloadLabel(kind: string): (text: string)
    ensures |text| == |"Download "| + |kind|
    ensures text[..9] == "Download "
    ensures |kind| > 0 ==> text[10..] == kind[1..]
    ensures |kind| > 0 && 'a' <= kind[0] <= 'z' ==> text[9] as int == kind[0] as int - 32
    ensures |kind| > 0 && !('a' <= kind[0] <= 'z') ==> text[9] == kind[0]
  {
    if |kind| == 0 then "Download "
    else
      var first := if 'a' <= kind[0] <= 'z' then (kind[0] as int - 32) as char else kind[0];
      "Download " + [first] + kind[1..]
  }

  lemma LabelsOfTheTwoSides()
    ensures DownloadLabel("front") == "Download Front"
    ensures DownloadLabel("back") == "Download Back"
  {
  }

  /** The state of one image card. */
  datatype Card = Card(loading: bool, error: bool, signedUrl: Value, downloading: bool)

  function Initial(url: Value): Card {
    Card(true, false, url, false)
  }

  /** Whether the image (and with it the download button) is shown. */
  predicate ShowsImage(c: Card) {
    Truthy(c.signedUrl) && !c.error
  }

  /** Whether the download button can be clicked. */
  predicate DownloadEnabled(c: Card) {
    ShowsImage(c) && !c.downloading && !c.loading
  }

  /** What happens to a card. */
  datatype Event =
      /** `refreshUrl` begins: the spinner comes back and the error is cleared. */
    | RefreshStarted
      /** `getSignedUrl(url)` settled while the card was still mounted. */
    | RefreshSettled(signed: Remote<Value>)
    | ImageLoaded
    | ImageFailed
    | RetryClicked
    | DownloadStarted
    | DownloadFinished

  /** One step of the card, for the `url` it was given; a toast accompanies a
      failed refresh. A successful refresh leaves `error` as it is, so an image
      failure between its start and its end stays on the card. */
  function Step(url: Value, c: Card, e: Event): (t: Card)
    ensures (e.RefreshStarted? || e.RefreshSettled?) && !Truthy(url) ==> t == c
    ensures e.RefreshStarted? && Truthy(url) ==> t == c.(loading := true, error := false)
    ensures e.RefreshSettled? && Truthy(url) && e.signed.Done? ==>
      t == c.(loading := false, signedUrl := e.signed.value)
    ensures e.RefreshSettled? && Truthy(url) && e.signed.Failed? ==> t == c.(loading := false, error := true)
    ensures e == ImageLoaded ==> t == c.(loading := false)
    ensures e == ImageFailed ==> t == c.(error := true)
    ensures e == RetryClicked ==> t == c.(loading := true, error := false)
    ensures e == DownloadStarted ==> t == c.(downloading := true)
    ensures e == DownloadFinished ==> t == c.(downloading := false)
  {
    match e
    case RefreshStarted => if !Truthy(url) then c else c.(loading := true, error := false)
    case RefreshSettled(signed) =>
      if !Truthy(url) then c
      else (match signed
        case Done(v) => c.(loading := false, signedUrl := v)
        case Failed(_) => c.(loading := false, error := true))
    case ImageLoaded => c.(loading := false)
    case ImageFailed => c.(error := true)
    case RetryClicked => c.(loading := true, error := false)
    case DownloadStarted => c.(downloading := true)
    case DownloadFinished => c.(downloading := false)
  }

  /** The card after the refresh started and `getSignedUrl(url)` settled, with
      nothing in between. */
  function Refresh(url: Value, sign: Storage.SignRequest -> Remote<string>): Card {
    Step(url, Step(url, Initial(url), RefreshStarted), RefreshSettled(Storage.GetSignedUrl(url, sign)))
  }

  /** With no stored URL no refresh happens: the card keeps its spinner and
      shows no image, for good. */
  lemma NoUrlKeepsSpinner(url: Value, sign: Storage.SignRequest -> Remote<string>)
    requires !Truthy(url)
    ensures Refresh(url, sign).loading
    ensures !ShowsImage(Refresh(url, sign))
  {
  }

  /** A signed URL replaces the stored one and the image shows; a failed
      signing shows the error instead. */
  lemma RefreshOutcomes(url: Value, sign: Storage.SignRequest -> Remote<string>)
    requires Truthy(url)
    ensures Storage.GetSignedUrl(url, sign).Done? ==>
      Refresh(url, sign).signedUrl == Storage.GetSignedUrl(url, sign).value && !Refresh(url, sign).loading
    ensures Storage.GetSignedUrl(url, sign).Done? && Storage.GetSignedUrl(url, sign).value.Str? ==>
      (ShowsImage(Refresh(url, sign)) <==> Storage.GetSignedUrl(url, sign).value.s != "")
    ensures Storage.GetSignedUrl(url, sign).Failed? ==> !ShowsImage(Refresh(url, sign))
  {
  }

  /** If the stored image fails to load while the signing is still pending, a
      successful refresh does not bring the image back: the card keeps its
      error and offers Retry. Without that failure the new URL shows. */
  lemma ImageFailureOutlivesRefresh(url: Value, signed: Value)
    requires Truthy(url) && Truthy(signed)
    ensures var started := Step(url, Initial(url), RefreshStarted);
      var failedMeanwhile := Step(url, started, ImageFailed);
      && ShowsImage(started)
      && Step(url, failedMeanwhile, RefreshSettled(Done(signed))).error
      && !ShowsImage(Step(url, failedMeanwhile, RefreshSettled(Done(signed))))
      && ShowsImage(Step(url, started, RefreshSettled(Done(signed))))
  {
  }

  /** Retrying after a failed refresh fetches nothing new: the card shows the
      stored, unsigned URL again. */
  lemma RetryShowsStoredUrl(url: Value, message: string)
    requires Truthy(url)
    ensures var failed := Step(url, Step(url, Initial(url), RefreshStarted), RefreshSettled(Failed(message)));
      var retried := Step(url, failed, RetryClicked);
      && !ShowsImage(failed)
      && retried.signedUrl == url && ShowsImage(retried) && retried.loading
  {
  }

  /** The download button is disabled while a download runs and enabled again
      once it finishes, whatever its outcome. */
  lemma DownloadRoundTrip(url: Value, c: Card)
    requires DownloadEnabled(c)
    ensures !DownloadEnabled(Step(url, c, DownloadStarted))
    ensures Step(url, Step(url, c, DownloadStarted), DownloadFinished) == c
  {
  }

  /** `handleDownload`: a fresh signed URL, the fetch (its blob's MIME type, or
      its failure), and the name the file is saved under. */
  function Download(url: Value, sign: Storage.SignRequest -> Remote<string>, fetched: Remote<string>,
                    name: string, kind: string): (r: Remote<string>)
    ensures Storage.GetSignedUrl(url, sign).Failed? ==> r.Failed?
    ensures fetched.Failed? ==> r.Failed?
    ensures r.Done? <==> Storage.GetSignedUrl(url, sign).Done? && fetched.Done?
    ensures r.Done? ==> r.value == DownloadName(name, kind, fetched.value)
  {
    match Storage.GetSignedUrl(url, sign)
    case Failed(m) => Failed(m)
    case Done(_) =>
      match fetched
      case Failed(m) => Failed(m)
      case Done(mime) => Done(DownloadName(name, kind, mime))
  }
}

=== FILE: entity_cache.dfy ===
/** The `{ items, loading, error }` state shared by the employee and branch
    slices, and the two ways their fulfilled cases patch `items`: replacing the
    first row with the payload's `id`, and filtering out every row with an `id`. */
module EntityCache {
  import opened Js
  import opened Seqs

  datatype Cache = Cache(items: seq<Record>, loading: bool, error: Option<string>)

  /** The state both slices start from and `clearEmployees`/`clearBranches` restore. */
  const Empty := Cache([], false, None)

  /** `row.id` */
  function IdOf(row: Record): Value {
    Get(row, "id")
  }

  /** The ids of the rows, in order. */
  function Ids(items: seq<Record>): (ids: seq<Value>)
    ensures |ids| == |items|
    ensures forall i | 0 <= i < |items| :: ids[i] == IdOf(items[i])
  {
    seq(|items|, i requires 0 <= i < |items| => IdOf(items[i]))
  }

  predicate HasId(items: seq<Record>, id: Value) {
    exists i | 0 <= i < |items| :: IdOf(items[i]) == id
  }

  predicate UniqueIds(items: seq<Record>) {
    forall i, j | 0 <= i < j < |items| :: IdOf(items[i]) != IdOf(items[j])
  }

  /** `items[items.findIndex(x => x.id === row.id)] = row`, when there is such an index. */
  function ReplaceById(items: seq<Record>, row: Record): (r: seq<Record>)
    ensures |r| == |items|
    ensures Ids(r) == Ids(items)
    ensures !HasId(items, IdOf(row)) ==> r == items
    ensures HasId(items, IdOf(row)) ==> exists k | 0 <= k < |items| ::
      && IdOf(items[k]) == IdOf(row)
      && (forall j | 0 <= j < k :: IdOf(items[j]) != IdOf(row))
      && r[k] == row
      && (forall j | 0 <= j < |items| && j != k :: r[j] == items[j])
  {
    var matches := (x: Record) => IdOf(x) == IdOf(row);
    var r := ReplaceFirst(items, matches, row);
    assert Ids(r) == Ids(items) by {
      forall i | 0 <= i < |items|
        ensures IdOf(r[i]) == IdOf(items[i])
      {
      }
    }
    if FindIndex(items, matches).Some? then
      var k := FindIndex(items, matches).value;
      assert IdOf(items[k]) == IdOf(row);
      r
    else
      r
  }

  /** Replacing by id twice with the same row is the same as once. */
  lemma ReplaceByIdIdempotent(items: seq<Record>, row: Record)
    ensures ReplaceById(ReplaceById(items, row), row) == ReplaceById(items, row)
  {
    var matches := (x: Record) => IdOf(x) == IdOf(row);
    var once := ReplaceById(items, row);
    if HasId(items, IdOf(row)) {
      var k := FindIndex(items, matches).value;
      assert FindIndex(once, matches) == Some(k) by {
        FindIndexSameIds(items, once, matches, row);
      }
    }
  }

  /** Two row lists with the same ids agree on where a row with `row`'s id is. */
  lemma {:induction false} FindIndexSameIds(a: seq<Record>, b: seq<Record>, matches: Record -> bool, row: Record)
    requires Ids(a) == Ids(b)
    requires forall x :: matches(x) == (IdOf(x) == IdOf(row))
    ensures FindIndex(a, matches) == FindIndex(b, matches)
    decreases |a|
  {
    if |a| > 0 {
      assert IdOf(a[0]) == Ids(a)[0] == Ids(b)[0] == IdOf(b[0]);
      assert Ids(a[1..]) == Ids(a)[1..];
      assert Ids(b[1..]) == Ids(b)[1..];
      FindIndexSameIds(a[1..], b[1..], matches, row);
    }
  }

  /** `items.filter(x => x.id !== id)` */
  function RemoveById(items: seq<Record>, id: Value): (r: seq<Record>)
    ensures !HasId(r, id)
    ensures forall i | 0 <= i < |r| :: r[i] in items
    ensures forall i | 0 <= i < |items| && IdOf(items[i]) != id :: items[i] in r
    ensures !HasId(items, id) ==> r == items
  {
    var keep := (x: Record) => IdOf(x) != id;
    if !HasId(items, id) then
      FilterKeepsAll(items, keep);
      Filter(items, keep)
    else
      Filter(items, keep)
  }

  /** Removal works piecewise, so the surviving rows keep their relative order. */
  lemma RemoveByIdConcat(a: seq<Record>, b: seq<Record>, id: Value)
    ensures RemoveById(a + b, id) == RemoveById(a, id) + RemoveById(b, id)
  {
    FilterConcat(a, b, (x: Record) => IdOf(x) != id);
  }

  /** On one row the removal keeps it exactly when its id differs; with
      `RemoveByIdConcat` this fixes the result of every removal. */
  lemma RemoveByIdSingleton(row: Record, id: Value)
    ensures RemoveById([row], id) == (if IdOf(row) == id then [] else [row])
  {
  }

  /** The number of rows carrying `id`. */
  function CountId(items: seq<Record>, id: Value): nat
    decreases |items|
  {
    if |items| == 0 then 0 else (if IdOf(items[0]) == id then 1 else 0) + CountId(items[1..], id)
  }

  /** Removal drops exactly the rows that carry the id. */
  lemma {:induction false} RemoveByIdLength(items: seq<Record>, id: Value)
    ensures |RemoveById(items, id)| == |items| - CountId(items, id)
    decreases |items|
  {
    if |items| > 0 {
      assert items == [items[0]] + items[1..];
      RemoveByIdConcat([items[0]], items[1..], id);
      RemoveByIdLength(items[1..], id);
    }
  }

  /** With unique ids, removing an id that is present removes exactly one row. */
  lemma {:induction false} RemoveUniqueId(items: seq<Record>, id: Value)
    requires UniqueIds(items)
    requires HasId(items, id)
    ensures |RemoveById(items, id)| == |items| - 1
    decreases |items|
  {
    RemoveByIdLength(items, id);
    CountUniqueId(items, id);
  }

  lemma {:induction false} CountUniqueId(items: seq<Record>, id: Value)
    requires UniqueIds(items)
    ensures CountId(items, id) == (if HasId(items, id) then 1 else 0)
    decreases |items|
  {
    if |items| > 0 {
      CountUniqueId(items[1..], id);
      if IdOf(items[0]) == id {
        assert !HasId(items[1..], id);
      } else {
        assert HasId(items, id) == HasId(items[1..], id) by {
          if HasId(items, id) {
            var i :| 0 <= i < |items| && IdOf(items[i]) == id;
            assert IdOf(items[1..][i - 1]) == id;
          }
        }
      }
    }
  }
}

=== FILE: js.dfy ===
/** JavaScript values as the client handles them: plain records built with
    object spread, truthiness, `||` fallbacks, property keys and `Number(x) || 0`.
    Every remote call of the client is reduced to a `Remote` outcome. */
module Js {

  datatype Option<+T> = None | Some(value: T)

  /** The outcome of one call into the hosted backend: the value it returned,
      or the message of the error it reported. */
  datatype Remote<+T> = Done(value: T) | Failed(message: string)

  /** The JavaScript values the client stores and compares. Numbers are
      integers here; `NaN` and fractions are not modelled. */
  datatype Value =
    | Undefined
    | Null
    | Bool(b: bool)
    | Num(n: int)
    | Str(s: string)
    | Obj(fields: map<string, Value>)

  /** A plain object: its own enumerable properties. */
  type Record = map<string, Value>

  /** `r.key`: a missing property reads as `undefined`. */
  function Get(r: Record, key: string): (v: Value)
    ensures key !in r ==> v == Undefined
    ensures key in r ==> v == r[key]
  {
    if key in r then r[key] else Undefined
  }

  /** `r?.key` on a record that may be `null`. */
  function GetOpt(r: Option<Record>, key: string): (v: Value)
    ensures r.None? ==> v == Undefined
    ensures r.Some? ==> v == Get(r.value, key)
  {
    match r
    case None => Undefined
    case Some(rec) => Get(rec, key)
  }

  /** `v?.key` on any value. Only objects carry the properties the client
      reads, so on a string, number or boolean the property is `undefined`,
      and on `null` or `undefined` the optional chain stops there. */
  function Prop(v: Value, key: string): (r: Value)
    ensures v.Obj? ==> r == Get(v.fields, key)
    ensures !v.Obj? ==> r == Undefined
  {
    match v
    case Obj(fields) => Get(fields, key)
    case _ => Undefined
  }

  /** JavaScript truthiness. */
  predicate Truthy(v: Value) {
    match v
    case Undefined => false
    case Null => false
    case Bool(b) => b
    case Num(n) => n != 0
    case Str(s) => s != ""
    case Obj(_) => true
  }

  /** `v || fallback`. */
  function Or(v: Value, fallback: Value): (r: Value)
    ensures Truthy(v) ==> r == v
    ensures !Truthy(v) ==> r == fallback
    ensures Truthy(r) <==> Truthy(v) || Truthy(fallback)
  {
    if Truthy(v) then v else fallback
  }

  /** `{ ...base, ...over }`: every key of either, the right-hand side winning. */
  function Spread(base: Record, over: Record): (r: Record)
    ensures r.Keys == base.Keys + over.Keys
    ensures forall k :: k in over ==> r[k] == over[k]
    ensures forall k :: k in base && k !in over ==> r[k] == base[k]
  {
    base + over
  }

  /** `{ ...v }` for a value that may be `null` or `undefined`: those spread
      to nothing, an object to its fields. */
  function SpreadOf(v: Value): (r: Record)
    ensures v.Obj? ==> r == v.fields
    ensures !v.Obj? ==> r == map[]
  {
    match v
    case Obj(fields) => fields
    case _ => map[]
  }

  /** The text of a decimal digit. */
  function DigitChar(d: nat): (c: char)
    requires d < 10
    ensures '0' <= c <= '9'
    ensures c as int - '0' as int == d
  {
    ['0', '1', '2', '3', '4', '5', '6', '7', '8', '9'][d]
  }

  predicate IsDigits(s: string) {
    |s| > 0 && forall i | 0 <= i < |s| :: '0' <= s[i] <= '9'
  }

  /** The decimal text of a natural number, without leading zeros. */
  function NatText(n: nat): (s: string)
    ensures IsDigits(s)
    ensures |s| > 1 ==> s[0] != '0'
    decreases n
  {
    if n < 10 then [DigitChar(n)] else NatText(n / 10) + [DigitChar(n % 10)]
  }

  /** The value of a string of decimal digits. */
  function DigitsValue(s: string): (n: nat)
    requires IsDigits(s)
    decreases |s|
  {
    var last := s[|s| - 1] as int - '0' as int;
    if |s| == 1 then last else 10 * DigitsValue(s[..|s| - 1]) + last
  }

  /** Reading back the decimal text of a number yields that number. */
  lemma {:induction false} DigitsValueOfNatText(n: nat)
    ensures DigitsValue(NatText(n)) == n
    decreases n
  {
    if n >= 10 {
      var s := NatText(n);
      assert s[..|s| - 1] == NatText(n / 10);
      DigitsValueOfNatText(n / 10);
    }
  }

  /** `String(n)` for an integer. */
  function IntText(n: int): (s: string)
    ensures n >= 0 ==> s == NatText(n)
    ensures n < 0 ==> s == "-" + NatText(-n)
  {
    if n >= 0 then NatText(n) else "-" + NatText(-n)
  }

  /** The property key a value becomes when used as `obj[v]`. */
  function PropertyKey(v: Value): string {
    match v
    case Undefined => "undefined"
    case Null => "null"
    case Bool(b) => if b then "true" else "false"
    case Num(n) => IntText(n)
    case Str(s) => s
    case Obj(_) => "[object Object]"
  }

  /** `Number(v) || 0`, within the integer-only model. A string counts only
      when it is a plain run of decimal digits; every other string is read as
      0 here, including those `Number` would parse (a sign, surrounding
      whitespace, an exponent or a fraction). */
  function NumberOrZero(v: Value): (n: int)
    ensures v.Num? ==> n == v.n
    ensures v.Str? && IsDigits(v.s) ==> n == DigitsValue(v.s)
    ensures v.Undefined? || v.Null? || v.Obj? ==> n == 0
    ensures v.Str? && !IsDigits(v.s) ==> n == 0
    ensures v.Bool? ==> n == (if v.b then 1 else 0)
  {
    match v
    case Num(n) => n
    case Bool(b) => if b then 1 else 0
    case Str(s) => if IsDigits(s) then DigitsValue(s) else 0
    case _ => 0
  }
}

=== FILE: layout.dfy ===
/** The signed-in shell: the role-dependent navigation, the header title, and
    what logging out does to the store. */
module Layout {
  import opened Js
  import opened Seqs
  import Routing
  import AuthSlice
  import EmployeeSlice
  import BranchSlice
  import EntityCache
  import UseAuth

  datatype NavItem = NavItem(name: string, href: string)

  const BaseNavigation := [NavItem("Dashboard", "/dashboard"), NavItem("Profile", "/profile")]

  /** `getNavigation(role)` */
  function Navigation(role: Value): (nav: seq<NavItem>)
    ensures |nav| >= 2 && nav[..2] == BaseNavigation
    ensures role == Str("admin") ==> nav[2..] == [NavItem("Employees", "/employees"), NavItem("Branches", "/branches")]
    ensures role == Str("manager") ==>
      nav[2..] == [NavItem("Employees", "/employees"), NavItem("Schedule", "/schedule"), NavItem("Reports", "/reports")]
    ensures role == Str("employee") ==> nav[2..] == [NavItem("Schedule", "/schedule"), NavItem("Tasks", "/tasks")]
    ensures role !in [Str("admin"), Str("manager"), Str("employee")] ==> nav == BaseNavigation
  {
    match role
    case Str("admin") => BaseNavigation + [NavItem("Employees", "/employees"), NavItem("Branches", "/branches")]
    case Str("manager") =>
      BaseNavigation + [NavItem("Employees", "/employees"), NavItem("Schedule", "/schedule"), NavItem("Reports", "/reports")]
    case Str("employee") => BaseNavigation + [NavItem("Schedule", "/schedule"), NavItem("Tasks", "/tasks")]
    case _ => BaseNavigation
  }

  predicate Links(nav: seq<NavItem>, href: string) {
    exists i | 0 <= i < |nav| :: nav[i].href == href
  }

  /** `(item) => item.href === pathname` */
  function HrefIs(pathname: string): NavItem -> bool {
    (item: NavItem) => item.href == pathname
  }

  /** `navigation.find(item => item.href === pathname)?.name || "Dashboard"`:
      the name of the first item linking to the page, unless that name is empty. */
  function Title(nav: seq<NavItem>, pathname: string): (t: string)
    ensures !Links(nav, pathname) ==> t == "Dashboard"
    ensures Links(nav, pathname) ==> exists k | 0 <= k < |nav| ::
      && nav[k].href == pathname
      && (forall j | 0 <= j < k :: nav[j].href != pathname)
      && t == (if nav[k].name != "" then nav[k].name else "Dashboard")
  {
    match FindIndex(nav, HrefIs(pathname))
    case None => "Dashboard"
    case Some(k) => if nav[k].name != "" then nav[k].name else "Dashboard"
  }

  /** No two items link to the same page and every item has a name. */
  predicate WellFormed(nav: seq<NavItem>) {
    && (forall i, j | 0 <= i < j < |nav| :: nav[i].href != nav[j].href)
    && (forall i | 0 <= i < |nav| :: nav[i].name != "")
  }

  lemma NavigationWellFormed(role: Value)
    ensures WellFormed(Navigation(role))
  {
  }

  /** In a well-formed menu the header shows the name of the item linking to
      the current page. */
  lemma TitleOfLinkedPage(nav: seq<NavItem>, i: nat)
    requires WellFormed(nav)
    requires i < |nav|
    ensures Title(nav, nav[i].href) == nav[i].name
  {
  }

  /** On every page of a role's menu the header shows that link's name. */
  lemma TitleOfMenuPage(role: Value, i: nat)
    requires i < |Navigation(role)|
    ensures Title(Navigation(role), Navigation(role)[i].href) == Navigation(role)[i].name
  {
    NavigationWellFormed(role);
    TitleOfLinkedPage(Navigation(role), i);
  }

  /** The menu agrees with the route guards: a signed-in user's link to
      `/employees` or `/branches` is shown exactly when the guard admits them,
      and the dashboard and profile links always lead to their pages. */
  lemma NavigationMatchesRoutes(user: Record)
    ensures var nav := Navigation(Get(user, "role"));
      && (Links(nav, "/branches") <==> Routing.AppRoutes(false, "/branches", Some(user)) == Routing.Show(Routing.BranchesPage))
      && (Links(nav, "/employees") ==> Routing.AppRoutes(false, "/employees", Some(user)) == Routing.Show(Routing.EmployeesPage))
      && Routing.AppRoutes(false, nav[0].href, Some(user)) == Routing.Show(Routing.DashboardPage)
      && Routing.AppRoutes(false, nav[1].href, Some(user)) == Routing.Show(Routing.ProfilePage)
  {
    var role := Get(user, "role");
    var nav := Navigation(role);
    if role == Str("admin") {
      assert nav[3].href == "/branches";
    } else if role == Str("manager") {
      assert nav[2].href == "/employees";
      assert !Links(nav, "/branches");
    } else {
      forall i | 0 <= i < |nav|
        ensures nav[i].href != "/employees" && nav[i].href != "/branches"
      {
        if i < 2 {
          assert nav[i] == nav[..2][i];
        } else {
          assert nav[i] == nav[2..][i - 2];
        }
      }
    }
  }

  /** The menu's schedule, tasks and reports links have no route, so following
      them lands back on the dashboard. */
  lemma UnroutedLinksFallThrough(user: Record, i: nat)
    requires i < |Navigation(Get(user, "role"))|
    requires Navigation(Get(user, "role"))[i].href in {"/schedule", "/tasks", "/reports"}
    ensures Routing.AppRoutes(false, Navigation(Get(user, "role"))[i].href, Some(user)) == Routing.Redirect("/dashboard", None)
    ensures Routing.Settle(Navigation(Get(user, "role"))[i].href, Some(user), 1) == Routing.Show(Routing.DashboardPage)
  {
  }

  /** The three slices `handleLogout` touches. */
  datatype Store = Store(auth: AuthSlice.State, employees: EntityCache.Cache, branches: EntityCache.Cache)

  datatype Effect =
    | Dispatch(actionType: string)
    | Toast(title: string, description: string)
    | Navigate(to: string)

  /** `handleLogout`, given how `signOut` went. */
  function LogoutEffects(signOut: Remote<()>): (effects: seq<Effect>)
    ensures signOut.Failed? ==> effects == [Toast("Error", "Failed to log out. Please try again.")]
    ensures signOut.Done? ==>
      && |effects| == 5
      && effects[..3] == [Dispatch("auth/clearUser"), Dispatch("employees/clearEmployees"), Dispatch("branches/clearBranches")]
      && effects[3] == Toast("Success", "Logged out successfully")
      && effects[4] == Navigate("/login")
  {
    match signOut
    case Failed(_) => [Toast("Error", "Failed to log out. Please try again.")]
    case Done(_) =>
      [ Dispatch("auth/clearUser"), Dispatch("employees/clearEmployees"), Dispatch("branches/clearBranches"),
        Toast("Success", "Logged out successfully"), Navigate("/login") ]
  }

  /** Routes a dispatched action type to the slice reducers. */
  function Apply(s: Store, e: Effect): Store {
    match e
    case Dispatch("auth/clearUser") => s.(auth := AuthSlice.Reduce(s.auth, AuthSlice.ClearUser))
    case Dispatch("employees/clearEmployees") => s.(employees := EmployeeSlice.Reduce(s.employees, EmployeeSlice.ClearEmployees))
    case Dispatch("branches/clearBranches") => s.(branches := BranchSlice.Reduce(s.branches, BranchSlice.ClearBranches))
    case _ => s
  }

  function ApplyAll(s: Store, effects: seq<Effect>): Store
    decreases |effects|
  {
    if |effects| == 0 then s else ApplyAll(Apply(s, effects[0]), effects[1..])
  }

  /** Logging out clears the user and both caches only when `signOut`
      succeeds; a failed sign-out leaves the store exactly as it was. */
  lemma LogoutClearsOnlyOnSuccess(s: Store, signOut: Remote<()>)
    ensures signOut.Done? ==>
      ApplyAll(s, LogoutEffects(signOut)) == Store(AuthSlice.State(None, false, None), EntityCache.Empty, EntityCache.Empty)
    ensures signOut.Failed? ==> ApplyAll(s, LogoutEffects(signOut)) == s
  {
    var effects := LogoutEffects(signOut);
    if signOut.Done? {
      var e := [Toast("Success", "Logged out successfully"), Navigate("/login")];
      assert ApplyAll(s, effects) == ApplyAll(Apply(s, effects[0]), effects[1..]);
      var s1 := Apply(s, Dispatch("auth/clearUser"));
      assert effects[1..] == [Dispatch("employees/clearEmployees"), Dispatch("branches/clearBranches")] + e;
      var s2 := Apply(s1, Dispatch("employees/clearEmployees"));
      assert ApplyAll(s1, effects[1..]) == ApplyAll(s2, [Dispatch("branches/clearBranches")] + e);
      var s3 := Apply(s2, Dispatch("branches/clearBranches"));
      assert ApplyAll(s2, [Dispatch("branches/clearBranches")] + e) == ApplyAll(s3, e);
      assert ApplyAll(s3, e) == ApplyAll(s3, e[1..]);
      assert ApplyAll(s3, e[1..]) == s3;
    } else {
      assert effects[1..] == [];
    }
  }

  /** After a successful logout the guarded pages send the user to log in.
      The route table waits on `useAuth`'s own `loading` flag, kept in the
      hook and not in the store; once the hook's initialisation has ended
      it is off, and the routes read only the store's user. */
  lemma LoggedOutIsGuarded(s: Store, hook: UseAuth.Hook, path: string,
                           session: Remote<Option<AuthSlice.Session>>, lookup: Remote<Option<Record>>)
    requires path in {"/dashboard", "/profile", "/employees", "/branches"}
    ensures
      var t := ApplyAll(s, LogoutEffects(Done(())));
      var settled := UseAuth.InitializeAuth(UseAuth.Mounted, session, lookup).hook;
      Routing.AppRoutes(settled.loading, path, t.auth.user) == Routing.Redirect("/login", Some(path))
    ensures hook.loading ==>
      Routing.AppRoutes(hook.loading, path, ApplyAll(s, LogoutEffects(Done(()))).auth.user) == Routing.Show(Routing.Spinner)
  {
    LogoutClearsOnlyOnSuccess(s, Done(()));
    UseAuth.InitialisationEndsLoading(session, lookup);
  }
}

=== FILE: manager_dashboard.dfy ===
/** What the manager's dashboard derives from the cached employees: the rows of
    the manager's own branch, their role distribution, and the slice colours. */
module ManagerDashboard {
  import opened Js
  import opened Seqs
  import DashboardSlice
  import BranchSlice
  import EntityCache

  const Colors := ["#0088FE", "#00C49F", "#FFBB28"]

  /** `emp.branch_id === user.branch_id` */
  function SameBranch(user: Record): Record -> bool {
    (emp: Record) => Get(emp, "branch_id") == Get(user, "branch_id")
  }

  /** `employees.filter(emp => emp.branch_id === user.branch_id)` */
  function BranchEmployees(employees: seq<Record>, user: Record): (r: seq<Record>)
    ensures |r| <= |employees|
    ensures forall i | 0 <= i < |r| :: Get(r[i], "branch_id") == Get(user, "branch_id") && r[i] in employees
    ensures forall i | 0 <= i < |employees| && Get(employees[i], "branch_id") == Get(user, "branch_id") ::
      employees[i] in r
    ensures |r| == Count(employees, SameBranch(user))
  {
    FilterLength(employees, SameBranch(user));
    Filter(employees, SameBranch(user))
  }

  /** The branch rows keep their order: filtering a concatenation filters each part. */
  lemma BranchEmployeesInOrder(a: seq<Record>, b: seq<Record>, user: Record)
    ensures BranchEmployees(a + b, user) == BranchEmployees(a, user) + BranchEmployees(b, user)
  {
    FilterConcat(a, b, SameBranch(user));
  }

  /** `roleData`: one entry per distinct role in the branch, in first-seen
      order, counting that role, the counts adding up to the displayed total. */
  function RoleData(employees: seq<Record>, user: Record): (r: seq<Tally>)
    ensures DistinctKeys(r)
    ensures forall i | 0 <= i < |r| ::
      && r[i].count >= 1
      && r[i].count == Occurrences(DashboardSlice.RoleKeys(BranchEmployees(employees, user)), r[i].key)
    ensures Total(r) == |BranchEmployees(employees, user)|
  {
    CountBy(DashboardSlice.RoleKeys(BranchEmployees(employees, user)))
  }

  /** A role appears in the chart exactly when some employee of the branch has it. */
  lemma RoleShownIffPresent(employees: seq<Record>, user: Record, role: string)
    ensures role in KeysOf(RoleData(employees, user)) <==>
      exists i | 0 <= i < |employees| ::
        Get(employees[i], "branch_id") == Get(user, "branch_id")
        && PropertyKey(Get(employees[i], "role")) == role
  {
    var staff := BranchEmployees(employees, user);
    var keys := DashboardSlice.RoleKeys(staff);
    assert role in KeysOf(RoleData(employees, user)) <==> role in keys;
    if role in keys {
      var j :| 0 <= j < |keys| && keys[j] == role;
      var i :| 0 <= i < |employees| && employees[i] == staff[j];
    }
    if exists i | 0 <= i < |employees| ::
        Get(employees[i], "branch_id") == Get(user, "branch_id")
        && PropertyKey(Get(employees[i], "role")) == role {
      var i :| 0 <= i < |employees| &&
        Get(employees[i], "branch_id") == Get(user, "branch_id")
        && PropertyKey(Get(employees[i], "role")) == role;
      var j :| 0 <= j < |staff| && staff[j] == employees[i];
      assert keys[j] == role;
    }
  }

  /** `COLORS[index % COLORS.length]` */
  function SliceColor(index: nat): (c: string)
    ensures c in Colors
    ensures c == Colors[index % 3]
    ensures index >= 3 ==> c == SliceColor(index - 3)
  {
    Colors[index % |Colors|]
  }

  /** The manager's total is the count the admin dashboard shows for that branch. */
  lemma TotalMatchesDashboard(employees: seq<Record>, branches: seq<Record>, user: Record, i: nat)
    requires i < |branches|
    requires Get(user, "branch_id") == EntityCache.IdOf(branches[i])
    ensures |BranchEmployees(employees, user)|
         == DashboardSlice.ComputeStats(employees, branches).salaryByBranch[i].employeeCount
  {
    SameCount(employees, SameBranch(user), BranchSlice.WorksAt(branches[i]));
  }

  /** Two predicates that agree on every element count the same elements. */
  lemma {:induction false} SameCount(s: seq<Record>, p: Record -> bool, q: Record -> bool)
    requires forall x :: p(x) == q(x)
    ensures Count(s, p) == Count(s, q)
    decreases |s|
  {
    if |s| > 0 {
      SameCount(s[1..], p, q);
    }
  }
}

=== FILE: profile_page.dfy ===
/** The profile page: the editable fields and their defaults, the branch
    label, the password dialog, and the argument the profile update
    dispatches. */
module ProfilePage {
  import opened Js
  import opened Seqs
  import EntityCache
  import EmployeeSlice
  import ResetPassword
  import Rejection

  const FormKeys: set<string> := {"full_name", "email", "phone", "address"}

  /** The profile form for the signed-in user: each field, or "" when it is
      missing or falsy. */
  function ProfileForm(user: Option<Record>): (form: Record)
    ensures form.Keys == FormKeys
    ensures forall k | k in FormKeys :: Truthy(GetOpt(user, k)) ==> form[k] == GetOpt(user, k)
    ensures forall k | k in FormKeys :: !Truthy(GetOpt(user, k)) ==> form[k] == Str("")
  {
    map k | k in FormKeys :: Or(GetOpt(user, k), Str(""))
  }

  /** With nobody signed in every field is blank, and a field is never
      `null` or `undefined`. */
  lemma FormNeverMissing(user: Option<Record>)
    ensures user.None? ==> forall k | k in FormKeys :: ProfileForm(user)[k] == Str("")
    ensures forall k | k in FormKeys :: !ProfileForm(user)[k].Undefined? && !ProfileForm(user)[k].Null?
  {
  }

  /** `(b) => b.id === user?.branch_id` */
  function BranchOf(user: Option<Record>): Record -> bool {
    (b: Record) => Get(b, "id") == GetOpt(user, "branch_id")
  }

  /** `branches.find(...)?.name || "Not Assigned"` */
  function BranchLabel(branches: seq<Record>, user: Option<Record>): (shown: Value)
    ensures Truthy(shown)
    ensures (forall i | 0 <= i < |branches| :: Get(branches[i], "id") != GetOpt(user, "branch_id")) ==>
      shown == Str("Not Assigned")
    ensures shown != Str("Not Assigned") ==> exists i | 0 <= i < |branches| ::
      Get(branches[i], "id") == GetOpt(user, "branch_id") && shown == Get(branches[i], "name")
  {
    match FindIndex(branches, BranchOf(user))
    case None => Str("Not Assigned")
    case Some(i) => Or(Get(branches[i], "name"), Str("Not Assigned"))
  }

  /** With unique branch ids, the label is the name of the user's branch. */
  lemma LabelOfOwnBranch(branches: seq<Record>, user: Record, i: nat)
    requires EntityCache.UniqueIds(branches)
    requires i < |branches|
    requires Get(branches[i], "id") == Get(user, "branch_id")
    requires Truthy(Get(branches[i], "name"))
    ensures BranchLabel(branches, Some(user)) == Get(branches[i], "name")
  {
    var k := FindIndex(branches, BranchOf(Some(user))).value;
    assert EntityCache.IdOf(branches[k]) == EntityCache.IdOf(branches[i]);
  }

  /** The password dialog: its three fields and whether it is open. */
  datatype PasswordForm = PasswordForm(current: string, next: string, confirm: string)

  const BlankPasswords := PasswordForm("", "", "")

  datatype Dialog = Dialog(form: PasswordForm, open: bool)

  datatype Effect =
    | Toast(title: string, description: Value)
    | UpdatePassword(password: string)
    | DispatchUpdate(arg: Record)

  /** `handlePasswordUpdate`, given the answer to the password update: the
      dialog afterwards and the effects. Only the confirmation is checked. */
  function ChangePassword(d: Dialog, update: Remote<()>): (r: (Dialog, seq<Effect>))
    ensures d.form.next != d.form.confirm ==> r == (d, [Toast("Error", Str("New passwords do not match"))])
    ensures d.form.next == d.form.confirm && update.Done? ==>
      r == (Dialog(BlankPasswords, false), [UpdatePassword(d.form.next), Toast("Success", Str("Password updated successfully"))])
    ensures d.form.next == d.form.confirm && update.Failed? ==>
      r == (d, [UpdatePassword(d.form.next), Toast("Error", Str(update.message))])
  {
    if d.form.next != d.form.confirm then (d, [Toast("Error", Str("New passwords do not match"))])
    else match update
      case Done(_) =>
        (Dialog(BlankPasswords, false), [UpdatePassword(d.form.next), Toast("Success", Str("Password updated successfully"))])
      case Failed(m) => (d, [UpdatePassword(d.form.next), Toast("Error", Str(m))])
  }

  /** A password reaches the backend exactly when it was confirmed; only a
      successful change clears the fields and closes the dialog. */
  lemma PasswordSentIffConfirmed(d: Dialog, update: Remote<()>, sent: string)
    ensures UpdatePassword(sent) in ChangePassword(d, update).1 <==> sent == d.form.next && d.form.next == d.form.confirm
    ensures ChangePassword(d, update).0 != d ==> ChangePassword(d, update).0 == Dialog(BlankPasswords, false)
    ensures !ChangePassword(d, update).0.open <==> (d.form.next == d.form.confirm && update.Done?) || !d.open
  {
  }

  /** Unlike the reset page, the profile page sends any confirmed password:
      every password the reset page accepts passes here, and a one-character
      one passes here only. */
  lemma WeakerThanResetPage(d: Dialog, update: Remote<()>)
    requires ResetPassword.Validate(d.form.next, d.form.confirm).None?
    ensures UpdatePassword(d.form.next) in ChangePassword(d, update).1
    ensures UpdatePassword("x") in ChangePassword(Dialog(PasswordForm("", "x", "x"), true), update).1
    ensures ResetPassword.Validate("x", "x") == Some(ResetPassword.TooShortMessage)
  {
  }

  /** The argument `handleProfileUpdate` dispatches, as written: the user's id
      with the form's fields spread beside it. */
  function UpdateArg(user: Record, form: Record): (arg: Record)
    ensures arg.Keys == {"id"} + form.Keys
    ensures "id" !in form ==> arg["id"] == Get(user, "id")
    ensures forall k | k in form :: arg[k] == form[k]
  {
    Spread(map["id" := Get(user, "id")], form)
  }

  /** As written, the update thunk finds no `formData` in the argument, so the
      data it writes is empty, whatever the user typed. */
  lemma ProfileUpdateWritesNothing(user: Option<Record>, signedIn: Record)
    ensures EmployeeSlice.UpdateData(UpdateArg(signedIn, ProfileForm(user))) == map[]
  {
    assert "formData" !in UpdateArg(signedIn, ProfileForm(user));
  }

  /** The intended argument: the id beside the form under `formData`, the
      shape the employees page uses. */
  function UpdateArgCorrected(user: Record, form: Record): (arg: Record)
    ensures arg.Keys == {"id", "formData"}
    ensures arg["id"] == Get(user, "id")
    ensures EmployeeSlice.UpdateData(arg) == form
  {
    map["id" := Get(user, "id"), "formData" := Obj(form)]
  }

  /** With the correction, the update writes exactly the four profile fields. */
  lemma CorrectedUpdateWritesForm(user: Option<Record>, signedIn: Record)
    ensures EmployeeSlice.UpdateData(UpdateArgCorrected(signedIn, ProfileForm(user))).Keys == FormKeys
    ensures forall k | k in FormKeys ::
      EmployeeSlice.UpdateData(UpdateArgCorrected(signedIn, ProfileForm(user)))[k] == Or(GetOpt(user, k), Str(""))
  {
  }

  /** `handleProfileUpdate`, given the thunk's outcome and how the error toast
      reads the thrown value. */
  function ProfileUpdateUsing(describe: Value -> Value, arg: Record, outcome: Remote<Record>): (effects: seq<Effect>)
    ensures outcome.Done? ==> effects == [DispatchUpdate(arg), Toast("Success", Str("Profile updated successfully"))]
    ensures outcome.Failed? ==> effects == [DispatchUpdate(arg), Toast("Error", describe(Rejection.Thrown(outcome.message)))]
  {
    match outcome
    case Done(_) => [DispatchUpdate(arg), Toast("Success", Str("Profile updated successfully"))]
    case Failed(m) => [DispatchUpdate(arg), Toast("Error", describe(Rejection.Thrown(m)))]
  }

  /** As written, a failed profile update shows an error toast without a
      description. */
  lemma ProfileFailureToastBlank(user: Record, form: Record, message: string)
    ensures ProfileUpdateUsing(Rejection.MessageProperty, UpdateArg(user, form), Failed(message))[1] ==
      Toast("Error", Undefined)
    ensures ProfileUpdateUsing(Rejection.Description, UpdateArgCorrected(user, form), Failed(message))[1] ==
      Toast("Error", Str(message))
  {
  }
}

=== FILE: profile_slice.dfy ===
/** The profile slice: three flags driven by the lifecycles of `updateProfile`
    and `changePassword`, plus `clearProfileState`. */
module ProfileSlice {
  import opened Js

  datatype State = State(loading: bool, error: Option<string>, success: bool)

  const Initial := State(false, None, false)

  datatype Thunk = UpdateProfile | ChangePassword

  datatype Action =
    | ClearProfileState
    | Pending(thunk: Thunk)
    | Fulfilled(thunk: Thunk)
    | Rejected(thunk: Thunk, message: string)
    | Unrelated

  /** `profileSlice.reducer`. Both thunks drive the flags the same way. */
  function Reduce(s: State, a: Action): (t: State)
    ensures a.ClearProfileState? ==> t == Initial
    ensures a.Pending? ==> t == State(true, None, false)
    ensures a.Fulfilled? ==> !t.loading && t.success && t.error == s.error
    ensures a.Rejected? ==> t == State(false, Some(a.message), false)
    ensures a.Unrelated? ==> t == s
    ensures !a.Unrelated? ==> !(t.loading && t.success)
  {
    match a
    case ClearProfileState => Initial
    case Pending(_) => State(true, None, false)
    case Fulfilled(_) => s.(loading := false, success := true)
    case Rejected(_, m) => State(false, Some(m), false)
    case Unrelated => s
  }

  /** The slice state after a sequence of actions. */
  function Run(s: State, actions: seq<Action>): State
    decreases |actions|
  {
    if |actions| == 0 then s else Run(Reduce(s, actions[0]), actions[1..])
  }

  predicate Consistent(s: State) {
    !(s.loading && s.success)
  }

  /** Starting from the initial state, no sequence of actions ever shows a
      request in flight and a success at the same time. */
  lemma {:induction false} NeverLoadingAndSuccessful(s: State, actions: seq<Action>)
    requires Consistent(s)
    ensures Consistent(Run(s, actions))
    decreases |actions|
  {
    if |actions| > 0 {
      NeverLoadingAndSuccessful(Reduce(s, actions[0]), actions[1..]);
    }
  }

  /** A success is only ever reported after a fulfilled action, and a pending
      action always withdraws it. */
  lemma SuccessNeedsFulfilment(s: State, a: Action)
    requires !s.success
    ensures Reduce(s, a).success <==> a.Fulfilled?
  {
  }
}

=== FILE: rejection.dfy ===
/** What a page's `catch` block sees when it awaits `dispatch(thunk).unwrap()`
    on a thunk that failed. Every thunk of the client rejects through
    `rejectWithValue(error.message)`, and `unwrap()` rethrows that payload
    itself: the message string, not an error object. */
module Rejection {
  import opened Js

  /** The value `unwrap()` throws for a thunk rejected with `message`. */
  function Thrown(message: string): (v: Value)
    ensures v.Str? && v.s == message
  {
    Str(message)
  }

  /** `error.message` as the pages read it: only an object has the property,
      so on a string it is `undefined`. */
  function MessageProperty(thrown: Value): Value {
    Prop(thrown, "message")
  }

  /** As written, the description of the error toast after an unwrapped
      rejection is `undefined`, whatever the message was. */
  lemma UnwrappedMessageLost(message: string)
    ensures MessageProperty(Thrown(message)) == Undefined
    ensures !Truthy(MessageProperty(Thrown(message)))
  {
  }

  /** The evidently intended description: the message of an error object, or
      the thrown string itself. */
  function Description(thrown: Value): (v: Value)
    ensures thrown.Str? ==> v == thrown
    ensures !thrown.Str? ==> v == MessageProperty(thrown)
  {
    if thrown.Str? then thrown else MessageProperty(thrown)
  }

  /** With the intended reading, the toast shows the rejection's message, and
      error objects are described exactly as before. */
  lemma DescriptionKeepsMessage(message: string, thrown: Value)
    ensures Description(Thrown(message)) == Str(message)
    ensures thrown.Obj? ==> Description(thrown) == MessageProperty(thrown)
  {
  }
}

=== FILE: reset_password.dfy ===
/** The page that sets a new password after a recovery or invite link: the
    checks on arrival and the validation and effects of submitting. */
module ResetPassword {
  import opened Js
  import opened Text
  import AuthCallback

  datatype Effect =
    | Toast(title: string, description: string)
    | Navigate(to: string)
    | UpdateUser(password: string)
    | SignOut

  const MismatchMessage := "Passwords do not match"
  const TooShortMessage := "Password must be at least 6 characters"
  const MinLength: nat := 6

  /** The `token` query parameter check on arrival: a missing or empty token
      sends the visitor back to the login page. */
  function TokenGate(token: Option<string>): (effects: seq<Effect>)
    ensures effects == [] <==> token.Some? && token.value != ""
    ensures effects != [] ==> effects == [Toast("Error", "Invalid password reset link"), Navigate("/login")]
  {
    if token.None? || token.value == "" then [Toast("Error", "Invalid password reset link"), Navigate("/login")]
    else []
  }

  const ResetPath := "/reset-password"

  /** Whether a query pair is for `key`: `key=value`, or a bare `key`. */
  predicate PairFor(pair: string, key: string) {
    pair == key || StartsWith(pair, key + "=")
  }

  /** The value a pair for `key` carries; a bare `key` carries the empty value. */
  function PairValue(pair: string, key: string): string
    requires PairFor(pair, key)
  {
    if StartsWith(pair, key + "=") then pair[|key| + 1..] else ""
  }

  /** The value of the first pair among `pairs` that is for `key`. */
  function FirstValue(pairs: seq<string>, key: string): (r: Option<string>)
    ensures r.None? <==> forall i | 0 <= i < |pairs| :: !PairFor(pairs[i], key)
    ensures r.Some? ==> exists i | 0 <= i < |pairs| ::
      && PairFor(pairs[i], key)
      && r.value == PairValue(pairs[i], key)
      && (forall j | 0 <= j < i :: !PairFor(pairs[j], key))
    decreases |pairs|
  {
    if |pairs| == 0 then None
    else if StartsWith(pairs[0], key + "=") then Some(pairs[0][|key| + 1..])
    else if pairs[0] == key then Some("")
    else
      var rest := FirstValue(pairs[1..], key);
      assert rest.None? ==> forall i | 0 <= i < |pairs| :: !PairFor(pairs[i], key) by {
        if rest.None? {
          forall i | 0 <= i < |pairs|
            ensures !PairFor(pairs[i], key)
          {
            if i > 0 {
              assert pairs[i] == pairs[1..][i - 1];
            }
          }
        }
      }
      assert rest.Some? ==> exists i | 0 <= i < |pairs| ::
        && PairFor(pairs[i], key)
        && rest.value == PairValue(pairs[i], key)
        && (forall j | 0 <= j < i :: !PairFor(pairs[j], key)) by {
        if rest.Some? {
          var k :| 0 <= k < |pairs[1..]|
            && PairFor(pairs[1..][k], key)
            && rest.value == PairValue(pairs[1..][k], key)
            && (forall j | 0 <= j < k :: !PairFor(pairs[1..][j], key));
          assert pairs[k + 1] == pairs[1..][k];
          forall j | 0 <= j < k + 1
            ensures !PairFor(pairs[j], key)
          {
            if j > 0 {
              assert pairs[j] == pairs[1..][j - 1];
            }
          }
        }
      }
      rest
  }

  /** `searchParams.get(key)` on arrival at `path`: the query is the text after
      the first `?`, read as `&`-separated pairs. */
  function QueryParam(path: string, key: string): (r: Option<string>)
    ensures '?' !in path ==> r.None?
  {
    assert '?' !in path ==> IndexOf(path, "?").None? by {
      ContainsChar(path, '?');
    }
    match IndexOf(path, "?")
    case None => None
    case Some(i) => FirstValue(Split(path[i + 1..], "&"), key)
  }

  /** The reset path carries no query string. */
  lemma ResetPathHasNoQuery()
    ensures '?' !in ResetPath
  {
    assert forall i | 0 <= i < |ResetPath| :: ResetPath[i] != '?';
  }

  /** A path with a one-pair query string yields that pair's value. */
  lemma {:induction false} QueryParamOfPair(base: string, key: string, value: string)
    requires '?' !in base
    requires '&' !in key && '&' !in value
    ensures QueryParam(base + "?" + key + "=" + value, key) == Some(value)
  {
    var query := key + "=" + value;
    var path := base + "?" + query;
    assert base + "?" + key + "=" + value == path;
    ContainsChar(base, '?');
    IndexOfAfterClean(base, "?", query);
    assert path[|base| + 1..] == query;
    assert '&' !in query;
    ContainsChar(query, '&');
    SplitHead(query, "&");
    assert Split(query, "&") == [query];
    assert query[..|key| + 1] == key + "=";
    assert query[|key| + 1..] == value;
    assert StartsWith(query, key + "=");
    assert FirstValue([query], key) == Some(value);
    assert QueryParam(path, key) == FirstValue(Split(path[|base| + 1..], "&"), key);
  }

  /** A query of two pairs whose first is for another key yields the second
      pair's value, as for `?type=recovery&token=abc`. */
  lemma {:induction false} QueryParamOfSecondPair(base: string, first: string, key: string, value: string)
    requires '?' !in base
    requires '&' !in first && '&' !in key && '&' !in value
    requires !PairFor(first, key)
    ensures QueryParam(base + "?" + first + "&" + key + "=" + value, key) == Some(value)
  {
    var second := key + "=" + value;
    var query := first + "&" + second;
    var path := base + "?" + query;
    assert base + "?" + first + "&" + key + "=" + value == path;
    ContainsChar(base, '?');
    IndexOfAfterClean(base, "?", query);
    assert path[|base| + 1..] == query;
    ContainsChar(first, '&');
    SingleCharBorderFree('&');
    SplitAfterClean(first, "&", second);
    assert '&' !in second;
    ContainsChar(second, '&');
    SplitHead(second, "&");
    var pairs := Split(query, "&");
    assert pairs == [first, second];
    assert second[..|key| + 1] == key + "=";
    assert second[|key| + 1..] == value;
    assert FirstValue(pairs[1..], key) == Some(value);
    assert QueryParam(path, key) == FirstValue(pairs, key);
  }

  /** Where a verified recovery or invite link is sent, as written: the bare
      reset path. */
  function CallbackLanding(token: Option<string>, linkType: Option<string>, session: Remote<bool>): (path: string)
    requires AuthCallback.OtpLink(linkType)
    ensures AuthCallback.Navigate(path) in AuthCallback.HandleCallback(token, linkType, Done(()), session)
  {
    var effects := AuthCallback.HandleCallback(token, linkType, Done(()), session);
    assert effects[1] == AuthCallback.Navigate(ResetPath);
    ResetPath
  }

  /** As written, every recovery or invite link that verifies is sent on to
      the login page: the callback drops the token, and the token check on
      arrival finds none. */
  lemma CallbackLandingHasNoToken(token: Option<string>, linkType: Option<string>, session: Remote<bool>)
    requires AuthCallback.OtpLink(linkType)
    ensures QueryParam(CallbackLanding(token, linkType, session), "token").None?
    ensures TokenGate(QueryParam(CallbackLanding(token, linkType, session), "token")) ==
      [Toast("Error", "Invalid password reset link"), Navigate("/login")]
  {
    ResetPathHasNoQuery();
    assert CallbackLanding(token, linkType, session) == ResetPath;
  }

  /** The evidently intended landing: the callback passes the verified token
      on in the query string. */
  function CallbackLandingCorrected(token: Option<string>): (path: string)
    ensures token.None? ==> path == ResetPath
    ensures token.Some? && '&' !in token.value ==> QueryParam(path, "token") == token
  {
    match token
    case None => ResetPath
    case Some(t) =>
      var path := ResetPath + "?" + "token" + "=" + t;
      assert '&' !in t ==> QueryParam(path, "token") == Some(t) by {
        if '&' !in t {
          ResetPathHasNoQuery();
          QueryParamOfPair(ResetPath, "token", t);
        }
      }
      path
  }

  /** With the correction, a verified link with a non-empty token passes the
      token check on arrival. */
  lemma CorrectedLandingKeepsToken(t: string)
    requires t != "" && '&' !in t
    ensures TokenGate(QueryParam(CallbackLandingCorrected(Some(t)), "token")) == []
  {
  }

  /** The session check on arrival, given whether the link left a session. */
  function SessionGate(hasSession: bool): (effects: seq<Effect>)
    ensures hasSession <==> effects == []
    ensures !hasSession ==> effects == [Toast("Error", "Invalid or expired reset link"), Navigate("/login")]
  {
    if hasSession then [] else [Toast("Error", "Invalid or expired reset link"), Navigate("/login")]
  }

  /** The two checks of `handleSubmit`, in order: the confirmation first, then
      the length in UTF-16 code units. */
  function Validate(password: string, confirm: string): (error: Option<string>)
    ensures password != confirm ==> error == Some(MismatchMessage)
    ensures password == confirm && Utf16Length(password) < MinLength ==> error == Some(TooShortMessage)
    ensures error.None? <==> password == confirm && Utf16Length(password) >= MinLength
  {
    if password != confirm then Some(MismatchMessage)
    else if Utf16Length(password) < MinLength then Some(TooShortMessage)
    else None
  }

  /** `handleSubmit`, given the answer to the password update. The answer of
      the sign-out that follows is not inspected. */
  function Submit(password: string, confirm: string, update: Remote<()>): (effects: seq<Effect>)
    ensures Validate(password, confirm).Some? ==> effects == [Toast("Error", Validate(password, confirm).value)]
    ensures Validate(password, confirm).None? && update.Failed? ==>
      effects == [UpdateUser(password), Toast("Error", update.message)]
    ensures Validate(password, confirm).None? && update.Done? ==>
      effects == [UpdateUser(password), SignOut,
                  Toast("Success", "Password set successfully. Please login with your new password."), Navigate("/login")]
  {
    match Validate(password, confirm)
    case Some(message) => [Toast("Error", message)]
    case None =>
      match update
      case Failed(message) => [UpdateUser(password), Toast("Error", message)]
      case Done(_) =>
        [UpdateUser(password), SignOut,
         Toast("Success", "Password set successfully. Please login with your new password."), Navigate("/login")]
  }

  /** Only a password that passes both checks reaches the backend, and it is
      the password typed. */
  lemma OnlyValidPasswordsSent(password: string, confirm: string, update: Remote<()>, sent: string)
    ensures UpdateUser(sent) in Submit(password, confirm, update) <==>
      sent == password && password == confirm && Utf16Length(password) >= MinLength
  {
  }

  /** A mismatch is reported as such even when the password is also too short. */
  lemma MismatchReportedFirst(password: string, confirm: string, update: Remote<()>)
    requires password != confirm
    requires Utf16Length(password) < MinLength
    ensures Submit(password, confirm, update) == [Toast("Error", MismatchMessage)]
  {
  }

  /** On success the user is signed out before being sent to log in, and the
      page is left only then. */
  lemma SignOutBeforeLogin(password: string, confirm: string, update: Remote<()>)
    ensures var effects := Submit(password, confirm, update);
      Navigate("/login") in effects <==> SignOut in effects
    ensures var effects := Submit(password, confirm, update);
      SignOut in effects ==> effects[1] == SignOut && effects[|effects| - 1] == Navigate("/login")
  {
  }

  /** The length counts UTF-16 code units: three characters outside the Basic
      Multilingual Plane already make six. */
  lemma AstralCharactersCountTwice()
    ensures Validate("\U{1F600}\U{1F600}\U{1F600}", "\U{1F600}\U{1F600}\U{1F600}").None?
    ensures Validate("abcde", "abcde") == Some(TooShortMessage)
  {
    var s := "\U{1F600}\U{1F600}\U{1F600}";
    assert s[1..][1..][1..] == [];
  }
}

=== FILE: routing.dfy ===
/** Access control: the `ProtectedRoute` guard, the route table of `AppRoutes`
    as a function of (loading, path, user), and the role switch on the
    dashboard page. */
module Routing {
  import opened Js

  /** What `ProtectedRoute` renders. */
  datatype Guard =
    | ToLogin(from: string)
    | ToDashboard
    | Render

  /** `ProtectedRoute({ allowedRoles })` for the user in the store and the
      current location. */
  function ProtectedRoute(user: Option<Record>, allowedRoles: seq<Value>, location: string): (g: Guard)
    ensures user.None? ==> g == ToLogin(location)
    ensures user.Some? && |allowedRoles| == 0 ==> g == Render
    ensures user.Some? ==> (g == Render <==> |allowedRoles| == 0 || Get(user.value, "role") in allowedRoles)
    ensures user.Some? ==> (g == ToDashboard <==> |allowedRoles| > 0 && Get(user.value, "role") !in allowedRoles)
    ensures !g.ToLogin? <==> user.Some?
  {
    if user.None? then ToLogin(location)
    else if |allowedRoles| > 0 && Get(user.value, "role") !in allowedRoles then ToDashboard
    else Render
  }

  /** Adding roles to a non-empty list can only admit more users. */
  lemma WiderListAdmitsMore(user: Option<Record>, roles: seq<Value>, more: seq<Value>, location: string)
    requires |roles| > 0
    requires ProtectedRoute(user, roles, location) == Render
    ensures ProtectedRoute(user, roles + more, location) == Render
  {
  }

  /** The pages the app can show. */
  datatype Page =
    | Spinner
    | AuthCallbackPage
    | ResetPasswordPage
    | LoginPage
    | DashboardPage
    | ProfilePage
    | EmployeesPage
    | BranchesPage

  /** The outcome of one routing step: a page, or a redirect (with the location
      the login page is asked to return to, when there is one). */
  datatype View = Show(page: Page) | Redirect(to: string, from: Option<string>)

  const EmployeesRoles: seq<Value> := [Str("admin"), Str("manager")]
  const BranchesRoles: seq<Value> := [Str("admin")]

  /** The paths that have a route of their own; everything else hits `*`. */
  predicate Routed(path: string) {
    path in {"/auth/callback", "/reset-password", "/login", "/dashboard", "/profile", "/employees", "/branches", "/"}
  }

  /** What a `ProtectedRoute` means as a view. */
  function GuardView(g: Guard, page: Page): View {
    match g
    case ToLogin(from) => Redirect("/login", Some(from))
    case ToDashboard => Redirect("/dashboard", None)
    case Render => Show(page)
  }

  /** `AppRoutes` for one render: the loading spinner, the public routes, the
      protected layout (an outer guard with no roles, then an inner guard for
      the restricted pages), the index redirect and the catch-all. */
  function AppRoutes(loading: bool, path: string, user: Option<Record>): (v: View)
    ensures loading ==> v == Show(Spinner)
    ensures !loading && path == "/auth/callback" ==> v == Show(AuthCallbackPage)
    ensures !loading && path == "/reset-password" ==> v == Show(ResetPasswordPage)
    ensures !loading && path == "/login" ==> v == (if user.Some? then Redirect("/dashboard", None) else Show(LoginPage))
    ensures !loading && !Routed(path) ==> v == Redirect("/dashboard", None)
    ensures !loading && path in {"/dashboard", "/profile", "/employees", "/branches", "/"} && user.None? ==>
      v == Redirect("/login", Some(path))
  {
    if loading then Show(Spinner)
    else if path == "/auth/callback" then Show(AuthCallbackPage)
    else if path == "/reset-password" then Show(ResetPasswordPage)
    else if path == "/login" then (if user.Some? then Redirect("/dashboard", None) else Show(LoginPage))
    else if path in {"/dashboard", "/profile", "/employees", "/branches", "/"} then
      match ProtectedRoute(user, [], path)
      case ToLogin(from) => Redirect("/login", Some(from))
      case _ =>
        if path == "/dashboard" then Show(DashboardPage)
        else if path == "/profile" then Show(ProfilePage)
        else if path == "/employees" then GuardView(ProtectedRoute(user, EmployeesRoles, path), EmployeesPage)
        else if path == "/branches" then GuardView(ProtectedRoute(user, BranchesRoles, path), BranchesPage)
        else Redirect("/dashboard", None)
    else Redirect("/dashboard", None)
  }

  /** `/employees` shows its page to admins and managers only, and sends every
      other signed-in user to the dashboard. */
  lemma EmployeesAccess(user: Record)
    ensures AppRoutes(false, "/employees", Some(user)) == Show(EmployeesPage)
      <==> Get(user, "role") == Str("admin") || Get(user, "role") == Str("manager")
    ensures AppRoutes(false, "/employees", Some(user)) != Show(EmployeesPage) ==>
      AppRoutes(false, "/employees", Some(user)) == Redirect("/dashboard", None)
  {
  }

  /** `/branches` shows its page to admins only. */
  lemma BranchesAccess(user: Record)
    ensures AppRoutes(false, "/branches", Some(user)) == Show(BranchesPage) <==> Get(user, "role") == Str("admin")
    ensures AppRoutes(false, "/branches", Some(user)) != Show(BranchesPage) ==>
      AppRoutes(false, "/branches", Some(user)) == Redirect("/dashboard", None)
  {
  }

  /** `/dashboard` and `/profile` need a session and nothing else. */
  lemma SessionOnlyPages(user: Record)
    ensures AppRoutes(false, "/dashboard", Some(user)) == Show(DashboardPage)
    ensures AppRoutes(false, "/profile", Some(user)) == Show(ProfilePage)
  {
  }

  /** The page reached by following redirects for at most `fuel` steps. */
  function Settle(path: string, user: Option<Record>, fuel: nat): View
    decreases fuel
  {
    match AppRoutes(false, path, user)
    case Show(p) => Show(p)
    case Redirect(to, from) => if fuel == 0 then Redirect(to, from) else Settle(to, user, fuel - 1)
  }

  /** Every path ends on a page within two redirects: signed out, on a public
      page or the login page; signed in, on a page the route guards admit. */
  lemma EveryPathSettles(path: string, user: Option<Record>)
    ensures Settle(path, user, 2).Show?
    ensures user.None? ==> Settle(path, user, 2).page in {AuthCallbackPage, ResetPasswordPage, LoginPage}
    ensures user.Some? ==> Settle(path, user, 2).page !in {Spinner, LoginPage}
  {
  }

  /** A signed-in user asking for a page their role may not see lands on the
      dashboard. */
  lemma DeniedLandsOnDashboard(user: Record)
    requires Get(user, "role") != Str("admin")
    ensures Settle("/branches", Some(user), 2) == Show(DashboardPage)
  {
  }

  /** The component `Dashboard` picks. */
  datatype DashboardView = EmployeeDashboard | ManagerDashboard | AdminDashboard | InvalidRole

  /** `switch (user?.role)` on the dashboard page. */
  function DashboardFor(user: Option<Record>): (d: DashboardView)
    ensures d == EmployeeDashboard <==> GetOpt(user, "role") == Str("employee")
    ensures d == ManagerDashboard <==> GetOpt(user, "role") == Str("manager")
    ensures d == AdminDashboard <==> GetOpt(user, "role") == Str("admin")
    ensures d == InvalidRole <==> GetOpt(user, "role") !in [Str("employee"), Str("manager"), Str("admin")]
  {
    match GetOpt(user, "role")
    case Str("employee") => EmployeeDashboard
    case Str("manager") => ManagerDashboard
    case Str("admin") => AdminDashboard
    case _ => InvalidRole
  }
}

=== FILE: seqs.dfy ===
/** The array operations the reducers and statistics are built from:
    `filter`, `findIndex`, replacing the element `findIndex` found, and the
    `reduce` that counts occurrences per key into an object. */
module Seqs {
  import opened Js

  /** `s.filter(p)`: the elements satisfying `p`, in their original order. */
  function Filter<T>(s: seq<T>, p: T -> bool): (r: seq<T>)
    ensures |r| <= |s|
    ensures forall i | 0 <= i < |r| :: p(r[i])
    ensures forall i | 0 <= i < |r| :: r[i] in s
    ensures forall i | 0 <= i < |s| && p(s[i]) :: s[i] in r
    decreases |s|
  {
    if |s| == 0 then []
    else (if p(s[0]) then [s[0]] else []) + Filter(s[1..], p)
  }

  /** Filtering distributes over concatenation, so the survivors keep their
      relative order. */
  lemma {:induction false} FilterConcat<T>(a: seq<T>, b: seq<T>, p: T -> bool)
    ensures Filter(a + b, p) == Filter(a, p) + Filter(b, p)
    decreases |a|
  {
    if |a| == 0 {
      assert a + b == b;
    } else {
      assert (a + b)[1..] == a[1..] + b;
      FilterConcat(a[1..], b, p);
    }
  }

  /** A filter that every element passes returns the whole sequence. */
  lemma {:induction false} FilterKeepsAll<T>(s: seq<T>, p: T -> bool)
    requires forall i | 0 <= i < |s| :: p(s[i])
    ensures Filter(s, p) == s
    decreases |s|
  {
    if |s| > 0 {
      FilterKeepsAll(s[1..], p);
    }
  }

  /** A filter that no element passes returns nothing. */
  lemma {:induction false} FilterDropsAll<T>(s: seq<T>, p: T -> bool)
    requires forall i | 0 <= i < |s| :: !p(s[i])
    ensures Filter(s, p) == []
    decreases |s|
  {
    if |s| > 0 {
      FilterDropsAll(s[1..], p);
    }
  }

  /** The number of elements satisfying `p`. */
  function Count<T>(s: seq<T>, p: T -> bool): (n: nat)
    decreases |s|
  {
    if |s| == 0 then 0 else (if p(s[0]) then 1 else 0) + Count(s[1..], p)
  }

  /** `s.filter(p).length` is the number of elements satisfying `p`. */
  lemma {:induction false} FilterLength<T>(s: seq<T>, p: T -> bool)
    ensures |Filter(s, p)| == Count(s, p)
    decreases |s|
  {
    if |s| > 0 {
      FilterLength(s[1..], p);
    }
  }

  /** `s.findIndex(p)`, with `-1` read as `None`: the first index satisfying `p`. */
  function FindIndex<T>(s: seq<T>, p: T -> bool): (r: Option<nat>)
    ensures r.Some? ==> r.value < |s| && p(s[r.value])
    ensures r.Some? ==> forall j | 0 <= j < r.value :: !p(s[j])
    ensures r.None? ==> forall j | 0 <= j < |s| :: !p(s[j])
    decreases |s|
  {
    if |s| == 0 then None
    else if p(s[0]) then Some(0)
    else match FindIndex(s[1..], p)
      case None => None
      case Some(k) => Some(k + 1)
  }

  /** `const i = s.findIndex(p); if (i !== -1) s[i] = x;` */
  function ReplaceFirst<T>(s: seq<T>, p: T -> bool, x: T): (r: seq<T>)
    ensures |r| == |s|
    ensures FindIndex(s, p).None? ==> r == s
    ensures FindIndex(s, p).Some? ==>
      var k := FindIndex(s, p).value;
      r[k] == x && forall j | 0 <= j < |s| && j != k :: r[j] == s[j]
  {
    match FindIndex(s, p)
    case None => s
    case Some(k) => s[k := x]
  }

  /** One entry of `Object.entries` of a per-key counter. */
  datatype Tally = Tally(key: string, count: nat)

  /** How many times `k` occurs in `keys`. */
  function Occurrences(keys: seq<string>, k: string): nat
    decreases |keys|
  {
    if |keys| == 0 then 0
    else Occurrences(keys[..|keys| - 1], k) + (if keys[|keys| - 1] == k then 1 else 0)
  }

  function KeysOf(tallies: seq<Tally>): (ks: seq<string>)
    ensures |ks| == |tallies|
    ensures forall i | 0 <= i < |tallies| :: ks[i] == tallies[i].key
  {
    seq(|tallies|, i requires 0 <= i < |tallies| => tallies[i].key)
  }

  function Total(tallies: seq<Tally>): nat
    decreases |tallies|
  {
    if |tallies| == 0 then 0 else tallies[0].count + Total(tallies[1..])
  }

  predicate DistinctKeys(tallies: seq<Tally>) {
    forall i, j | 0 <= i < j < |tallies| :: tallies[i].key != tallies[j].key
  }

  lemma {:induction false} TotalAppend(tallies: seq<Tally>, t: Tally)
    ensures Total(tallies + [t]) == Total(tallies) + t.count
    decreases |tallies|
  {
    if |tallies| > 0 {
      assert (tallies + [t])[1..] == tallies[1..] + [t];
      TotalAppend(tallies[1..], t);
    }
  }

  lemma {:induction false} TotalBump(tallies: seq<Tally>, i: nat)
    requires i < |tallies|
    ensures Total(tallies[i := Tally(tallies[i].key, tallies[i].count + 1)]) == Total(tallies) + 1
    decreases |tallies|
  {
    var bumped := tallies[i := Tally(tallies[i].key, tallies[i].count + 1)];
    if i > 0 {
      assert bumped[1..] == tallies[1..][i - 1 := Tally(tallies[i].key, tallies[i].count + 1)];
      TotalBump(tallies[1..], i - 1);
    }
  }

  /** `acc[k] = (acc[k] || 0) + 1` on a counter kept in insertion order. */
  function Bump(acc: seq<Tally>, k: string): (r: seq<Tally>)
  {
    match FindIndex(acc, (t: Tally) => t.key == k)
    case Some(i) => acc[i := Tally(k, acc[i].count + 1)]
    case None => acc + [Tally(k, 1)]
  }

  /** `keys.reduce((acc, k) => { acc[k] = (acc[k] || 0) + 1; return acc; }, {})`
      followed by `Object.entries`: one entry per distinct key, counting its
      occurrences, the counts adding up to the number of keys. */
  function CountBy(keys: seq<string>): (r: seq<Tally>)
    ensures DistinctKeys(r)
    ensures forall i | 0 <= i < |r| :: r[i].count == Occurrences(keys, r[i].key)
    ensures forall i | 0 <= i < |r| :: r[i].count >= 1
    ensures forall k :: k in keys <==> k in KeysOf(r)
    ensures Total(r) == |keys|
    decreases |keys|
  {
    if |keys| == 0 then []
    else
      var prefix := keys[..|keys| - 1];
      var k := keys[|keys| - 1];
      var acc := CountBy(prefix);
      assert keys == prefix + [k];
      var r := Bump(acc, k);
      match FindIndex(acc, (t: Tally) => t.key == k)
      case Some(i) =>
        TotalBump(acc, i);
        assert KeysOf(r) == KeysOf(acc);
        r
      case None =>
        TotalAppend(acc, Tally(k, 1));
        assert k !in prefix;
        assert Occurrences(prefix, k) == 0 by {
          OccurrencesAbsent(prefix, k);
        }
        assert KeysOf(r) == KeysOf(acc) + [k];
        r
  }

  lemma {:induction false} OccurrencesAbsent(keys: seq<string>, k: string)
    requires k !in keys
    ensures Occurrences(keys, k) == 0
    decreases |keys|
  {
    if |keys| > 0 {
      OccurrencesAbsent(keys[..|keys| - 1], k);
    }
  }

  /** A key's count is zero exactly when it does not occur. */
  lemma {:induction false} OccurrencesPositive(keys: seq<string>, k: string)
    ensures Occurrences(keys, k) > 0 <==> k in keys
    decreases |keys|
  {
    if |keys| > 0 {
      var prefix := keys[..|keys| - 1];
      assert keys == prefix + [keys[|keys| - 1]];
      OccurrencesPositive(prefix, k);
    }
  }
}

=== FILE: storage.dfy ===
/** The image helpers of `src/lib/utils.js`: validating and placing an upload in
    the `cnic-images` bucket, recovering the object path from a signed URL, and
    the decisions `getSignedUrl` and `deleteImage` take before calling the
    storage service. The storage service itself is an input. */
module Storage {
  import opened Js
  import opened Text

  const Bucket := "cnic-images"
  /** What precedes the object path in every URL the storage service signs. */
  const PathMarker := "cnic-images/"
  /** Seven days, the lifetime asked for every signed URL. */
  const SignedUrlSeconds: nat := 60 * 60 * 24 * 7
  /** Five MiB, the largest accepted image. */
  const MaxImageBytes: nat := 5 * 1024 * 1024

  const InvalidUrlMessage := "Invalid URL format"
  const NotImageMessage := "Please select an image file"
  const TooLargeMessage := "Image must be less than 5MB"
  /** The TypeError raised when a URL field holds a non-string value. */
  const NotAStringMessage := "url.split is not a function"

  /** A file chosen in the browser: its name, MIME type and size in bytes. */
  datatype File = File(name: string, mime: string, size: nat)

  /** The request for a signed URL that the storage service receives. */
  datatype SignRequest = SignRequest(path: string, expiresIn: nat)

  lemma PathMarkerBorderFree()
    ensures BorderFree(PathMarker)
  {
    forall d | 0 < d < |PathMarker|
      ensures PathMarker[d..] != PathMarker[..|PathMarker| - d]
    {
      if d == 3 {
        assert PathMarker[d..][1] != PathMarker[..|PathMarker| - d][1];
      } else {
        assert PathMarker[d..][0] != PathMarker[..|PathMarker| - d][0];
      }
    }
  }

  /** `url.split("cnic-images/")[1]?.split("?")[0]`: the text after the first
      `cnic-images/`, up to the next `cnic-images/` and then up to the first `?`. */
  function PathOf(url: string): (p: Option<string>)
    ensures p.None? <==> !Contains(url, PathMarker)
    ensures p.Some? ==> '?' !in p.value && !Contains(p.value, PathMarker)
  {
    var parts := Split(url, PathMarker);
    if |parts| < 2 then None
    else
      var path := Split(parts[1], "?")[0];
      assert '?' !in path by {
        ContainsChar(path, '?');
      }
      assert !Contains(path, PathMarker) by {
        SplitHead(parts[1], "?");
        assert path == parts[1][..|path|];
        PrefixFree(parts[1], |path|);
      }
      Some(path)
  }

  /** A prefix of a text free of the marker is free of it. */
  lemma PrefixFree(s: string, n: nat)
    requires n <= |s|
    requires !Contains(s, PathMarker)
    ensures !Contains(s[..n], PathMarker)
  {
    if Contains(s[..n], PathMarker) {
      OccursInPrefix(s, n, PathMarker, IndexOf(s[..n], PathMarker).value);
    }
  }

  /** The object path recovered from a URL the storage service signed for it:
      whatever comes before `cnic-images/` and whatever query follows the `?`,
      the path comes back unchanged. */
  lemma {:induction false} PathOfSignedUrl(base: string, path: string, query: string)
    requires !Contains(base, PathMarker)
    requires !Contains(path, PathMarker)
    requires '?' !in path
    ensures PathOf(base + PathMarker + path + "?" + query) == Some(path)
  {
    PathMarkerBorderFree();
    var rest := path + "?" + query;
    assert base + PathMarker + path + "?" + query == base + PathMarker + rest;
    SplitAfterClean(base, PathMarker, rest);
    var piece := Split(rest, PathMarker)[0];
    assert StartsWith(piece, path + "?") by {
      FirstPieceKeepsPath(path, query);
    }
    assert piece == path + "?" + piece[|path| + 1..];
    SingleCharBorderFree('?');
    ContainsChar(path, '?');
    SplitFirstPiece(path, "?", piece[|path| + 1..]);
  }

  /** The marker cannot start inside `path` nor on the `?` after it. */
  lemma FirstPieceKeepsPath(path: string, query: string)
    requires !Contains(path, PathMarker)
    requires '?' !in path
    ensures StartsWith(Split(path + "?" + query, PathMarker)[0], path + "?")
  {
    var rest := path + "?" + query;
    SplitHead(rest, PathMarker);
    match IndexOf(rest, PathMarker)
    case None =>
      assert rest[..|path| + 1] == path + "?";
    case Some(i) =>
      if i <= |path| {
        NoMarkerUpToQuery(path, query, i);
      }
      assert i > |path|;
      assert rest[..i][..|path| + 1] == path + "?";
  }

  lemma NoMarkerUpToQuery(path: string, query: string, j: nat)
    requires !Contains(path, PathMarker)
    requires '?' !in path
    requires j <= |path|
    ensures !OccursAt(path + "?" + query, PathMarker, j)
  {
    var rest := path + "?" + query;
    if j + |PathMarker| <= |path| {
      assert !OccursAt(path, PathMarker, j);
      assert rest[j..j + |PathMarker|] == path[j..j + |PathMarker|];
    } else if j + |PathMarker| <= |rest| {
      assert rest[j..j + |PathMarker|][|path| - j] == '?';
      assert '?' !in PathMarker;
    }
  }

  /** The request `getSignedUrl(url)` sends to the storage service, if it gets
      that far: only for a non-empty path, and always for seven days. */
  function SignRequestFor(url: string): (r: Option<SignRequest>)
    ensures r.Some? ==> r.value.expiresIn == SignedUrlSeconds
    ensures r.Some? <==> PathOf(url).Some? && PathOf(url).value != ""
    ensures r.Some? ==> r.value.path == PathOf(url).value
  {
    match PathOf(url)
    case Some(p) => if p == "" then None else Some(SignRequest(p, SignedUrlSeconds))
    case None => None
  }

  /** `getSignedUrl(url)`, where `sign` is the storage service's answer to a request. */
  function GetSignedUrl(url: Value, sign: SignRequest -> Remote<string>): (r: Remote<Value>)
    ensures !Truthy(url) ==> r == Done(Null)
    ensures url.Str? && url.s != "" && SignRequestFor(url.s).None? ==> r == Failed(InvalidUrlMessage)
    ensures url.Str? && SignRequestFor(url.s).Some? ==>
      var answer := sign(SignRequestFor(url.s).value);
      (answer.Done? ==> r == Done(Str(answer.value))) && (answer.Failed? ==> r == Failed(answer.message))
    ensures Truthy(url) && !url.Str? ==> r.Failed?
  {
    if !Truthy(url) then Done(Null)
    else if !url.Str? then Failed(NotAStringMessage)
    else match SignRequestFor(url.s)
      case None => Failed(InvalidUrlMessage)
      case Some(req) =>
        match sign(req)
        case Done(signed) => Done(Str(signed))
        case Failed(m) => Failed(m)
  }

  /** What `deleteImage(url)` does before the removal call. */
  datatype Removal = NoRemoval | RemovePath(path: string) | RemovalError(message: string)

  function RemovalFor(url: Value): (r: Removal)
    ensures !Truthy(url) ==> r == NoRemoval
    ensures url.Str? && url.s != "" ==>
      (r.RemovePath? <==> PathOf(url.s).Some? && PathOf(url.s).value != "")
    ensures r.RemovePath? ==> url.Str? && Some(r.path) == PathOf(url.s)
    ensures Truthy(url) && !url.Str? ==> r == RemovalError(NotAStringMessage)
    ensures r.RemovalError? ==> Truthy(url) && !url.Str?
  {
    if !Truthy(url) then NoRemoval
    else if !url.Str? then RemovalError(NotAStringMessage)
    else match PathOf(url.s)
      case Some(p) => if p == "" then NoRemoval else RemovePath(p)
      case None => NoRemoval
  }

  /** `deleteImage(url)` given the storage service's answer to the removal. */
  function DeleteImage(url: Value, removal: Remote<()>): (r: Remote<()>)
    ensures RemovalFor(url).NoRemoval? ==> r == Done(())
    ensures RemovalFor(url).RemovePath? ==> r == removal
    ensures RemovalFor(url).RemovalError? ==> r == Failed(RemovalFor(url).message)
  {
    match RemovalFor(url)
    case NoRemoval => Done(())
    case RemovePath(_) => removal
    case RemovalError(m) => Failed(m)
  }

  /** A URL whose path cannot be recovered makes `getSignedUrl` fail but
      `deleteImage` quietly do nothing. */
  lemma UnreadableUrlContrast(url: string, sign: SignRequest -> Remote<string>, removal: Remote<()>)
    requires url != ""
    requires PathOf(url).None? || PathOf(url) == Some("")
    ensures GetSignedUrl(Str(url), sign) == Failed(InvalidUrlMessage)
    ensures DeleteImage(Str(url), removal) == Done(())
  {
  }

  /** `${userId}/${type}-${Date.now()}.${ext}` with the timestamp as text. */
  function StoragePath(userId: string, kind: string, stamp: string, ext: string): string {
    userId + "/" + kind + "-" + stamp + "." + ext
  }

  /** The extension `file.name.split(".").pop()`: the text after the last dot,
      or the whole name when there is none. */
  function Extension(name: string): (ext: string)
    ensures '.' !in ext
    ensures '.' !in name ==> ext == name
  {
    var ext := LastPiece(name, ".");
    assert '.' !in ext by {
      ContainsChar(ext, '.');
    }
    assert '.' !in name ==> ext == name by {
      ContainsChar(name, '.');
      SplitHead(name, ".");
    }
    ext
  }

  lemma ExtensionOf(base: string, ext: string)
    requires '.' !in ext
    ensures Extension(base + "." + ext) == ext
  {
    LastPieceOfSuffix(base, '.', ext);
  }

  /** The first checks of `uploadImage`, shared with the file picker: no file,
      a type that is not an image, or a size over 5 MiB. */
  datatype ImageCheck = NoImage | NotImage | TooLarge | Acceptable

  function CheckImage(file: Option<File>): (c: ImageCheck)
    ensures c == Acceptable <==>
      file.Some? && StartsWith(file.value.mime, "image/") && file.value.size <= MaxImageBytes
    ensures c == NotImage <==> file.Some? && !StartsWith(file.value.mime, "image/")
    ensures c == TooLarge ==> file.Some? && file.value.size > MaxImageBytes
  {
    match file
    case None => NoImage
    case Some(f) =>
      if !StartsWith(f.mime, "image/") then NotImage
      else if f.size > MaxImageBytes then TooLarge
      else Acceptable
  }

  /** What `uploadImage` asks of the storage service. */
  datatype UploadPlan =
    | NoUpload
    | RejectUpload(message: string)
    | Upload(path: string, contentType: string, expiresIn: nat)

  function PlanUpload(file: Option<File>, userId: string, kind: string, stamp: string): (p: UploadPlan)
    ensures p == NoUpload <==> file.None?
    ensures p.RejectUpload? <==> CheckImage(file) in {NotImage, TooLarge}
    ensures p.RejectUpload? && !StartsWith(file.value.mime, "image/") ==> p.message == NotImageMessage
    ensures p.RejectUpload? && StartsWith(file.value.mime, "image/") ==> p.message == TooLargeMessage
    ensures p.Upload? ==>
      && p.path == StoragePath(userId, kind, stamp, Extension(file.value.name))
      && p.contentType == file.value.mime
      && p.expiresIn == SignedUrlSeconds
  {
    match CheckImage(file)
    case NoImage => NoUpload
    case NotImage => RejectUpload(NotImageMessage)
    case TooLarge => RejectUpload(TooLargeMessage)
    case Acceptable =>
      Upload(StoragePath(userId, kind, stamp, Extension(file.value.name)), file.value.mime, SignedUrlSeconds)
  }

  /** `uploadImage(file, userId, type)` given the storage service's answers to
      the upload and to the signing request: `null` without a file, the signed
      URL on success, the first error otherwise. */
  function UploadImage(file: Option<File>, userId: string, kind: string, stamp: string,
                       upload: Remote<()>, signed: Remote<string>): (r: Remote<Option<string>>)
    ensures file.None? ==> r == Done(None)
    ensures PlanUpload(file, userId, kind, stamp).RejectUpload? ==>
      r == Failed(PlanUpload(file, userId, kind, stamp).message)
    ensures r.Done? && r.value.Some? ==> upload.Done? && signed.Done? && r.value.value == signed.value
    ensures PlanUpload(file, userId, kind, stamp).Upload? && upload.Done? && signed.Done? ==>
      r == Done(Some(signed.value))
    ensures PlanUpload(file, userId, kind, stamp).Upload? && upload.Failed? ==> r == Failed(upload.message)
    ensures PlanUpload(file, userId, kind, stamp).Upload? && upload.Done? && signed.Failed? ==>
      r == Failed(signed.message)
  {
    match PlanUpload(file, userId, kind, stamp)
    case NoUpload => Done(None)
    case RejectUpload(m) => Failed(m)
    case Upload(_, _, _) =>
      if upload.Failed? then Failed(upload.message)
      else if signed.Failed? then Failed(signed.message)
      else Done(Some(signed.value))
  }

  /** Exactly 5 MiB is still accepted; one byte more is not. */
  lemma SizeLimitBoundary(name: string, mime: string)
    requires StartsWith(mime, "image/")
    ensures CheckImage(Some(File(name, mime, MaxImageBytes))) == Acceptable
    ensures CheckImage(Some(File(name, mime, MaxImageBytes + 1))) == TooLarge
  {
  }

  /** An uploaded image's URL leads back to the path it was stored under. */
  lemma UploadedPathRecovered(file: File, userId: string, kind: string, stamp: string,
                              base: string, query: string)
    requires PlanUpload(Some(file), userId, kind, stamp).Upload?
    requires !Contains(base, PathMarker)
    requires !Contains(PlanUpload(Some(file), userId, kind, stamp).path, PathMarker)
    requires '?' !in PlanUpload(Some(file), userId, kind, stamp).path
    ensures var path := PlanUpload(Some(file), userId, kind, stamp).path;
      PathOf(base + PathMarker + path + "?" + query) == Some(path)
      && SignRequestFor(base + PathMarker + path + "?" + query) == Some(SignRequest(path, SignedUrlSeconds))
  {
    var path := PlanUpload(Some(file), userId, kind, stamp).path;
    PathOfSignedUrl(base, path, query);
  }
}

=== FILE: text.dfy ===
/** The string operations the client relies on: `includes`, `startsWith`,
    `endsWith`, `split` with a non-empty separator, and the whitespace-run
    replacement `replace(/\s+/g, "_")`. */
module Text {
  import opened Js

  /** `sub` occurs in `s` starting at index `i`. */
  predicate OccursAt(s: string, sub: string, i: int) {
    0 <= i && i + |sub| <= |s| && s[i..i + |sub|] == sub
  }

  /** `s.indexOf(sub)`: the first index at which `sub` occurs, if any. */
  function IndexOf(s: string, sub: string): (r: Option<nat>)
    ensures r.Some? ==> OccursAt(s, sub, r.value)
    ensures r.Some? ==> forall j | 0 <= j < r.value :: !OccursAt(s, sub, j)
    ensures r.None? ==> forall j :: !OccursAt(s, sub, j)
    decreases |s|
  {
    if |s| < |sub| then None
    else if s[..|sub|] == sub then Some(0)
    else
      match IndexOf(s[1..], sub)
      case None =>
        assert forall j | 1 <= j :: OccursAt(s, sub, j) ==> OccursAt(s[1..], sub, j - 1);
        None
      case Some(k) =>
        assert forall j | 1 <= j :: OccursAt(s, sub, j) ==> OccursAt(s[1..], sub, j - 1);
        assert OccursAt(s, sub, k + 1) by {
          assert s[k + 1..k + 1 + |sub|] == s[1..][k..k + |sub|];
        }
        Some(k + 1)
  }

  /** `s.includes(sub)`. */
  predicate Contains(s: string, sub: string) {
    IndexOf(s, sub).Some?
  }

  /** `Contains` holds exactly when `sub` occurs somewhere in `s`. */
  lemma ContainsIffOccurs(s: string, sub: string)
    ensures Contains(s, sub) <==> exists i :: OccursAt(s, sub, i)
  {
    if exists i :: OccursAt(s, sub, i) {
      var i :| OccursAt(s, sub, i);
      assert IndexOf(s, sub).Some?;
    }
  }

  /** `s.startsWith(prefix)`. */
  predicate StartsWith(s: string, prefix: string) {
    |prefix| <= |s| && s[..|prefix|] == prefix
  }

  /** `s.endsWith(suffix)`. */
  predicate EndsWith(s: string, suffix: string) {
    |suffix| <= |s| && s[|s| - |suffix|..] == suffix
  }

  lemma StartsWithAppend(prefix: string, rest: string)
    ensures StartsWith(prefix + rest, prefix)
  {
    assert (prefix + rest)[..|prefix|] == prefix;
  }

  lemma EndsWithAppend(rest: string, suffix: string)
    ensures EndsWith(rest + suffix, suffix)
  {
    assert (rest + suffix)[|rest|..] == suffix;
  }

  /** No proper suffix of `sep` is also a prefix of it, so two occurrences of
      `sep` can never overlap. */
  predicate BorderFree(sep: string) {
    forall d | 0 < d < |sep| :: sep[d..] != sep[..|sep| - d]
  }

  /** An occurrence inside a prefix of `s` is an occurrence in `s`. */
  lemma OccursInPrefix(s: string, n: nat, sub: string, j: int)
    requires n <= |s|
    requires OccursAt(s[..n], sub, j)
    ensures OccursAt(s, sub, j)
  {
    assert s[..n][j..j + |sub|] == s[j..j + |sub|];
  }

  /** In `a + sep + b`, where `a` does not contain `sep` and `sep` cannot overlap
      itself, the first occurrence of `sep` is the one right after `a`. */
  lemma {:induction false} IndexOfAfterClean(a: string, sep: string, b: string)
    requires |sep| > 0
    requires BorderFree(sep)
    requires !Contains(a, sep)
    ensures IndexOf(a + sep + b, sep) == Some(|a|)
  {
    var s := a + sep + b;
    assert s[|a|..|a| + |sep|] == sep;
    assert OccursAt(s, sep, |a|);
    forall j | 0 <= j < |a|
      ensures !OccursAt(s, sep, j)
    {
      if j + |sep| <= |a| {
        assert s[j..j + |sep|] == a[j..j + |sep|];
        assert !OccursAt(a, sep, j);
      } else {
        var d := |a| - j;
        assert s[|a|..j + |sep|] == sep[..|sep| - d];
        assert s[j..j + |sep|][d..] == s[|a|..j + |sep|];
      }
    }
    var r := IndexOf(s, sep);
    assert r.Some?;
    assert r.value == |a|;
  }

  /** A one-character separator can never overlap itself. */
  lemma SingleCharBorderFree(c: char)
    ensures BorderFree([c])
  {
  }

  /** A one-character separator occurs exactly where that character is. */
  lemma ContainsChar(s: string, c: char)
    ensures Contains(s, [c]) <==> c in s
  {
    if Contains(s, [c]) {
      var i := IndexOf(s, [c]).value;
      assert s[i] == s[i..i + 1][0];
    }
    if c in s {
      var i :| 0 <= i < |s| && s[i] == c;
      assert OccursAt(s, [c], i);
    }
  }

  /** The inverse of `Split`: the pieces glued back together with `sep`. */
  function Join(parts: seq<string>, sep: string): string
    decreases |parts|
  {
    if |parts| == 0 then ""
    else if |parts| == 1 then parts[0]
    else parts[0] + sep + Join(parts[1..], sep)
  }

  /** `s.split(sep)` for a non-empty separator: the pieces between successive
      non-overlapping occurrences of `sep`, scanning left to right. */
  function Split(s: string, sep: string): (parts: seq<string>)
    requires |sep| > 0
    ensures |parts| >= 1
    ensures Join(parts, sep) == s
    ensures forall i | 0 <= i < |parts| :: !Contains(parts[i], sep)
    decreases |s|
  {
    match IndexOf(s, sep)
    case None => [s]
    case Some(i) =>
      var head := s[..i];
      var rest := Split(s[i + |sep|..], sep);
      assert !Contains(head, sep) by {
        forall j | 0 <= j && j + |sep| <= i
          ensures !OccursAt(head, sep, j)
        {
          assert !OccursAt(s, sep, j);
          assert head[j..j + |sep|] == s[j..j + |sep|];
        }
      }
      assert s == head + sep + s[i + |sep|..];
      [head] + rest
  }

  /** The first piece of `s.split(sep)` is the text before the first occurrence. */
  lemma SplitHead(s: string, sep: string)
    requires |sep| > 0
    ensures IndexOf(s, sep).None? ==> Split(s, sep) == [s]
    ensures IndexOf(s, sep).Some? ==> Split(s, sep)[0] == s[..IndexOf(s, sep).value]
  {
  }

  /** Splitting `a + sep + b` where `a` is free of `sep` peels `a` off first. */
  lemma SplitAfterClean(a: string, sep: string, b: string)
    requires |sep| > 0
    requires BorderFree(sep)
    requires !Contains(a, sep)
    ensures Split(a + sep + b, sep) == [a] + Split(b, sep)
  {
    IndexOfAfterClean(a, sep, b);
    var s := a + sep + b;
    assert s[..|a|] == a;
    assert s[|a| + |sep|..] == b;
  }

  /** `s.split(sep)[0]` is `a` whenever `s` is `a + sep + b` with `a` free of `sep`. */
  lemma SplitFirstPiece(a: string, sep: string, b: string)
    requires |sep| > 0
    requires BorderFree(sep)
    requires !Contains(a, sep)
    ensures Split(a + sep + b, sep)[0] == a
  {
    SplitAfterClean(a, sep, b);
  }

  /** The piece after the last separator, `s.split(sep).pop()`. */
  function LastPiece(s: string, sep: string): (r: string)
    requires |sep| > 0
    ensures !Contains(r, sep)
  {
    var parts := Split(s, sep);
    parts[|parts| - 1]
  }

  /** The last piece of `a + [c] + b` is the last piece of `b`. */
  lemma {:induction false} LastPieceAfter(a: string, c: char, b: string)
    ensures LastPiece(a + [c] + b, [c]) == LastPiece(b, [c])
    decreases |a|
  {
    var s := a + [c] + b;
    assert s[|a|..|a| + 1] == [c];
    assert OccursAt(s, [c], |a|);
    var i := IndexOf(s, [c]).value;
    assert Split(s, [c]) == [s[..i]] + Split(s[i + 1..], [c]);
    if i == |a| {
      assert s[i + 1..] == b;
    } else {
      assert s[i + 1..] == a[i + 1..] + [c] + b;
      LastPieceAfter(a[i + 1..], c, b);
    }
  }

  /** `name.split(".").pop()` of `base + "." + ext`, for `ext` without a dot, is `ext`. */
  lemma LastPieceOfSuffix(base: string, c: char, ext: string)
    requires c !in ext
    ensures LastPiece(base + [c] + ext, [c]) == ext
  {
    LastPieceAfter(base, c, ext);
    ContainsChar(ext, c);
  }

  /** `\s` in a JavaScript regular expression. */
  predicate IsSpace(c: char) {
    || c == '\t' || c == '\n' || c == '\U{000B}' || c == '\U{000C}' || c == '\r' || c == ' '
    || c == '\U{00A0}' || c == '\U{1680}' || ('\U{2000}' <= c <= '\U{200A}')
    || c == '\U{2028}' || c == '\U{2029}' || c == '\U{202F}' || c == '\U{205F}'
    || c == '\U{3000}' || c == '\U{FEFF}'
  }

  /** `s` with its leading run of whitespace removed. */
  function DropSpaces(s: string): (r: string)
    ensures |r| <= |s|
    ensures r == s[|s| - |r|..]
    ensures |r| > 0 ==> !IsSpace(r[0])
    ensures forall i | 0 <= i < |s| - |r| :: IsSpace(s[i])
  {
    if |s| > 0 && IsSpace(s[0]) then DropSpaces(s[1..]) else s
  }

  /** `s.replace(/\s+/g, "_")`: every maximal run of whitespace becomes one `_`. */
  function UnderscoreSpaces(s: string): (r: string)
    ensures forall i | 0 <= i < |r| :: !IsSpace(r[i])
    ensures |r| <= |s|
    decreases |s|
  {
    if |s| == 0 then ""
    else if IsSpace(s[0]) then "_" + UnderscoreSpaces(DropSpaces(s[1..]))
    else [s[0]] + UnderscoreSpaces(s[1..])
  }

  /** Text without whitespace passes through the replacement unchanged. */
  lemma {:induction false} UnderscoreSpacesNoSpace(s: string)
    requires forall i | 0 <= i < |s| :: !IsSpace(s[i])
    ensures UnderscoreSpaces(s) == s
    decreases |s|
  {
    if |s| > 0 {
      UnderscoreSpacesNoSpace(s[1..]);
    }
  }

  /** A whole run of whitespace is dropped up to the first character after it. */
  lemma {:induction false} DropSpacesRun(ws: string, rest: string)
    requires forall i | 0 <= i < |ws| :: IsSpace(ws[i])
    requires |rest| > 0 ==> !IsSpace(rest[0])
    ensures DropSpaces(ws + rest) == rest
    decreases |ws|
  {
    if |ws| > 0 {
      assert (ws + rest)[1..] == ws[1..] + rest;
      DropSpacesRun(ws[1..], rest);
    } else {
      assert ws + rest == rest;
    }
  }

  /** What the replacement means: text without whitespace is kept in order,
      and a maximal run of whitespace after it, however long, becomes a
      single `_` before the rest is replaced in turn. */
  lemma {:induction false} UnderscoreSpacesRun(w: string, ws: string, rest: string)
    requires forall i | 0 <= i < |w| :: !IsSpace(w[i])
    requires |ws| > 0 && forall i | 0 <= i < |ws| :: IsSpace(ws[i])
    requires |rest| > 0 ==> !IsSpace(rest[0])
    ensures UnderscoreSpaces(w + ws + rest) == w + "_" + UnderscoreSpaces(rest)
    decreases |w|
  {
    if |w| == 0 {
      assert w + ws + rest == ws + rest;
      assert (ws + rest)[1..] == ws[1..] + rest;
      DropSpacesRun(ws[1..], rest);
    } else {
      assert (w + ws + rest)[1..] == w[1..] + ws + rest;
      UnderscoreSpacesRun(w[1..], ws, rest);
      assert w + "_" + UnderscoreSpaces(rest) == [w[0]] + (w[1..] + "_" + UnderscoreSpaces(rest));
    }
  }

  /** Replacing whitespace runs twice is the same as replacing them once. */
  lemma UnderscoreSpacesIdempotent(s: string)
    ensures UnderscoreSpaces(UnderscoreSpaces(s)) == UnderscoreSpaces(s)
  {
    UnderscoreSpacesNoSpace(UnderscoreSpaces(s));
  }

  /** JavaScript `s.length`: characters outside the Basic Multilingual Plane
      count as two UTF-16 code units. */
  function Utf16Length(s: string): (n: nat)
    ensures |s| <= n <= 2 * |s|
    ensures (forall i | 0 <= i < |s| :: s[i] as int <= 0xFFFF) ==> n == |s|
  {
    if |s| == 0 then 0
    else (if s[0] as int > 0xFFFF then 2 else 1) + Utf16Length(s[1..])
  }
}

=== FILE: use_auth.dfy ===
/** The `useAuth` hook as an event machine: the initial session check, the
    employee lookup behind it, and the reaction to auth state changes. Each
    run yields the auth actions it dispatches and the hook's `loading` flag. */
module UseAuth {
  import opened Js
  import AuthSlice

  /** The hook's own state: whether its effect is still mounted, and its
      `loading` flag, which starts out true. */
  datatype Hook = Hook(mounted: bool, loading: bool)

  const Mounted := Hook(true, true)

  /** `fetchUserData(session)`, given what the employee lookup returned (`None`
      for an empty result without an error). */
  function FetchUserData(session: AuthSlice.Session, lookup: Remote<Option<Record>>, mounted: bool)
    : (dispatched: seq<AuthSlice.Action>)
    ensures !mounted ==> dispatched == []
    ensures mounted && lookup.Failed? ==> dispatched == [AuthSlice.ClearUser]
    ensures lookup == Done(None) ==> dispatched == []
    ensures mounted && lookup.Done? && lookup.value.Some? ==>
      dispatched == [AuthSlice.SetUser(AuthSlice.SignedInUser(session.user, lookup.value.value, session.accessToken))]
    ensures |dispatched| <= 1
  {
    if !mounted then []
    else match lookup
      case Failed(_) => [AuthSlice.ClearUser]
      case Done(None) => []
      case Done(Some(row)) => [AuthSlice.SetUser(AuthSlice.SignedInUser(session.user, row, session.accessToken))]
  }

  /** What one run of `initializeAuth` dispatches and leaves the hook as. A
      failed session check is not caught, but the `finally` still runs. */
  datatype Init = Init(dispatched: seq<AuthSlice.Action>, hook: Hook)

  function InitializeAuth(h: Hook, session: Remote<Option<AuthSlice.Session>>,
                          lookup: Remote<Option<Record>>): (r: Init)
    ensures h.mounted ==> !r.hook.loading
    ensures !h.mounted ==> r.hook == h && r.dispatched == []
    ensures r.hook.mounted == h.mounted
    ensures session.Failed? || session == Done(None) ==> r.dispatched == []
    ensures session.Done? && session.value.Some? ==> r.dispatched == FetchUserData(session.value.value, lookup, h.mounted)
  {
    var dispatched := match session
      case Done(Some(s)) => FetchUserData(s, lookup, h.mounted)
      case _ => [];
    Init(dispatched, if h.mounted then h.(loading := false) else h)
  }

  /** `onAuthStateChange((event, session) => …)` */
  function OnAuthStateChange(event: string, session: Option<AuthSlice.Session>,
                             lookup: Remote<Option<Record>>, mounted: bool): (dispatched: seq<AuthSlice.Action>)
    ensures event == "SIGNED_IN" && session.Some? ==> dispatched == FetchUserData(session.value, lookup, mounted)
    ensures event == "SIGNED_OUT" ==> dispatched == [AuthSlice.ClearUser]
    ensures event != "SIGNED_IN" && event != "SIGNED_OUT" ==> dispatched == []
    ensures event == "SIGNED_IN" && session.None? ==> dispatched == []
  {
    if event == "SIGNED_IN" && session.Some? then FetchUserData(session.value, lookup, mounted)
    else if event == "SIGNED_OUT" then [AuthSlice.ClearUser]
    else []
  }

  /** Tearing the effect down: later lookups dispatch nothing. */
  function Teardown(h: Hook): (t: Hook)
    ensures !t.mounted && t.loading == h.loading
  {
    h.(mounted := false)
  }

  /** The auth state after the dispatched actions. */
  function ReduceAll(s: AuthSlice.State, actions: seq<AuthSlice.Action>): AuthSlice.State
    decreases |actions|
  {
    if |actions| == 0 then s else ReduceAll(AuthSlice.Reduce(s, actions[0]), actions[1..])
  }

  /** Initialisation always ends the hook's loading, whether there is a
      session, none, or the check fails. */
  lemma InitialisationEndsLoading(session: Remote<Option<AuthSlice.Session>>, lookup: Remote<Option<Record>>)
    ensures !InitializeAuth(Mounted, session, lookup).hook.loading
  {
  }

  /** With no session at start nothing is looked up and the stored user stays
      as it was. */
  lemma NoSessionNoChange(s: AuthSlice.State, lookup: Remote<Option<Record>>)
    ensures ReduceAll(s, InitializeAuth(Mounted, Done(None), lookup).dispatched) == s
  {
  }

  /** After a successful lookup the store holds the same user that
      `getCurrentSession` would have fulfilled with, and is no longer loading. */
  lemma HookAgreesWithSessionThunk(s: AuthSlice.State, session: AuthSlice.Session, row: Record)
    ensures
      var t := ReduceAll(s, InitializeAuth(Mounted, Done(Some(session)), Done(Some(row))).dispatched);
      && t.user == AuthSlice.CurrentSession(Done(Some(session)), Done(row)).value
      && !t.loading && t.error.None?
  {
    var d := InitializeAuth(Mounted, Done(Some(session)), Done(Some(row))).dispatched;
    assert d[1..] == [];
  }

  /** Once torn down, neither a lookup failure nor a lookup success reaches
      the store. */
  lemma NothingAfterTeardown(h: Hook, session: AuthSlice.Session, lookup: Remote<Option<Record>>)
    ensures FetchUserData(session, lookup, Teardown(h).mounted) == []
    ensures InitializeAuth(Teardown(h), Done(Some(session)), lookup).dispatched == []
  {
  }

  /** A lookup failure signs the user out; a missing row changes nothing. */
  lemma LookupOutcomes(s: AuthSlice.State, session: AuthSlice.Session, message: string)
    ensures ReduceAll(s, FetchUserData(session, Failed(message), true)).user.None?
    ensures ReduceAll(s, FetchUserData(session, Done(None), true)) == s
  {
    var d := FetchUserData(session, Failed(message), true);
    assert d[1..] == [];
  }
}
